=== FILE: README.md ===
# Siva identity-scoring core in Dafny

Siva looks at a set of claimed online identities (a handle, a profile URL,
an e-mail address) that someone presents as belonging to one person. It
scores how likely it is that one of them is a look-alike substitute, and
how weak the public evidence behind each identity is. From those scores it
decides whether to ALLOW, WARN or REQUEST_STRONGER_PROOF, proposes
remediation steps, and a verdict layer turns the result into REAL or FAKE
with a certainty.

This project models the deterministic part of that pipeline as pure Dafny
functions over immutable datatypes, and proves the properties each stage
promises. The stages are:

- **Identifier normalisation and confusability** (`Similarity`,
  `Identifiers`): homoglyph folding, Levenshtein distance, and the
  LCS-based similarity ratio.
- **Claim parsing** (`PlatformParse`, `Urls`, `Resolver`): e-mail, URL or
  handle claims under per-platform path rules, and the handle-to-profile-URL
  resolver with its round trip.
- **Display-name cleaning** (`NameClean`) and bio link-out extraction
  (`Linkout`).
- **The evidence graph** (`EvidenceGraph`, `Pairs`): one node per identity,
  one edge per unordered pair, crosslink scores and the set-level metrics.
- **Scoring**: the single-identity low-trust score (`SingleIdentityRisk`,
  with the fold shared by both scorers in `ReasonFold`) and the combined
  score `compute_risk_v2` (`RiskV2`).
- **Decisions**: the threshold policy and the earlier policy
  (`AgentPolicyV2`, `AgentPolicy`), the remediation ranking (`NextSteps`),
  the verdict layer (`JudgeV1`) and the baseline set-level judge
  (`BaselineJudge`).

Supporting modules:

- `Text`: Python's `strip`, `lower`, `\s` and `isdigit`.
- `Seqs`: dedup and counting.
- `Evidence`: the records the stages exchange.
- `Platforms`: the closed platform enumeration.
- `PlatformRendering`: which platform string reaches the platform rules.
- `Wrappers`: `Option` and `Result`.

Modelling choices:

- Scores are exact `real` numbers.
- The crosslink score is kept in integer hundredths.
- The avatar hasher and the reverse-link fetcher are function parameters.
- Python's `re`, `urllib.parse` and rapidfuzz are re-specified as small
  Dafny functions.

## Model

| member | source | states |
|---|---|---|
| Similarity.NormalizeIdentifierShape | src/siva_guard/pipeline/similarity.py:16-21 | the normalised identifier has no whitespace, no upper-case letter and none of the homoglyph keys `0 1 3 5 7 @ $` |
| Similarity.NormalizeIdentifierIdempotent | src/siva_guard/pipeline/similarity.py:16-21 | normalising an identifier twice gives the same key as normalising it once |
| Similarity.NormalizeIsCanon | src/siva_guard/pipeline/similarity.py:16-21 | the strip / lower / delete-whitespace / replace-each-homoglyph pipeline equals a per-character reference: each non-space character is lower-cased and folded through the map |
| Similarity.Lev | src/siva_guard/pipeline/similarity.py:27 | the edit distance is at most the longer length, and is 0 exactly for equal strings |
| Similarity.LevSymmetric | src/siva_guard/pipeline/similarity.py:27 | the edit distance does not depend on argument order |
| Similarity.LcsFull | src/siva_guard/pipeline/similarity.py:28 | a common subsequence as long as both strings forces the strings to be equal |
| Similarity.RatioOneIff | src/siva_guard/pipeline/similarity.py:28 | the similarity ratio 2·LCS/(\|a\|+\|b\|) is 1.0 exactly for equal strings |
| Similarity.Confusability | src/siva_guard/pipeline/similarity.py:23-29 | distance and ratio are both None exactly when either normalised input is empty; otherwise the ratio lies in [0,1] and the distance is bounded by the longer key |
| Similarity.ConfusabilityOfEmpty | src/siva_guard/pipeline/similarity.py:25-26 | an empty identifier has no similarity ratio with anything |
| Similarity.ConfusabilitySymmetric | src/siva_guard/pipeline/similarity.py:23-29 | `confusability(a, b) == confusability(b, a)` |
| Similarity.ConfusabilityIdentical | src/siva_guard/pipeline/similarity.py:27-28 | for non-empty keys, distance 0 and ratio 1.0 each hold exactly when the two normalised keys are equal |
| Similarity.ConfusabilityIgnoresKeyEquivalentChars | src/siva_guard/pipeline/similarity.py:24 | replacing characters by their other case, by other whitespace, or by their homoglyph leaves the result unchanged |
| Similarity.ConfusabilityIgnoresInsertedSpace | src/siva_guard/pipeline/similarity.py:24 | inserting a run of whitespace anywhere in an identifier leaves the result unchanged |
| Similarity.SwappedLettersRatio | src/siva_guard/pipeline/similarity.py:27-28 | identifiers with keys `john_doe` and `jhon_doe` (two adjacent letters swapped) have ratio 0.875, below the 0.92 confusability threshold |
| Identifiers.NormalizeBasic | src/siva_guard/pipeline/identifiers.py:20-29 | the basic key has no whitespace and no upper-case letter, and is no longer than the input |
| Identifiers.NormalizeBasicIdempotent | src/siva_guard/pipeline/identifiers.py:20-29 | normalising a key twice is normalising it once |
| Identifiers.NormalizeBasicKeepsNumbers | src/siva_guard/pipeline/identifiers.py:25-26 | an all-digit identifier, such as a Facebook numeric id, is returned unchanged |
| Identifiers.NormalizeBasicFolds | src/siva_guard/pipeline/identifiers.py:28 | on a key that is not all digits, `0` becomes `o`, `1` becomes `l`, and every other character is kept |
| Identifiers.NormalizeBasicNonEmpty | src/siva_guard/pipeline/identifiers.py:20-22 | an identifier with any non-whitespace character has a non-empty key |
| Identifiers.ParseClaimed | src/siva_guard/pipeline/identifiers.py:31-51 | `raw_claimed` is `claimed or ""`; kind, domain and handle are copied from `extract_handle`; the key is a basic key |
| Identifiers.ParseClaimedKeySource | src/siva_guard/pipeline/identifiers.py:42-43 | the key is the normalised handle when that is non-empty, and otherwise the normalised stripped claim |
| Identifiers.ParseClaimedEmpty | src/siva_guard/pipeline/identifiers.py:39-43 | a missing claim parses like an empty claim: kind other, no domain, no handle, empty key |
| Identifiers.ParseClaimedBlank | src/siva_guard/pipeline/identifiers.py:39-43 | a claim that is blank after stripping has no handle and an empty key |
| Identifiers.ParseClaimedEmail | src/siva_guard/pipeline/identifiers.py:40-43 | an e-mail claim parses as kind email and is keyed by its normalised lower-cased local part |
| Identifiers.BestCompareKey | src/siva_guard/pipeline/identifiers.py:54-61 | the triple is the parsed claim's `normalized` key, its domain and its handle; the key is already normalised |
| Identifiers.BestCompareKeySource | src/siva_guard/pipeline/identifiers.py:54-61 | the key is the basic normalisation of the parsed handle when that is non-empty, and otherwise of the stripped claimed string |
| PlatformParse.CleanHandle | src/siva_guard/pipeline/platform_parse.py:23-30 | a missing or empty handle gives None; otherwise the result is non-empty and neither starts nor ends with `/` |
| PlatformParse.CleanHandlePlain | src/siva_guard/pipeline/platform_parse.py:26-30 | a plain handle survives cleaning, and one leading `@` in front of it is removed |
| PlatformParse.ExtractHandle | src/siva_guard/pipeline/platform_parse.py:33-94 | the claim is stored stripped and the platform lower-cased; a handle-kind result has a handle matching `[A-Za-z0-9._-]{2,64}`; kind other has no handle; only URLs carry a domain |
| PlatformParse.EmailRule | src/siva_guard/pipeline/platform_parse.py:41-43 | an e-mail-shaped claim is kind email, with no domain and handle = the lower-cased text before the first `@`, whatever the platform |
| PlatformParse.UrlBranch | src/siva_guard/pipeline/platform_parse.py:46-87 | a non-e-mail claim starting with `http://` or `https://` in any case takes the URL branch |
| PlatformParse.UrlRule | src/siva_guard/pipeline/platform_parse.py:46-87 | a URL claim is kind url with domain = the lower-cased network location, and without path segments it has no handle |
| PlatformParse.NoSegmentsNoHandle | src/siva_guard/pipeline/platform_parse.py:84-87 | without path segments no platform rule yields a handle |
| PlatformParse.FacebookProfileRule | src/siva_guard/pipeline/platform_parse.py:74-80 | for facebook, a `/profile.php` path yields the cleaned first `id` query value, or None without one |
| PlatformParse.LinkedinRule | src/siva_guard/pipeline/platform_parse.py:54-85 | for linkedin, `/in/<h>` or `/company/<h>` yields `<h>`, and any other path falls back to the first segment |
| PlatformParse.HandleOrOtherRule | src/siva_guard/pipeline/platform_parse.py:89-94 | a claim that is neither e-mail nor URL is kind handle exactly when the cleaned claim matches the handle pattern, and kind other with no handle otherwise |
| Resolver.DropAt | src/siva_guard/connectors/resolver.py:13-14 | exactly one leading `@` is removed, and a claim without one is kept |
| Resolver.ResolveToUrl | src/siva_guard/connectors/resolver.py:5-39 | a stripped claim starting with `http://` or `https://` (case-sensitive) is returned as is; after dropping one `@`, an empty claim gives None; otherwise the platform's profile pattern is filled with the handle, or None for a platform without a pattern |
| Resolver.NotGuessed | src/siva_guard/connectors/resolver.py:38-39 | for Snapchat, Discord, Telegram, Email, Website and Other, a result exists exactly when the claim already is a URL |
| Resolver.NothingToResolve | src/siva_guard/connectors/resolver.py:13-17 | an absent claim, a blank one, and a lone `@` resolve to nothing |
| Resolver.OneAtDropped | src/siva_guard/connectors/resolver.py:13-14 | `@@h` keeps one `@`: only one leading `@` is dropped |
| Resolver.ProfileTemplate | src/siva_guard/connectors/resolver.py:20-36 | the GitHub, X, Instagram and LinkedIn patterns are `https://` + host + path lead + handle, with a trailing `/` for Instagram and LinkedIn |
| Resolver.ResolvedProfileUrl | src/siva_guard/connectors/resolver.py:20-36 | a plain handle, with or without one `@`, resolves to the platform's profile URL for that handle |
| Resolver.ResolveExtractRoundTrip | src/siva_guard/connectors/resolver.py:20-36 | for GitHub, X, Instagram and LinkedIn, parsing the resolved URL of a plain handle under the platform keyword gives kind url and returns the handle |
| NameClean.PlatformTokens | src/siva_guard/pipeline/name_clean.py:6-12 | every platform lists at most two non-empty labels, and only `twitter` lists two (`twitter`, `x`) |
| NameClean.SplitOnMarkers | src/siva_guard/pipeline/name_clean.py:31-33 | the result is no longer than the input, every character of it comes from the input, and it contains none of the markers |
| NameClean.SplitOnMarkersSlice | src/siva_guard/pipeline/name_clean.py:31-33 | the marker loop only cuts: its result is a contiguous piece `s[i..j]` of its input |
| NameClean.TokenStepRemovesOneListedLabel | src/siva_guard/pipeline/name_clean.py:38-41 | the token step either keeps the text or removes exactly one trailing ` <label>` for a label listed for the platform, then strips |
| NameClean.CleanDisplayName | src/siva_guard/pipeline/name_clean.py:17-45 | a missing or empty name gives `""`; the result is never longer than the input, contains no split marker, is single-spaced and has no whitespace at either end |
| NameClean.NoTokensNoRemoval | src/siva_guard/pipeline/name_clean.py:36-41 | a platform without labels, such as `x`, cleans exactly as with no platform |
| NameClean.TemplateTitle | src/siva_guard/pipeline/name_clean.py:27-45 | a templated title `name <marker> label` cleans to the name, for every split marker |
| NameClean.TrailingLabel | src/siva_guard/pipeline/name_clean.py:36-44 | a title `name label`, with the label the platform's own in any case, cleans to the name |
| NameClean.FacebookTitleExample | src/siva_guard/tests/test_name_clean.py:5 | `clean_display_name("John Doe \| Facebook", platform="facebook") == "John Doe"` |
| NameClean.BulletTitleExample | src/siva_guard/tests/test_name_clean.py:9 | the title `Jane` + bullet (U+2022) + `Instagram` cleans to `Jane` under instagram |
| NameClean.MisencodedBulletExample | src/siva_guard/tests/test_name_clean.py:9 | the title as stored in the test file, with the bullet mis-decoded into three other characters, cleans to `Jane` followed by those three characters, not to `Jane` |
| Linkout.UrlAt | src/siva_guard/pipeline/linkout.py:10 | a URL match at the head of the text is a whole match of `https?://[^\s)]+`, and it extends as far as the URL characters go |
| Linkout.FindUrls | src/siva_guard/pipeline/linkout.py:10 | every found URL is a match of the URL pattern |
| Linkout.FindUrlsStep | src/siva_guard/pipeline/linkout.py:26 | a URL followed by a separator is found as one match, and the scan resumes after it |
| Linkout.FindUrlsRepeats | src/siva_guard/pipeline/linkout.py:26 | a URL written twice is reported twice: the URL list keeps duplicates |
| Linkout.FindHandles | src/siva_guard/pipeline/linkout.py:11 | every found handle has 2 to 64 characters from `[A-Za-z0-9._-]` |
| Linkout.FindHandlesStep | src/siva_guard/pipeline/linkout.py:27 | an `@handle` followed by a separator is found as one match, and the scan resumes after it |
| Linkout.FindHandlesCapped | src/siva_guard/pipeline/linkout.py:11 | a run of more than 64 handle characters after `@` yields its first 64, and the scan resumes inside the run |
| Linkout.Domains | src/siva_guard/pipeline/linkout.py:29-38 | the host loop gives distinct non-empty hosts; a host is listed exactly when it is the key of some accepted network location; hosts appear in the order of their first occurrence |
| Linkout.DistinctHandles | src/siva_guard/pipeline/linkout.py:40-47 | the handle loop gives distinct lower-case handles, each exactly the lower-cased form of some found handle, in the order in which each lower-cased handle first occurs |
| Linkout.ExtractLinkouts | src/siva_guard/pipeline/linkout.py:21-49 | missing or empty text gives three empty lists; the URLs are all matches in order; the domains are distinct, non-empty and lower-case hosts of the URLs in first-occurrence order; the handles are distinct lower-cased 2-64 character handles found in the text, in first-occurrence order |
| Seqs.DedupUnique | src/siva_guard/pipeline/linkout.py:29-47 | a duplicate-free list holding every element of a sequence, in first-occurrence order, is the order-preserving dedup of that sequence: the seen-set loops have one possible result |
| EvidenceGraph.SafeStr | src/siva_guard/pipeline/evidence_graph_v2.py:263-264 | the result has no whitespace at either end, and is empty for a missing value |
| EvidenceGraph.DomainsFromUrls | src/siva_guard/pipeline/evidence_graph_v2.py:267-278 | the hosts are distinct, non-empty, lower-case and stripped; a host is listed exactly when some URL has it as its network location; hosts appear in the order of their first occurrence |
| EvidenceGraph.Prefer | src/siva_guard/pipeline/evidence_graph_v2.py:311-313 | the public value wins when it is non-empty after stripping; the result is empty only when both sources are |
| EvidenceGraph.AvatarFeatures | src/siva_guard/pipeline/evidence_graph_v2.py:373-376 | without an avatar URL the node has no digest and the error `avatar_url_missing`; otherwise it takes the digest and error of the hasher |
| EvidenceGraph.ReverseOf | src/siva_guard/pipeline/evidence_graph_v2.py:334-344 | the first bio URL, and only that one, is fetched; without bio URLs there is no reverse-link data |
| EvidenceGraph.MakeNode | src/siva_guard/pipeline/evidence_graph_v2.py:302-377 | a node keeps the entry's id, platform and public flag, and its parsed kind, domain, handle and key are those of `parse_claimed` on the claim |
| EvidenceGraph.CrosslinkScore | src/siva_guard/pipeline/evidence_graph_v2.py:416-458 | the score is the sum of the contributions capped at 1.0 |
| EvidenceGraph.MakeEdge | src/siva_guard/pipeline/evidence_graph_v2.py:397-495 | the edge carries the handle-key confusability ratio; it has a name similarity only when both names are non-empty; it has an avatar match only when both digests exist, and that match is true exactly when they are equal; crosslink holds exactly when the score is at least 0.5 |
| EvidenceGraph.CrosslinkSymmetric | src/siva_guard/pipeline/evidence_graph_v2.py:416-460 | the crosslink score and flag do not depend on which identity comes first |
| EvidenceGraph.CrosslinkSignals | src/siva_guard/pipeline/evidence_graph_v2.py:426-460 | any 0.5 signal alone makes a crosslink; without one, it takes at least two of the 0.35/0.25 signals |
| EvidenceGraph.CrosslinkZero | src/siva_guard/pipeline/evidence_graph_v2.py:416-458 | the score is 0 exactly when no signal fires |
| EvidenceGraph.Coverage | src/siva_guard/pipeline/evidence_graph_v2.py:498-499 | public coverage lies in [0,1] and is 0 with no identities |
| EvidenceGraph.MetricsOf | src/siva_guard/pipeline/evidence_graph_v2.py:497-508 | avatar mismatches ≤ confusable pairs ≤ edges, name mismatches ≤ confusable pairs, and crosslink hits ≤ edges |
| EvidenceGraph.BuildEvidenceGraph | src/siva_guard/pipeline/evidence_graph_v2.py:289-517 | one node per entry, in input order, and `num_identities` is the entry count |
| EvidenceGraph.BuildEvidenceGraphEdgeCount | src/siva_guard/pipeline/evidence_graph_v2.py:390-391 | the graph has exactly n·(n−1)/2 edges |
| EvidenceGraph.BuildEvidenceGraphEdges | src/siva_guard/pipeline/evidence_graph_v2.py:390-395 | every edge is the edge of some pair i < j of nodes (so no self-loops), and every pair i < j has its edge |
| EvidenceGraph.BuildEvidenceGraphMetrics | src/siva_guard/pipeline/evidence_graph_v2.py:460-508 | the graph's coverage is a fraction, mismatches are counted only among confusable pairs, and no count exceeds the edge count |
| EvidenceGraph.BlankClaimAborts | src/siva_guard/pipeline/evidence_graph_v2.py:465 | as written, two entries, the first claiming only whitespace, make the comparison `handle_sim >= 0.92` meet None, and the builder fails |
| EvidenceGraph.AsWrittenFailsIff | src/siva_guard/pipeline/evidence_graph_v2.py:390-467 | as written, the builder fails exactly when there are at least two entries and some entry's handle key normalises to the empty string |
| EvidenceGraph.BuildEvidenceGraphTotal | src/siva_guard/pipeline/evidence_graph_v2.py:460-473 | the corrected builder always returns a graph; whenever the code as written returns, it returns that same graph; the confusable count is the number of pairs i < j whose ratio is present and at least 0.92 |
| EvidenceGraph.BuildEvidenceGraphCounts | src/siva_guard/pipeline/evidence_graph_v2.py:460-473 | each metric counts pairs i < j: confusable pairs with ratio ≥ 0.92; name mismatches among them with both name keys non-empty and name ratio < 0.60; avatar mismatches among them with two different avatar hashes; crosslink hits with crosslink score ≥ 0.50 |
| Pairs.AllPairsIff | src/siva_guard/pipeline/evidence_graph_v2.py:390-391 | the nested loop visits the pair (i, j) exactly when i < j < n |
| Pairs.AllPairsDistinct | src/siva_guard/pipeline/evidence_graph_v2.py:390-391 | the nested loop never visits a pair twice |
| PlatformRendering.CollectedPlatformAsWritten | src/siva_guard/agent/tools/build_per_identity.py:34-36 | as written, the stored platform string (`str(enum)`, e.g. `Platform.FACEBOOK`) lower-cases to a key no platform rule names, and has no labels to remove |
| PlatformRendering.RenderedUrlFirstSegment | src/siva_guard/pipeline/platform_parse.py:53-85 | with the rendered platform, every URL claim yields its first path segment, so `/in/<h>` and `profile.php?id=` are never read |
| PlatformRendering.RenderedKeepsLabels | src/siva_guard/pipeline/name_clean.py:36-41 | with the rendered platform, a trailing platform label is never removed |
| PlatformRendering.CollectedPlatform | src/siva_guard/agent/tools/build_per_identity.py:34-36 | corrected: the stored keyword is its own platform key, selects the Facebook rule for Facebook, and lists the platform's own label for Facebook, Instagram, GitHub and LinkedIn |
| SingleIdentityRisk.NormPlatformFacebookIff | src/siva_guard/pipeline/single_identity_risk.py:36-38 | the platform normalises to `facebook` exactly when its lower-cased text contains `facebook` |
| SingleIdentityRisk.NormPlatformFacebook | src/siva_guard/pipeline/single_identity_risk.py:31-38 | both `Platform.FACEBOOK` and `facebook` normalise to `facebook` |
| SingleIdentityRisk.BlankBioIsGeneric | src/siva_guard/pipeline/single_identity_risk.py:54-57 | a bio that is empty after stripping is generic |
| SingleIdentityRisk.TemplatePhraseIsGeneric | src/siva_guard/pipeline/single_identity_risk.py:54-58 | a bio containing a listed template phrase, in any letter case, is generic |
| SingleIdentityRisk.NameRepetitionScore | src/siva_guard/pipeline/single_identity_risk.py:61-85 | the repetition score is 0, 0.8 or 1.0, and 0 for fewer than two tokens |
| SingleIdentityRisk.ImmediateRepetitionScore | src/siva_guard/pipeline/single_identity_risk.py:75-77 | a name whose first two tokens are equal scores 1.0 |
| SingleIdentityRisk.HalvesRepetitionScore | src/siva_guard/pipeline/single_identity_risk.py:79-83 | `A B A B`, an even token list with equal halves and no immediate repeat, scores 0.8 |
| SingleIdentityRisk.NoRepetitionScore | src/siva_guard/pipeline/single_identity_risk.py:61-85 | a name with no immediate repeat and no equal halves scores 0 |
| SingleIdentityRisk.ScoreSingleIdentity | src/siva_guard/pipeline/single_identity_risk.py:88-147 | the risk lies in [0.10, 0.80]; the reasons are per-identity codes, each at most once, in check order; the risk is 0.10 plus the increments the reasons stand for |
| SingleIdentityRisk.ReasonsIff | src/siva_guard/pipeline/single_identity_risk.py:105-145 | each per-identity reason is present exactly when its signal holds, and no set-level reason is ever present |
| SingleIdentityRisk.FacebookSignalRendered | src/siva_guard/pipeline/single_identity_risk.py:107-112 | with the rendered `Platform.FACEBOOK`, the numeric-id signal fires exactly when the claim contains both `profile.php` and `id=` |
| Evidence.Clamp01 | src/siva_guard/pipeline/risk_v2.py:19-20 | the result lies in [0,1], equals x inside that range, and clips x outside it |
| RiskV2.SubstitutionReasons | src/siva_guard/pipeline/risk_v2.py:45-63 | the set-level reasons appear in the fixed order: coverage, confusable, name mismatch, avatar mismatch, crosslink |
| RiskV2.SubstitutionReasonsIff | src/siva_guard/pipeline/risk_v2.py:45-63 | each set-level reason is present exactly when its metric condition holds |
| RiskV2.SubstitutionExplained | src/siva_guard/pipeline/risk_v2.py:43-65 | the substitution risk is 0.10 plus the changes its reasons stand for, capped at 1.0 |
| RiskV2.StrongestIsMax | src/siva_guard/pipeline/risk_v2.py:73-77 | the loop over single-identity results computes the maximum of its start value and the scores |
| RiskV2.StrongestFirst | src/siva_guard/pipeline/risk_v2.py:73-77 | the strict `>` keeps the reasons of the first identity that reaches the maximum |
| RiskV2.Authenticity | src/siva_guard/pipeline/risk_v2.py:70-79 | the authenticity risk is the largest single-identity score (0 without identities), within [0, 0.80] |
| RiskV2.AuthenticityReasons | src/siva_guard/pipeline/risk_v2.py:81-86 | above 0.25 the umbrella `low_trust_single_identity_signals` reason comes first, followed by at most three of the top identity's reasons; otherwise nothing is added |
| RiskV2.BaseConfidence | src/siva_guard/pipeline/risk_v2.py:98-108 | for a coverage in [0,1], the confidence before the cap is 0.40 + 0.50·coverage − min(0.20, 0.05·errors), clamped to [0,1] |
| RiskV2.BaseConfidenceMonotone | src/siva_guard/pipeline/risk_v2.py:104-108 | more public coverage never lowers the confidence, and more collection errors never raise it |
| RiskV2.ComputeRiskV2 | src/siva_guard/pipeline/risk_v2.py:23-128 | substitution risk in [0,1]; authenticity risk in [0, 0.80]; overall risk = the larger of the two; confidence is the clamped base confidence, cut to 0.75 exactly when the authenticity risk is at least 0.70 (the weak-evidence condition then always holds) |
| RiskV2.ComputeRiskV2Authenticity | src/siva_guard/pipeline/risk_v2.py:73-79 | the authenticity risk bounds every identity's score and is attained by one of them |
| RiskV2.CombineLowTrust | src/siva_guard/pipeline/risk_v2.py:81-86 | the umbrella reason is present exactly when the authenticity risk exceeds 0.25 |
| RiskV2.CombineCapsConfidence | src/siva_guard/pipeline/risk_v2.py:110-120 | an authenticity risk of at least 0.70 always brings the umbrella reason, so the confidence is then at most 0.75 |
| RiskV2.ComputeRiskV2CapsConfidence | src/siva_guard/pipeline/risk_v2.py:112-120 | over the entries: authenticity ≥ 0.70 implies confidence ≤ 0.75 |
| AgentPolicyV2.ActionFor | src/siva_guard/pipeline/agent_policy_v2.py:25-31 | REQUEST_STRONGER_PROOF exactly from 0.70, WARN exactly on [0.40, 0.70), ALLOW exactly below 0.40 |
| AgentPolicyV2.DecideActionV2 | src/siva_guard/pipeline/agent_policy_v2.py:6-37 | the metrics pass through; the action follows the risk bands; the coverage reason is present exactly for several identities under 0.5 coverage; the confusable reason exactly for a confusable pair; with both, coverage comes first |
| AgentPolicyV2.ActionMonotone | src/siva_guard/pipeline/agent_policy_v2.py:25-31 | a higher overall risk never gives a milder action |
| AgentPolicyV2.DecisionSeparates | src/siva_guard/pipeline/agent_policy_v2.py:17-31 | the reasons do not depend on the overall risk, and the action does not depend on the metrics |
| AgentPolicy.AgentDecision | src/siva_guard/pipeline/agent_policy.py:5-24 | the metrics pass through; with neither condition, ALLOW with no reasons; a confusable pair alone gives WARN; weak coverage across several identities gives REQUEST_STRONGER_PROOF whatever else holds; the confusable reason comes first |
| AgentPolicy.SameConditionsAsV2 | src/siva_guard/pipeline/agent_policy.py:12-18 | both policies flag the same two conditions, and the earlier one asks for stronger proof exactly when the later one reports weak coverage |
| NextSteps.ValidCodes | src/siva_guard/pipeline/next_steps.py:167-171 | a code is collected exactly when some entry carries it as a non-empty string |
| NextSteps.AddAll | src/siva_guard/pipeline/next_steps.py:177-187 | the seen-set loop keeps what was collected, covers every offered code, and adds no code that was neither collected nor offered |
| NextSteps.Candidates | src/siva_guard/pipeline/next_steps.py:173-187 | the collected steps have distinct codes: the action defaults plus at most two templates per code |
| NextSteps.RepeatAddsNothing | src/siva_guard/pipeline/next_steps.py:183-187 | a reason code that was already gathered adds nothing when it comes again |
| NextSteps.Sort | src/siva_guard/pipeline/next_steps.py:189 | sorting is a permutation of the collected steps |
| NextSteps.SortSorted | src/siva_guard/pipeline/next_steps.py:189 | the sorted steps are ordered by (priority, code) |
| NextSteps.PyTake | src/siva_guard/pipeline/next_steps.py:192 | `s[:n]` is a prefix of length min(n, \|s\|) for n ≥ 0, and counts from the end for negative n |
| NextSteps.RankedSteps | src/siva_guard/pipeline/next_steps.py:189-192 | the ranked steps are sorted by (priority, code), have distinct codes, number `min(max_steps, candidates)` under Python slicing, and every kept step ranks no later than every dropped candidate |
| NextSteps.RankedAll | src/siva_guard/pipeline/next_steps.py:189-192 | when `max_steps` is at least the number of distinct candidate steps, the ranking only sorts |
| NextSteps.GenerateNextSteps | src/siva_guard/pipeline/next_steps.py:155-195 | no two output steps share a code, and for `max_steps` ≥ 0 there are exactly `min(max_steps, number of distinct candidate steps)` of them |
| NextSteps.MoreRoomExtends | src/siva_guard/pipeline/next_steps.py:189-192 | raising `max_steps` only appends steps: the shorter output is a prefix of the longer one |
| NextSteps.StrongerProofFirst | src/siva_guard/pipeline/next_steps.py:135-141 | REQUEST_STRONGER_PROOF with room for one step puts `stronger_proof_required` first |
| NextSteps.WarnOutput | src/siva_guard/pipeline/next_steps.py:143-150 | WARN without known reason codes gives exactly the `proceed_with_caution` step |
| NextSteps.WarnAlone | src/siva_guard/pipeline/next_steps.py:143-150 | WARN without known reason codes gives the single output `{proceed_with_caution, "Proceed with caution", <its detail>}` |
| NextSteps.NoDefaultsNoSteps | src/siva_guard/pipeline/next_steps.py:151 | ALLOW, or any action without defaults, without known codes gives no steps |
| NextSteps.UnusableIgnored | src/siva_guard/pipeline/next_steps.py:167-171 | an entry without a non-empty string code changes nothing |
| NextSteps.RepeatIgnored | src/siva_guard/pipeline/next_steps.py:183-187 | repeating a code that an earlier entry already supplied changes nothing |
| NextSteps.OutputFromTables | src/siva_guard/pipeline/next_steps.py:176-187 | every output code is a default of the action or a template of a supplied code |
| NextSteps.OutputComplete | src/siva_guard/pipeline/next_steps.py:176-193 | when `max_steps` is at least the number of distinct candidate steps, every default of the action and every template of a supplied code is output |
| JudgeV1.ReasonCodes | src/siva_guard/pipeline/judge_v1.py:10-18 | a string is among the codes exactly when some entry carries it as a string `code` |
| JudgeV1.PrimaryReasons | src/siva_guard/pipeline/judge_v1.py:157-160 | the primary reasons are exactly the entries that have a `code` key |
| JudgeV1.PrimaryReasonsAppend | src/siva_guard/pipeline/judge_v1.py:157-160 | the comprehension keeps order and repeats: the primary reasons of a concatenation are those of its parts, concatenated |
| JudgeV1.PrimaryReasonsOne | src/siva_guard/pipeline/judge_v1.py:157-160 | a single entry is kept exactly when it has a `code` key |
| JudgeV1.ActionOf | src/siva_guard/pipeline/judge_v1.py:79 | the action is never empty, and a non-empty action string is kept |
| JudgeV1.MetricsDictOf | src/siva_guard/pipeline/judge_v1.py:27-35 | the top-level metrics win; otherwise the evidence graph's metrics; otherwise an empty dictionary |
| JudgeV1.Decide | src/siva_guard/pipeline/judge_v1.py:117-154 | FAKE exactly when the substitution evidence holds at overall ≥ 0.55; HIGH exactly for FAKE at ≥ 0.70; abstention exactly with LOW certainty and only on REAL; REAL abstains exactly on an escalating action, a weak-evidence code or coverage < 0.5, and is MEDIUM otherwise |
| JudgeV1.Judge | src/siva_guard/pipeline/judge_v1.py:56-191 | the decision over the metrics read with defaults; primary reasons are the order-preserving filter of the entries with a code; `judge_version` is `judge_v1`; the published standard is returned; the supporting values and `siva_passthrough` repeat the overall risk, confidence and action read |
| JudgeV1.FakeHighMeetsStandard | src/siva_guard/pipeline/judge_v1.py:97-125 | a FAKE verdict at HIGH certainty meets every criterion the published standard lists |
| JudgeV1.PublishedSignalsDecide | src/siva_guard/pipeline/judge_v1.py:97-125 | the published contradiction-signal list is the decision's contradiction test: the metrics contradict exactly when one listed signal holds, and FAKE has confusable pairs as the standard requires |
| JudgeV1.MediumFakeBelowPublishedThreshold | src/siva_guard/pipeline/judge_v1.py:127-144 | a FAKE verdict at MEDIUM certainty exists with overall risk 0.60, below the published 0.70 threshold |
| JudgeV1.SingleIdentityNeverFake | src/siva_guard/pipeline/judge_v1.py:119-133 | fewer than two identities are never judged FAKE |
| JudgeV1.WeakEvidenceAloneNotFake | src/siva_guard/pipeline/judge_v1.py:117-133 | without confusable pairs or without a contradiction signal, the verdict is REAL |
| JudgeV1.VerdictIgnoresReasonsAndAction | src/siva_guard/pipeline/judge_v1.py:119-144 | the verdict, and the certainty of a FAKE verdict, do not depend on the reasons or the action |
| JudgeV1.FakeMonotoneInRisk | src/siva_guard/pipeline/judge_v1.py:119-140 | raising the overall risk never turns FAKE into REAL and never lowers HIGH certainty |
| JudgeV1.EscalationAbstains | src/siva_guard/pipeline/judge_v1.py:145-151 | an escalating action always makes a REAL verdict abstain with LOW certainty |
| JudgeV1.PolicyOutputJudged | src/siva_guard/pipeline/judge_v1.py:119-151 | judging the threshold policy's output: FAKE only with an escalating action, and REAL at overall ≥ 0.40 always abstains |
| BaselineJudge.PairsWhere | src/siva_guard/pipeline/judge.py:16-19 | exactly the pairs i < j whose identifiers pass the test are listed |
| BaselineJudge.MissingPublic | src/siva_guard/pipeline/judge.py:26 | the missing count reaches n exactly when no identity has public evidence |
| BaselineJudge.BaselineRisk | src/siva_guard/pipeline/judge.py:34-37 | the risk is 0.80 with a confusable pair, no public evidence and at least two identities; otherwise 0.65 with a confusable pair; otherwise 0.25 without public evidence; otherwise 0.10 |
| BaselineJudge.BaselineConfidence | src/siva_guard/pipeline/judge.py:39 | the confidence is 0.75 exactly when some evidence is public, and 0.45 otherwise |
| BaselineJudge.PerIdentityLastWins | src/siva_guard/pipeline/judge.py:41-47 | each claimed string maps to the summary of its last record |
| BaselineJudge.JudgeIdentitySet | src/siva_guard/pipeline/judge.py:9-54 | the risk is the baseline value of (some pair of claimed strings is confusable, no evidence is public, identity count); confidence is 0.75 with some public evidence and 0.45 otherwise; the limitation reason is present exactly when no evidence is public, including n = 0; the summary map is keyed by claimed string |
| BaselineJudge.ConfusableReasonIff | src/siva_guard/pipeline/judge.py:16-24 | a confusable reason names a and b exactly when some pair i < j has those identifiers with ratio ≥ 0.92 and distance ≤ 2 |
| BaselineJudge.ConfusableReasonCount | src/siva_guard/pipeline/judge.py:16-32 | there is one confusable reason per confusable pair, in loop order, before the limitation reason |
| BaselineJudge.RiskHighIffConfusablePair | src/siva_guard/pipeline/judge.py:34-35 | the risk reaches 0.65 exactly when some pair is confusable |
| BaselineJudge.NoEvidence | src/siva_guard/pipeline/judge.py:26-39 | with no evidence the judge reports the limitation, the base risk and the low confidence |
| BaselineJudge.LaterRecordWins | src/siva_guard/pipeline/judge.py:41-47 | a later record with the same claimed string replaces the earlier summary |

## Left out

- Network and HTML collection, the avatar hasher and the reverse-link fetcher: these are I/O. `hash_avatar_url` and `fetch_outbound_links` are function parameters of `EvidenceGraph.MakeNode` and `EvidenceGraph.BuildEvidenceGraph`.
- The LLM layer, agent orchestration, the API server, and the legacy networkx builders (`evidence_graph.py`, `coherence.py`): these are external calls, mutable shared state, or superseded code.
- The networkx `Graph` object is replaced by the node and edge sequences the builder also returns. The `public_evidence` key fallback is modelled as a second optional field.
- Floating point: scores are exact reals. Sums such as 0.1 + 0.25 + 0.30 can land just beside a threshold in CPython, and exact arithmetic does not reproduce that.
- Text: `lower()` and `isdigit()` are ASCII-only here; `\s` and `strip()` use Python's full whitespace set; `re.IGNORECASE` is applied to ASCII letters only.
- Urls: `urlparse` and `parse_qs` are simplified. There is no percent-decoding (a `+` in a query does read as a space), no port or user-info handling, and the `ValueError` for unbalanced IPv6 brackets is modelled only where it is caught: as a skipped host in `Linkout.Domains`. In `extract_handle` the same error would propagate; the model parses such a URL on.
- Dictionary inputs are typed records. The `_as_float`/`_as_int` coercion of `judge_v1`, the `int(... or 0)` reads of `compute_risk_v2` and `decide_action_v2`, and non-dictionary reason entries are not modelled. `judge_v1` and `compute_risk_v2` skip such entries by an `isinstance` test; in `generate_next_steps` only a falsy entry is skipped (`(r or {}).get("code")`), and a truthy non-dictionary entry such as a string raises `AttributeError`.
- AgentPolicy.AgentDecision: `agent_decision` reads `metrics["..."]` and raises `KeyError` on a missing key; the model takes complete metrics.
- Reason `detail` strings and messages with formatted floats are modelled as structured values; the string formatting (`:.2f`) is not.
- SingleIdentityRisk.NormPlatform: its contract states only that the result has no upper-case letter; the keyword order is stated for Facebook by `SingleIdentityRisk.NormPlatformFacebookIff`, and not separately for the other keywords.
- Resolver.ResolveExtractRoundTrip: stated for GitHub, X, Instagram and LinkedIn and for handles of letters, digits, `.`, `_` and `-`; a handle with `/`, `?` or `#` changes the URL's structure. TikTok and YouTube profile URLs end in `/@h` and are read back by the fallback first-segment rule, whose cleaning drops the `@`, except that a handle with a `.` between two other characters makes the whole URL match the e-mail pattern (src/siva_guard/pipeline/platform_parse.py:19, 41-43), so it parses as kind email. Facebook URLs are read back except for a handle equal to `profile.php` in any letter case, which takes the `profile.php` rule (platform_parse.py:74-81) and yields no handle. These three platforms are not part of the lemma.
- EvidenceGraph.MetricsOf: its own contract gives only the bounds between the counts; the counts themselves are stated over the built graph by `EvidenceGraph.BuildEvidenceGraphCounts`.
- `judge_from_siva_output` only returns `judge_v1`'s result; the model has `JudgeV1.Judge` alone.
- Linkout.FindUrls: the model does not state the regex engine's left-to-right leftmost-match order as a separate property; `FindUrlsStep` and `FindUrlsSkip` pin it down step by step.
- `html_links.py`, `social_url.py`, `generic_url.py` and `http_client.py` are not part of this model.

## Findings

| source | as written | input that shows it | evidently intended | confidence | as-written member | corrected member |
|---|---|---|---|---|---|---|
| src/siva_guard/pipeline/evidence_graph_v2.py:465 | `handle_sim >= 0.92` compares the ratio returned by `confusability`, which is None when either handle key normalises to the empty string | two identities, the first claiming `"  "`: its key is empty, the ratio is None, and the comparison raises `TypeError` | a missing similarity counts as not confusable, and the graph is still built | not executed | EvidenceGraph.BlankClaimAborts | EvidenceGraph.BuildEvidenceGraphTotal |
| src/siva_guard/agent/tools/build_per_identity.py:36 | the platform is stored as `str(enum)`, e.g. `Platform.FACEBOOK`, and the URL rules and label removal compare the lower-cased string with bare keywords | claim `https://www.linkedin.com/in/jane/` on LinkedIn: the stored platform `platform.linkedin` matches no rule, so the handle is `in` rather than `jane` | the platform keyword (`linkedin`) reaches `extract_handle` and `clean_display_name` | not executed | PlatformRendering.CollectedPlatformAsWritten | PlatformRendering.CollectedPlatform |
| src/siva_guard/tests/test_name_clean.py:9 | the expected clean of the title `Jane â€¢ Instagram` (a UTF-8 bullet decoded as cp1252) is `Jane` | that title: none of `â`, `€`, `¢` is a split marker, so cleaning removes only the label and gives `Jane â€¢` | the title contains the bullet U+2022 and cleans to `Jane` | not executed | NameClean.MisencodedBulletExample | NameClean.BulletTitleExample |

### Where the code's documentation and the code differ (the model follows the code)

- The docstring of `decide_action_v2` says weak evidence coverage gives REQUEST_STRONGER_PROOF. The code uses coverage only for an informational reason, and the action follows the overall risk alone (`AgentPolicyV2.DecisionSeparates`).
- `judge_v1` publishes a 0.70 overall-risk threshold for FAKE. It also returns FAKE with MEDIUM certainty from 0.55 (`JudgeV1.MediumFakeBelowPublishedThreshold`).

=== FILE: agent_policy.dfy ===
/** The earlier policy `agent_decision`: confusable identities warn, weak
    coverage across several identities asks for stronger proof and
    overrides the warning; the overall risk plays no part. */
module AgentPolicy {
  import opened Evidence
  import V2 = AgentPolicyV2

  /** The reason messages of the policy. */
  datatype Message = HighlyConfusable | InsufficientPublicEvidence

  function MessageText(r: Message): string {
    match r
    case HighlyConfusable => "Multiple identities are highly confusable."
    case InsufficientPublicEvidence => "Insufficient public evidence across identities."
  }

  /** The returned record; `metrics` is the input passed through. */
  datatype Decision = Decision(action: Action, reasons: seq<Message>, metrics: Metrics)

  /** `agent_decision(metrics)`. */
  function AgentDecision(m: Metrics): (d: Decision)
    ensures d.metrics == m
    ensures !V2.WeakCoverage(m) && m.confusablePairs == 0 ==> d.action == Allow && d.reasons == []
    ensures !V2.WeakCoverage(m) && m.confusablePairs > 0 ==> d.action == Warn
    ensures V2.WeakCoverage(m) ==> d.action == RequestStrongerProof
    ensures HighlyConfusable in d.reasons <==> m.confusablePairs > 0
    ensures InsufficientPublicEvidence in d.reasons <==> V2.WeakCoverage(m)
    ensures |d.reasons| == 2 ==> d.reasons[0] == HighlyConfusable && d.reasons[1] == InsufficientPublicEvidence
  {
    var action := Allow;
    var reasons := [];
    var (action, reasons) :=
      if m.confusablePairs > 0 then (Warn, reasons + [HighlyConfusable]) else (action, reasons);
    var (action, reasons) :=
      if m.publicCoverage < 0.5 && m.numIdentities > 1
      then (RequestStrongerProof, reasons + [InsufficientPublicEvidence]) else (action, reasons);
    Decision(action, reasons, m)
  }

  /** The two policies flag the same two conditions, in opposite order;
      the earlier one asks for stronger proof exactly when the later one
      reports weak coverage. */
  lemma SameConditionsAsV2(m: Metrics, overallRisk: real)
    ensures var d1 := AgentDecision(m);
            var d2 := V2.DecideActionV2(m, overallRisk);
            && |d1.reasons| == |d2.reasons|
            && (HighlyConfusable in d1.reasons <==> V2.ConfusableIdentifiersPresent in d2.reasons)
            && (d1.action == RequestStrongerProof <==> V2.LowPublicCoverageMultiIdentity in d2.reasons)
  {
  }
}

=== FILE: agent_policy_v2.dfy ===
/** The threshold policy `decide_action_v2`: the action follows the overall
    risk alone; the reasons flag the coverage and confusability metrics but
    do not influence the action. */
module AgentPolicyV2 {
  import opened Evidence

  /** The reason strings of the policy. */
  datatype PolicyReason = LowPublicCoverageMultiIdentity | ConfusableIdentifiersPresent

  function PolicyReasonName(r: PolicyReason): string {
    match r
    case LowPublicCoverageMultiIdentity => "low_public_coverage_multi_identity"
    case ConfusableIdentifiersPresent => "confusable_identifiers_present"
  }

  /** The returned record; `metrics` is the input passed through. */
  datatype Decision = Decision(action: Action, reasons: seq<PolicyReason>, metrics: Metrics)

  /** The ordering ALLOW < WARN < REQUEST_STRONGER_PROOF. */
  function Severity(a: Action): nat {
    match a
    case Allow => 0
    case Warn => 1
    case RequestStrongerProof => 2
  }

  /** Several identities, fewer than half of them with public evidence. */
  predicate WeakCoverage(m: Metrics) {
    m.numIdentities > 1 && m.publicCoverage < 0.5
  }

  /** The action for an overall risk: REQUEST_STRONGER_PROOF from 0.70,
      WARN from 0.40, ALLOW below. */
  function ActionFor(overallRisk: real): (a: Action)
    ensures a == RequestStrongerProof <==> overallRisk >= 0.70
    ensures a == Warn <==> 0.40 <= overallRisk < 0.70
    ensures a == Allow <==> overallRisk < 0.40
  {
    if overallRisk >= 0.70 then RequestStrongerProof
    else if overallRisk >= 0.40 then Warn
    else Allow
  }

  /** `decide_action_v2(metrics, overall_risk)`. */
  function DecideActionV2(m: Metrics, overallRisk: real): (d: Decision)
    ensures d.metrics == m
    ensures d.action == ActionFor(overallRisk)
    ensures LowPublicCoverageMultiIdentity in d.reasons <==> WeakCoverage(m)
    ensures ConfusableIdentifiersPresent in d.reasons <==> m.confusablePairs > 0
    ensures |d.reasons| <= 2
    ensures |d.reasons| == 2 ==> d.reasons[0] == LowPublicCoverageMultiIdentity && d.reasons[1] == ConfusableIdentifiersPresent
  {
    var reasons := (if WeakCoverage(m) then [LowPublicCoverageMultiIdentity] else [])
                   + (if m.confusablePairs > 0 then [ConfusableIdentifiersPresent] else []);
    Decision(ActionFor(overallRisk), reasons, m)
  }

  /** A higher overall risk never gives a milder action. */
  lemma ActionMonotone(m: Metrics, r1: real, r2: real)
    requires r1 <= r2
    ensures Severity(DecideActionV2(m, r1).action) <= Severity(DecideActionV2(m, r2).action)
  {
  }

  /** The reasons depend on the metrics only, and the action on the
      overall risk only: weak coverage does not force a stronger action. */
  lemma DecisionSeparates(m1: Metrics, m2: Metrics, r1: real, r2: real)
    ensures DecideActionV2(m1, r1).reasons == DecideActionV2(m1, r2).reasons
    ensures DecideActionV2(m1, r1).action == DecideActionV2(m2, r1).action
  {
  }
}

=== FILE: baseline_judge.dfy ===
/** The baseline set-level judge `judge_identity_set`: one confusable
    reason per near-identical pair of claimed identifiers, a limitation
    reason when nothing public was found, a risk and confidence from those
    two facts, and a per-identity summary keyed by the claimed string. */
module BaselineJudge {
  import opened Wrappers
  import opened Platforms
  import opened Similarity
  import opened Pairs
  import opened Seqs

  /** How an identity's evidence was collected. */
  datatype CollectionMode = InAppOnly | PublicWeb | OauthUserConsent | ManualProof

  /** The fields of one `IdentityEvidence` the judge reads; `hasPublic`
      is `public is not None`. */
  datatype EvidenceRecord = EvidenceRecord(
    platform: Platform,
    claimed: string,
    mode: CollectionMode,
    hasPublic: bool,
    errors: seq<string>)

  /** The reasons of the judge; a confusable reason names the two claimed
      identifiers of its pair, as its message does. */
  datatype BaselineReason =
    | IdentifiersConfusable(first: string, second: string)
    | InAppOnlyLimitation

  function ReasonCodeName(r: BaselineReason): string {
    match r
    case IdentifiersConfusable(_, _) => "IDENTIFIERS_CONFUSABLE"
    case InAppOnlyLimitation => "IN_APP_ONLY_LIMITATION"
  }

  function ReasonSeverity(r: BaselineReason): string {
    match r
    case IdentifiersConfusable(_, _) => "high"
    case InAppOnlyLimitation => "medium"
  }

  /** One `per_identity` entry. */
  datatype IdentitySummary = IdentitySummary(
    platform: Platform,
    mode: CollectionMode,
    errors: seq<string>,
    hasPublic: bool)

  /** The judge's `RiskResult`. */
  datatype RiskResult = RiskResult(
    substitutionRisk: real,
    confidence: real,
    reasons: seq<BaselineReason>,
    perIdentity: map<string, IdentitySummary>)

  // ---------------------------------------------------------------------
  // Confusable pairs.

  /** Ratio at least 0.92 and distance at most 2; both present. */
  predicate Confusable(a: string, b: string) {
    var c := Confusability(a, b);
    c.ratio.Some? && c.ratio.value >= 0.92 && c.lev.Some? && c.lev.value <= 2
  }

  /** The claimed identifiers, in input order. */
  function Ids(evs: seq<EvidenceRecord>): (ids: seq<string>)
    ensures |ids| == |evs|
    ensures forall k :: 0 <= k < |evs| ==> ids[k] == evs[k].claimed
  {
    seq(|evs|, k requires 0 <= k < |evs| => evs[k].claimed)
  }

  /** The pair `p` of `ids` satisfies `conf`. */
  predicate PairHolds(conf: (string, string) -> bool, ids: seq<string>, p: (nat, nat)) {
    p.0 < |ids| && p.1 < |ids| && conf(ids[p.0], ids[p.1])
  }

  /** The pairs of `ps` that satisfy `conf`, in the order given. */
  function FilterPairs(conf: (string, string) -> bool, ids: seq<string>, ps: seq<(nat, nat)>): (q: seq<(nat, nat)>)
    ensures |q| == CountWhere(ps, p => PairHolds(conf, ids, p))
    ensures forall p :: p in q <==> p in ps && PairHolds(conf, ids, p)
    decreases |ps|
  {
    if ps == [] then []
    else
      var rest := FilterPairs(conf, ids, ps[1..]);
      assert forall p :: p in ps <==> p == ps[0] || p in ps[1..];
      (if PairHolds(conf, ids, ps[0]) then [ps[0]] else []) + rest
  }

  /** The confusable reason of each pair. */
  function PairReasons(ids: seq<string>, q: seq<(nat, nat)>): (rs: seq<BaselineReason>)
    requires forall k :: 0 <= k < |q| ==> q[k].0 < |ids| && q[k].1 < |ids|
    ensures |rs| == |q|
    ensures forall k :: 0 <= k < |q| ==> rs[k] == IdentifiersConfusable(ids[q[k].0], ids[q[k].1])
  {
    seq(|q|, k requires 0 <= k < |q| => IdentifiersConfusable(ids[q[k].0], ids[q[k].1]))
  }

  /** The pairs `i < j` of `ids` that satisfy `conf`, in loop order. */
  function PairsWhere(conf: (string, string) -> bool, ids: seq<string>): (q: seq<(nat, nat)>)
    ensures forall k :: 0 <= k < |q| ==> q[k].0 < q[k].1 < |ids|
    ensures forall p :: p in q <==> p.0 < p.1 < |ids| && conf(ids[p.0], ids[p.1])
  {
    var ps := AllPairs(|ids|);
    var q := FilterPairs(conf, ids, ps);
    forall p ensures p in ps <==> p.0 < p.1 < |ids| {
      AllPairsIff(|ids|, p.0, p.1);
    }
    assert forall k :: 0 <= k < |q| ==> q[k] in q;
    q
  }

  // ---------------------------------------------------------------------
  // Public evidence.

  predicate Missing(e: EvidenceRecord) { !e.hasPublic }

  /** `sum(1 for e in evidences if e.public is None)`. */
  function MissingPublic(evs: seq<EvidenceRecord>): (n: nat)
    ensures n <= |evs|
    ensures n == |evs| <==> forall k :: 0 <= k < |evs| ==> !evs[k].hasPublic
  {
    AllCounted(evs, Missing);
    CountWhere(evs, Missing)
  }

  /** A count reaches the length exactly when every element qualifies. */
  lemma {:induction false} AllCounted<T>(s: seq<T>, p: T -> bool)
    ensures CountWhere(s, p) == |s| <==> forall k :: 0 <= k < |s| ==> p(s[k])
    decreases |s|
  {
    if s != [] {
      AllCounted(s[1..], p);
      assert forall k :: 1 <= k < |s| ==> s[k] == s[1..][k - 1];
      if !p(s[0]) {
        assert CountWhere(s, p) == CountWhere(s[1..], p);
      }
    }
  }

  // ---------------------------------------------------------------------
  // Risk and confidence.

  /** The risk from the two facts: 0.10, plus 0.55 for a confusable pair,
      plus 0.15 when no identity of at least two has public evidence,
      capped at 1.0. */
  function BaselineRisk(anyConfusable: bool, allMissing: bool, n: nat): (r: real)
    ensures 0.10 <= r <= 0.80
    ensures r > 0.10 <==> anyConfusable || (allMissing && n >= 2)
    ensures r >= 0.65 <==> anyConfusable
    ensures r == 0.80 <==> anyConfusable && allMissing && n >= 2
    ensures r == if anyConfusable then (if allMissing && n >= 2 then 0.80 else 0.65)
                 else (if allMissing && n >= 2 then 0.25 else 0.10)
  {
    var risk := 0.10
      + (if anyConfusable then 0.55 else 0.0)
      + (if allMissing && n >= 2 then 0.15 else 0.0);
    if risk < 1.0 then risk else 1.0
  }

  /** The confidence: 0.75 with some public evidence, 0.45 without. */
  function BaselineConfidence(missing: nat, n: nat): (c: real)
    ensures c == 0.75 <==> missing < n
    ensures c == 0.75 || c == 0.45
  {
    if missing < n then 0.75 else 0.45
  }

  // ---------------------------------------------------------------------
  // The per-identity summary.

  function Summary(e: EvidenceRecord): IdentitySummary {
    IdentitySummary(e.platform, e.mode, e.errors, e.hasPublic)
  }

  /** The record of `evs[k]` is the last one with its claimed string. */
  predicate LastFor(evs: seq<EvidenceRecord>, k: int) {
    0 <= k < |evs| && forall k2 :: k < k2 < |evs| ==> evs[k2].claimed != evs[k].claimed
  }

  /** The claimed strings of the records. */
  function ClaimedSet(evs: seq<EvidenceRecord>): (s: set<string>)
    ensures forall x :: x in s <==> exists k :: 0 <= k < |evs| && evs[k].claimed == x
    decreases |evs|
  {
    if evs == [] then {}
    else
      var init := evs[..|evs| - 1];
      assert forall k :: 0 <= k < |init| ==> init[k] == evs[k];
      ClaimedSet(init) + {evs[|evs| - 1].claimed}
  }

  /** The summary map, written in input order: a later record with the
      same claimed string overwrites an earlier one. */
  function PerIdentity(evs: seq<EvidenceRecord>): (m: map<string, IdentitySummary>)
    ensures m.Keys == ClaimedSet(evs)
    decreases |evs|
  {
    if evs == [] then map[]
    else
      var e := evs[|evs| - 1];
      PerIdentity(evs[..|evs| - 1])[e.claimed := Summary(e)]
  }

  /** Each claimed string maps to the summary of its last record. */
  lemma {:induction false} PerIdentityLastWins(evs: seq<EvidenceRecord>, k: nat)
    requires LastFor(evs, k)
    ensures evs[k].claimed in PerIdentity(evs)
    ensures PerIdentity(evs)[evs[k].claimed] == Summary(evs[k])
    decreases |evs|
  {
    var init := evs[..|evs| - 1];
    var e := evs[|evs| - 1];
    if k < |init| {
      assert init[k] == evs[k];
      assert LastFor(init, k) by {
        forall k2 | k < k2 < |init| ensures init[k2].claimed != init[k].claimed {
          assert init[k2] == evs[k2];
        }
      }
      PerIdentityLastWins(init, k);
      assert e.claimed != evs[k].claimed;
    }
  }

  // ---------------------------------------------------------------------
  // The judge.

  /** The reasons under the pair test `conf`: one per pair in loop order,
      then the limitation when no record has public evidence. */
  function ReasonsWhere(conf: (string, string) -> bool, evs: seq<EvidenceRecord>): (rs: seq<BaselineReason>)
    ensures InAppOnlyLimitation in rs <==> forall k :: 0 <= k < |evs| ==> !evs[k].hasPublic
  {
    var ids := Ids(evs);
    var confusable := PairReasons(ids, PairsWhere(conf, ids));
    assert InAppOnlyLimitation !in confusable;
    confusable + (if MissingPublic(evs) == |evs| then [InAppOnlyLimitation] else [])
  }

  /** `judge_identity_set(evidences)`. */
  function JudgeIdentitySet(evs: seq<EvidenceRecord>): (r: RiskResult)
    ensures 0.10 <= r.substitutionRisk <= 0.80
    ensures 0.0 <= r.confidence <= 1.0
    ensures InAppOnlyLimitation in r.reasons <==> forall k :: 0 <= k < |evs| ==> !evs[k].hasPublic
    ensures r.confidence == 0.75 <==> exists k :: 0 <= k < |evs| && evs[k].hasPublic
    ensures r.perIdentity == PerIdentity(evs)
    ensures r.substitutionRisk == BaselineRisk(
              exists i, j :: 0 <= i < j < |evs| && Confusable(evs[i].claimed, evs[j].claimed),
              forall k :: 0 <= k < |evs| ==> !evs[k].hasPublic,
              |evs|)
    ensures r.confidence == if exists k :: 0 <= k < |evs| && evs[k].hasPublic then 0.75 else 0.45
  {
    var n := |evs|;
    var missing := MissingPublic(evs);
    var anyConfusable := PairsWhere(Confusable, Ids(evs)) != [];
    SomePairIff(Confusable, evs);
    RiskResult(
      BaselineRisk(anyConfusable, missing == n, n), BaselineConfidence(missing, n),
      ReasonsWhere(Confusable, evs), PerIdentity(evs))
  }

  // ---------------------------------------------------------------------
  // Properties of the judge.

  /** A pair reason names the identifiers of a passing pair. */
  lemma PairReasonSound(conf: (string, string) -> bool, ids: seq<string>, r: BaselineReason)
    requires r in PairReasons(ids, PairsWhere(conf, ids))
    ensures exists i, j :: 0 <= i < j < |ids| && r == IdentifiersConfusable(ids[i], ids[j]) && conf(ids[i], ids[j])
  {
    var q := PairsWhere(conf, ids);
    var pr := PairReasons(ids, q);
    var k :| 0 <= k < |pr| && pr[k] == r;
    assert q[k] in q;
  }

  /** Every passing pair has its reason. */
  lemma PairReasonComplete(conf: (string, string) -> bool, ids: seq<string>, i: nat, j: nat)
    requires i < j < |ids| && conf(ids[i], ids[j])
    ensures IdentifiersConfusable(ids[i], ids[j]) in PairReasons(ids, PairsWhere(conf, ids))
  {
    var q := PairsWhere(conf, ids);
    assert (i, j) in q;
    var k :| 0 <= k < |q| && q[k] == (i, j);
    assert PairReasons(ids, q)[k] == IdentifiersConfusable(ids[i], ids[j]);
  }

  /** Under any pair test, a pair reason is present exactly when some
      pair `i < j` of claimed identifiers passes the test. */
  lemma PairReasonIff(conf: (string, string) -> bool, evs: seq<EvidenceRecord>, a: string, b: string)
    ensures IdentifiersConfusable(a, b) in ReasonsWhere(conf, evs) <==>
      exists i, j :: 0 <= i < j < |evs| && evs[i].claimed == a && evs[j].claimed == b && conf(a, b)
  {
    var ids := Ids(evs);
    var pr := PairReasons(ids, PairsWhere(conf, ids));
    var r := IdentifiersConfusable(a, b);
    assert r in ReasonsWhere(conf, evs) <==> r in pr;
    if r in pr {
      PairReasonSound(conf, ids, r);
    }
    if exists i, j :: 0 <= i < j < |evs| && evs[i].claimed == a && evs[j].claimed == b && conf(a, b) {
      var i, j :| 0 <= i < j < |evs| && evs[i].claimed == a && evs[j].claimed == b && conf(a, b);
      PairReasonComplete(conf, ids, i, j);
    }
  }

  /** The confusable reasons are exactly the confusable pairs `i < j` of
      claimed identifiers. */
  lemma ConfusableReasonIff(evs: seq<EvidenceRecord>, a: string, b: string)
    ensures IdentifiersConfusable(a, b) in JudgeIdentitySet(evs).reasons <==>
      exists i, j :: 0 <= i < j < |evs| && evs[i].claimed == a && evs[j].claimed == b && Confusable(a, b)
  {
    PairReasonIff(Confusable, evs, a, b);
  }

  /** One confusable reason per confusable pair, in loop order, before
      the limitation reason. */
  lemma ConfusableReasonCount(evs: seq<EvidenceRecord>)
    ensures
      var rs := JudgeIdentitySet(evs).reasons;
      var q := PairsWhere(Confusable, Ids(evs));
      && (|rs| == |q| || |rs| == |q| + 1)
      && (forall k :: 0 <= k < |q| ==> rs[k] == IdentifiersConfusable(evs[q[k].0].claimed, evs[q[k].1].claimed))
  {
  }

  /** Under any pair test, some pair passes exactly when the pair list is
      non-empty. */
  lemma SomePairIff(conf: (string, string) -> bool, evs: seq<EvidenceRecord>)
    ensures PairsWhere(conf, Ids(evs)) != [] <==>
      exists i, j :: 0 <= i < j < |evs| && conf(evs[i].claimed, evs[j].claimed)
  {
    var ids := Ids(evs);
    var q := PairsWhere(conf, ids);
    if q != [] {
      assert q[0] in q;
      assert conf(evs[q[0].0].claimed, evs[q[0].1].claimed);
    }
    if exists i, j :: 0 <= i < j < |evs| && conf(evs[i].claimed, evs[j].claimed) {
      var i, j :| 0 <= i < j < |evs| && conf(evs[i].claimed, evs[j].claimed);
      assert (i, j) in q;
    }
  }

  /** The risk reaches 0.65 exactly when some pair is confusable. */
  lemma RiskHighIffConfusablePair(evs: seq<EvidenceRecord>)
    ensures JudgeIdentitySet(evs).substitutionRisk >= 0.65 <==>
      exists i, j :: 0 <= i < j < |evs| && Confusable(evs[i].claimed, evs[j].claimed)
  {
    SomePairIff(Confusable, evs);
  }

  /** With no evidence at all the judge reports the limitation, the base
      risk and the low confidence. */
  lemma NoEvidence()
    ensures JudgeIdentitySet([]) == RiskResult(0.10, 0.45, [InAppOnlyLimitation], map[])
  {
    assert AllPairs(0) == [];
  }

  /** A single identity with public evidence gets the base risk, the high
      confidence and no reasons. */
  lemma SinglePublicIdentity(e: EvidenceRecord)
    requires e.hasPublic
    ensures JudgeIdentitySet([e]).substitutionRisk == 0.10
    ensures JudgeIdentitySet([e]).confidence == 0.75
    ensures JudgeIdentitySet([e]).reasons == []
  {
    assert AllPairs(1) == [];
  }

  /** A later record with the same claimed string replaces the earlier
      one's summary. */
  lemma LaterRecordWins(evs: seq<EvidenceRecord>, e: EvidenceRecord)
    ensures JudgeIdentitySet(evs + [e]).perIdentity[e.claimed] == Summary(e)
  {
    assert LastFor(evs + [e], |evs|);
    PerIdentityLastWins(evs + [e], |evs|);
  }
}

=== FILE: evidence.dfy ===
/** The records the scoring stages exchange: the per-identity entries the
    collector builds (`claim`, `ui`, `public`, `errors`, ...), the graph
    metrics, and the reason records. Dictionary keys that may be absent
    are `Option`s. */
module Evidence {
  import opened Wrappers

  /** The fields of the in-app card (`UiCard`) that scoring reads. */
  datatype UiCard = UiCard(
    displayName: Option<string>,
    snippet: Option<string>,
    avatarUrl: Option<string>)

  /** The fields of the public evidence (`PublicEvidence`) that scoring
      reads. */
  datatype PublicFields = PublicFields(
    displayName: Option<string>,
    bio: Option<string>,
    avatarUrl: Option<string>,
    externalLinks: seq<string>)

  /** One entry of the per-identity map, with its key `id`. The `public`
      and `public_evidence` keys are alternative spellings; the link fields
      are present only when an earlier stage filled them in. */
  datatype IdentityItem = IdentityItem(
    id: string,
    platform: Option<string>,
    claimed: Option<string>,
    claimClaimed: Option<string>,
    hasPublic: bool,
    public: Option<PublicFields>,
    publicEvidence: Option<PublicFields>,
    ui: Option<UiCard>,
    errors: seq<string>,
    bioLinkDomains: Option<seq<string>>,
    bioLinkHandles: Option<seq<string>>,
    externalLinks: Option<seq<string>>)

  /** The graph metrics every later stage reads. */
  datatype Metrics = Metrics(
    numIdentities: nat,
    publicCoverage: real,
    confusablePairs: nat,
    nameMismatchPairs: nat,
    avatarMismatchPairs: nat,
    crosslinkHits: nat)

  /** The payload of a reason's `detail` string: free text, or the value
      the formatted text reports. */
  datatype Detail =
    | Note(text: string)
    | Score(name: string, value: real)
    | Count(name: string, n: int)

  /** The reason codes the scorers emit: five per-identity codes, five
      set-level substitution codes and the umbrella code of the combined
      score. */
  datatype ReasonCode =
    | FacebookNumericIdProfile | GenericPlatformBio | RepeatedNameTokens
    | NoBioLinkouts | MissingAvatarUrl
    | LowPublicCoverage | ConfusableIdentifiers | NameMismatchUnderConfusable
    | AvatarMismatchUnderConfusable | CrosslinkSupport
    | LowTrustSingleIdentitySignals

  /** The `code` string of a reason. */
  function CodeName(c: ReasonCode): string {
    match c
    case FacebookNumericIdProfile => "facebook_numeric_id_profile"
    case GenericPlatformBio => "generic_platform_bio"
    case RepeatedNameTokens => "repeated_name_tokens"
    case NoBioLinkouts => "no_bio_linkouts"
    case MissingAvatarUrl => "missing_avatar_url"
    case LowPublicCoverage => "low_public_coverage"
    case ConfusableIdentifiers => "confusable_identifiers"
    case NameMismatchUnderConfusable => "name_mismatch_under_confusable"
    case AvatarMismatchUnderConfusable => "avatar_mismatch_under_confusable"
    case CrosslinkSupport => "crosslink_support"
    case LowTrustSingleIdentitySignals => "low_trust_single_identity_signals"
  }

  /** A reason record `{"code": ..., "detail": ...}`. */
  datatype Reason = Reason(code: ReasonCode, detail: Detail)

  /** The codes of a reason list, in order. */
  function Codes(rs: seq<Reason>): (cs: seq<ReasonCode>)
    ensures |cs| == |rs|
    ensures forall k :: 0 <= k < |rs| ==> cs[k] == rs[k].code
  {
    seq(|rs|, k requires 0 <= k < |rs| => rs[k].code)
  }

  /** Some reason of `rs` carries code `c`. */
  predicate HasCode(rs: seq<Reason>, c: ReasonCode) {
    exists k :: 0 <= k < |rs| && rs[k].code == c
  }

  /** The actions of the decision policies. */
  datatype Action = Allow | Warn | RequestStrongerProof

  /** The action string. */
  function ActionName(a: Action): string {
    match a
    case Allow => "ALLOW"
    case Warn => "WARN"
    case RequestStrongerProof => "REQUEST_STRONGER_PROOF"
  }

  /** `max(0.0, min(1.0, x))`. */
  function Clamp01(x: real): (r: real)
    ensures 0.0 <= r <= 1.0
    ensures 0.0 <= x <= 1.0 ==> r == x
    ensures x < 0.0 ==> r == 0.0
    ensures x > 1.0 ==> r == 1.0
  {
    if x < 0.0 then 0.0 else if x > 1.0 then 1.0 else x
  }

  /** The `code` entry of an arbitrary reason dictionary: absent, present
      but not a string, or a string. */
  datatype CodeField = NoCode | NotAString | Code(s: string)

  /** An arbitrary reason dictionary as a later stage receives it. */
  datatype ReasonEntry = ReasonEntry(code: CodeField, detail: Option<Detail>)

  /** Python's `a or b or ""` over optional strings: the first non-empty
      one, else empty. */
  function FirstNonEmpty(a: Option<string>, b: Option<string>): (r: string)
    ensures r == [] ==> (a.None? || a.value == []) && (b.None? || b.value == [])
    ensures r != [] ==> Some(r) == a || Some(r) == b
    ensures a.Some? && a.value != [] ==> r == a.value
  {
    if a.Some? && a.value != [] then a.value
    else if b.Some? && b.value != [] then b.value
    else ""
  }

  /** `x or None` for a string. */
  function NoneIfEmpty(s: string): (r: Option<string>)
    ensures r.None? <==> s == []
    ensures r.Some? ==> r.value == s
  {
    if s == [] then None else Some(s)
  }

  /** The reasons as the entries a later stage receives. */
  function AsEntries(rs: seq<Reason>): (es: seq<ReasonEntry>)
    ensures |es| == |rs|
    ensures forall k :: 0 <= k < |rs| ==> es[k] == ReasonEntry(Code(CodeName(rs[k].code)), Some(rs[k].detail))
  {
    seq(|rs|, k requires 0 <= k < |rs| => ReasonEntry(Code(CodeName(rs[k].code)), Some(rs[k].detail)))
  }
}

=== FILE: evidence_graph.dfy ===
/** The evidence graph builder (pipeline/evidence_graph_v2.py, the live
    code from line 247 on): one node of derived features per per-identity
    entry, one edge per unordered pair with handle and name similarity, an
    avatar match and a capped crosslink score, and the metrics counted over
    all edges. The graph library object is replaced by the node and edge
    sequences; the avatar fetcher and the reverse-link fetcher are
    parameters. */
module EvidenceGraph {
  import opened Wrappers
  import opened Text
  import opened Seqs
  import opened Urls
  import opened Evidence
  import Pairs
  import PlatformParse
  import Identifiers
  import Similarity
  import NameClean
  import Linkout

  // ---------------------------------------------------------------------
  // Collaborators.

  /** What `hash_avatar_url` reports: a digest, or an error text. */
  datatype AvatarHash = AvatarHash(sha256: Option<string>, error: Option<string>)

  /** What `fetch_outbound_links` reports for a website. */
  datatype ReverseLinks = ReverseLinks(
    outboundDomains: seq<string>,
    error: Option<string>,
    fetchCached: Option<bool>)

  // ---------------------------------------------------------------------
  // Nodes.

  /** `_safe_str`: the stripped string, empty when absent. */
  function SafeStr(s: Option<string>): (r: string)
    ensures Trimmed(r)
    ensures s.None? ==> r == []
  {
    Strip(s.GetOr(""))
  }

  /** The host key `_domains_from_urls` uses: lower-cased, then stripped. */
  function StrippedHost(n: string): (r: string)
    ensures Trimmed(r)
  {
    Strip(LowerStr(n))
  }

  /** A stripped host has no upper-case letter. */
  lemma StrippedHostLower(n: string)
    ensures NoUpper(StrippedHost(n))
  {
    var l := LowerStr(n);
    var a, b := StripSlice(l);
    assert StrippedHost(n) == l[a..b];
  }

  lemma StrippedHostsLower()
    ensures forall n :: NoUpper(StrippedHost(n))
  {
    forall n ensures NoUpper(StrippedHost(n)) {
      StrippedHostLower(n);
    }
  }

  /** `_domains_from_urls(urls)`: the distinct, lower-cased, stripped,
      non-empty hosts in first-seen order; a URL that `urlparse` rejects is
      skipped. */
  function DomainsFromUrls(urls: seq<string>): (ds: seq<string>)
    ensures NoDup(ds)
    ensures forall d :: d in ds <==> Linkout.HostOf(Linkout.Netlocs(urls), StrippedHost, d)
    ensures FirstSeenOrder(ds, Linkout.Hosts(Linkout.Netlocs(urls), StrippedHost))
    ensures forall k :: 0 <= k < |ds| ==> ds[k] != [] && NoUpper(ds[k])
    ensures forall k :: 0 <= k < |ds| ==> !IsSpace(ds[k][0]) && !IsSpace(ds[k][|ds[k]| - 1])
  {
    var ns := Linkout.Netlocs(urls);
    StrippedHostsLower();
    Linkout.DomainsLower(ns, StrippedHost);
    Linkout.DomainsStripped(ns, StrippedHost);
    Linkout.Domains(ns, StrippedHost)
  }

  /** The non-empty entries of a link list (`[str(u) for u in links if u]`). */
  function NonEmptyLinks(links: seq<string>): (r: seq<string>)
    ensures forall k :: 0 <= k < |r| ==> r[k] != [] && r[k] in links
    ensures forall k :: 0 <= k < |links| && links[k] != [] ==> links[k] in r
  {
    if links == [] then []
    else if links[0] == [] then NonEmptyLinks(links[1..])
    else [links[0]] + NonEmptyLinks(links[1..])
  }

  /** The features the builder derives for one identity. */
  datatype Node = Node(
    id: string,
    platform: Option<string>,
    claimed: string,
    hasPublic: bool,
    displayName: Option<string>,
    displayNameClean: Option<string>,
    bio: Option<string>,
    avatarUrl: Option<string>,
    parsedKind: PlatformParse.Kind,
    parsedDomain: Option<string>,
    parsedHandle: Option<string>,
    norm: string,
    bioLinkDomains: seq<string>,
    bioLinkHandles: seq<string>,
    externalLinks: seq<string>,
    externalLinkDomains: seq<string>,
    reverseLinkUrl: Option<string>,
    reverseLinkDomains: seq<string>,
    reverseLinkError: Option<string>,
    reverseFetchCached: Option<bool>,
    avatarSha256: Option<string>,
    avatarHashError: Option<string>)

  /** The claim an entry stands for: its `claimed`, else its claim's
      `claimed`, else its key. */
  function ClaimOf(item: IdentityItem): (c: string)
    ensures c == [] ==> item.id == []
    ensures item.claimed.Some? && item.claimed.value != [] ==> c == item.claimed.value
  {
    var c := FirstNonEmpty(item.claimed, item.claimClaimed);
    if c != [] then c else item.id
  }

  /** The public evidence an entry carries, under either key. */
  function PublicOf(item: IdentityItem): Option<PublicFields> {
    if item.public.Some? then item.public else item.publicEvidence
  }

  /** The display name, bio and avatar URL a node shows: the public
      value when it is non-empty after stripping, else the card's. */
  datatype Shown = Shown(displayName: string, bio: string, avatarUrl: string)

  /** `_safe_str(public) or _safe_str(card)`. */
  function Prefer(pub: Option<string>, card: Option<string>): (r: string)
    ensures Trimmed(r)
    ensures r == [] ==> SafeStr(pub) == [] && SafeStr(card) == []
    ensures SafeStr(pub) != [] ==> r == SafeStr(pub)
  {
    FirstNonEmpty(Some(SafeStr(pub)), Some(SafeStr(card)))
  }

  function ShownOf(item: IdentityItem): (s: Shown)
    ensures Trimmed(s.displayName) && Trimmed(s.bio) && Trimmed(s.avatarUrl)
  {
    var pub := PublicOf(item);
    var ui := item.ui;
    Shown(Prefer(if pub.Some? then pub.value.displayName else None, if ui.Some? then ui.value.displayName else None),
          Prefer(if pub.Some? then pub.value.bio else None, if ui.Some? then ui.value.snippet else None),
          Prefer(if pub.Some? then pub.value.avatarUrl else None, if ui.Some? then ui.value.avatarUrl else None))
  }

  /** The avatar digest and error a node records: no avatar URL gives the
      `avatar_url_missing` error without calling the fetcher. */
  function AvatarFeatures(url: string, avatarHash: string -> AvatarHash): (r: (Option<string>, Option<string>))
    ensures url == [] ==> r == (None, Some("avatar_url_missing"))
    ensures url != [] ==> r.0 == avatarHash(url).sha256 && r.1 == avatarHash(url).error
  {
    if url == [] then (None, Some("avatar_url_missing"))
    else
      var h := avatarHash(url);
      (h.sha256, h.error)
  }

  /** The reverse-link features: the first bio URL is fetched, and with no
      URL nothing is. */
  datatype ReverseFeatures = ReverseFeatures(
    url: Option<string>, domains: seq<string>, error: Option<string>, cached: Option<bool>)

  function ReverseOf(urls: seq<string>, reverseLinks: string -> ReverseLinks): (r: ReverseFeatures)
    ensures r.url.None? <==> urls == []
    ensures r.url.Some? ==> r.url.value == urls[0] && r.domains == reverseLinks(urls[0]).outboundDomains
    ensures r.url.None? ==> r.domains == [] && r.error.None? && r.cached.None?
  {
    if urls == [] then ReverseFeatures(None, [], None, None)
    else
      var rr := reverseLinks(urls[0]);
      ReverseFeatures(Some(urls[0]), rr.outboundDomains, rr.error, rr.fetchCached)
  }

  /** The display name and its platform-aware cleaned form, each None
      when empty. */
  function NamesOf(displayName: string, platform: Option<string>): (r: (Option<string>, Option<string>))
    ensures r.0 == NoneIfEmpty(displayName)
    ensures r.1.Some? ==>
              r.0.Some? && |r.1.value| <= |r.0.value| && NameClean.NoMarker(r.1.value)
              && SingleSpaced(r.1.value)
  {
    (NoneIfEmpty(displayName), NoneIfEmpty(NameClean.CleanDisplayName(Some(displayName), platform.GetOr(""))))
  }

  /** The node for one per-identity entry. */
  function MakeNode(item: IdentityItem, avatarHash: string -> AvatarHash,
                    reverseLinks: string -> ReverseLinks): (n: Node)
    ensures n.id == item.id && n.platform == item.platform && n.hasPublic == item.hasPublic
    ensures n.claimed == ClaimOf(item)
    ensures var p := Identifiers.ParseClaimed(Some(n.claimed), item.platform);
            n.parsedKind == p.kind && n.parsedDomain == p.domain
            && n.parsedHandle == p.handle && n.norm == p.normalized
  {
    var claimed := ClaimOf(item);
    var shown := ShownOf(item);
    var pub := PublicOf(item);
    var externalLinks := if pub.Some? then pub.value.externalLinks else [];
    var names := NamesOf(shown.displayName, item.platform);
    var parsed := Identifiers.ParseClaimed(Some(claimed), item.platform);
    var links := Linkout.ExtractLinkouts(if shown.bio != [] then Some(shown.bio) else None);
    var avatar := AvatarFeatures(shown.avatarUrl, avatarHash);
    var rev := ReverseOf(links.urls, reverseLinks);
    Node(
      item.id, item.platform, claimed, item.hasPublic,
      names.0, names.1, NoneIfEmpty(shown.bio), NoneIfEmpty(shown.avatarUrl),
      parsed.kind, parsed.domain, parsed.handle, parsed.normalized,
      links.domains, links.handles,
      externalLinks, DomainsFromUrls(NonEmptyLinks(externalLinks)),
      rev.url, rev.domains, rev.error, rev.cached,
      avatar.0, avatar.1)
  }

  /** The cleaned name is present only with a display name, is no
      longer than it, and carries no split marker. */
  lemma MakeNodeNames(item: IdentityItem, avatarHash: string -> AvatarHash,
                      reverseLinks: string -> ReverseLinks)
    ensures var n := MakeNode(item, avatarHash, reverseLinks);
            n.displayNameClean.Some? ==>
              n.displayName.Some? && |n.displayNameClean.value| <= |n.displayName.value|
              && NameClean.NoMarker(n.displayNameClean.value)
  {
  }

  /** The link lists of a node are free of repeats, and a node without a
      bio has no bio links and no website to fetch. */
  lemma MakeNodeLinks(item: IdentityItem, avatarHash: string -> AvatarHash,
                      reverseLinks: string -> ReverseLinks)
    ensures var n := MakeNode(item, avatarHash, reverseLinks);
            NoDup(n.bioLinkDomains) && NoDup(n.bioLinkHandles) && NoDup(n.externalLinkDomains)
    ensures var n := MakeNode(item, avatarHash, reverseLinks);
            n.bio.None? ==> n.bioLinkDomains == [] && n.bioLinkHandles == [] && n.reverseLinkUrl.None?
  {
  }

  /** Without a website URL nothing is fetched. */
  lemma MakeNodeReverse(item: IdentityItem, avatarHash: string -> AvatarHash,
                        reverseLinks: string -> ReverseLinks)
    ensures var n := MakeNode(item, avatarHash, reverseLinks);
            n.reverseLinkUrl.None? ==>
              n.reverseLinkDomains == [] && n.reverseLinkError.None? && n.reverseFetchCached.None?
  {
  }

  /** Without an avatar URL there is no digest and the error says so. */
  lemma MakeNodeAvatar(item: IdentityItem, avatarHash: string -> AvatarHash,
                       reverseLinks: string -> ReverseLinks)
    ensures var n := MakeNode(item, avatarHash, reverseLinks);
            n.avatarUrl.None? ==> n.avatarSha256.None? && n.avatarHashError == Some("avatar_url_missing")
  {
  }

  // ---------------------------------------------------------------------
  // Edges.

  /** The identifier compared for handle similarity: the parsed handle,
      else the normalised key. */
  function HandleKey(a: Node): string {
    if a.parsedHandle.Some? && a.parsedHandle.value != [] then a.parsedHandle.value else a.norm
  }

  /** The name compared for name similarity: the cleaned name, else the
      display name, else empty. */
  function NameKey(a: Node): string {
    FirstNonEmpty(a.displayNameClean, a.displayName)
  }

  /** `dom and dom in s`: a present, non-empty domain listed in `s`. */
  predicate Listed(dom: Option<string>, s: seq<string>) {
    dom.Some? && dom.value != [] && dom.value in s
  }

  /** The lower-cased parsed handle, empty when there is none. */
  function LowerHandle(a: Node): string {
    if a.parsedHandle.Some? then LowerStr(a.parsedHandle.value) else ""
  }

  /** `hl and hl in s` for a lower-cased handle. */
  predicate Mentioned(hl: string, s: seq<string>) {
    hl != [] && hl in s
  }

  /** `w` when the signal fires, else 0. */
  function Weight(fires: bool, w: nat): nat {
    if fires then w else 0
  }

  /** The crosslink contributions before the cap, in hundredths: a domain
      listed in the other bio 50, in the other external links 35, a handle
      mentioned in the other bio 25, a domain the other website links to
      50; each counted once per direction. */
  function CrosslinkRaw(a: Node, b: Node): nat {
    Weight(Listed(a.parsedDomain, b.bioLinkDomains), 50)
    + Weight(Listed(b.parsedDomain, a.bioLinkDomains), 50)
    + Weight(Listed(a.parsedDomain, b.externalLinkDomains), 35)
    + Weight(Listed(b.parsedDomain, a.externalLinkDomains), 35)
    + Weight(Mentioned(LowerHandle(a), b.bioLinkHandles), 25)
    + Weight(Mentioned(LowerHandle(b), a.bioLinkHandles), 25)
    + Weight(Listed(b.parsedDomain, a.reverseLinkDomains), 50)
    + Weight(Listed(a.parsedDomain, b.reverseLinkDomains), 50)
  }

  /** The crosslink score in hundredths, capped at 100 (that is, 1.0). */
  function CrosslinkScore(a: Node, b: Node): (s: nat)
    ensures s <= 100
    ensures s <= CrosslinkRaw(a, b)
    ensures s == 100 || s == CrosslinkRaw(a, b)
  {
    var raw := CrosslinkRaw(a, b);
    if raw > 100 then 100 else raw
  }

  /** A strong signal: one of the 0.5 contributions. */
  predicate StrongSignal(a: Node, b: Node) {
    || Listed(a.parsedDomain, b.bioLinkDomains) || Listed(b.parsedDomain, a.bioLinkDomains)
    || Listed(b.parsedDomain, a.reverseLinkDomains) || Listed(a.parsedDomain, b.reverseLinkDomains)
  }

  /** How many of the weaker signals fire: a domain in the other's
      external links (0.35) or a handle mentioned in the other's bio
      (0.25), in either direction. */
  function WeakSignals(a: Node, b: Node): nat {
    Weight(Listed(a.parsedDomain, b.externalLinkDomains), 1)
    + Weight(Listed(b.parsedDomain, a.externalLinkDomains), 1)
    + Weight(Mentioned(LowerHandle(a), b.bioLinkHandles), 1)
    + Weight(Mentioned(LowerHandle(b), a.bioLinkHandles), 1)
  }

  /** An edge as the builder records it. The crosslink score is kept in
      hundredths. */
  datatype Edge = Edge(
    src: string,
    dst: string,
    handleSimilarity: Option<real>,
    nameSimilarity: Option<real>,
    avatarMatch: Option<bool>,
    crosslink: bool,
    crosslinkScore: nat)

  /** The edge between two nodes. */
  function MakeEdge(a: Node, b: Node): (e: Edge)
    ensures e.src == a.id && e.dst == b.id
    ensures e.handleSimilarity == Similarity.Confusability(HandleKey(a), HandleKey(b)).ratio
    ensures e.nameSimilarity.Some? ==> NameKey(a) != [] && NameKey(b) != []
    ensures NameKey(a) != [] && NameKey(b) != [] ==>
              e.nameSimilarity == Similarity.Confusability(NameKey(a), NameKey(b)).ratio
    ensures e.avatarMatch.Some? <==> a.avatarSha256.Some? && b.avatarSha256.Some?
    ensures e.avatarMatch == Some(true) <==> a.avatarSha256.Some? && a.avatarSha256 == b.avatarSha256
    ensures e.crosslinkScore <= 100
    ensures e.crosslink <==> e.crosslinkScore >= 50
  {
    var handleSim := Similarity.Confusability(HandleKey(a), HandleKey(b)).ratio;
    var dnA, dnB := NameKey(a), NameKey(b);
    var nameSim := if dnA != [] && dnB != [] then Similarity.Confusability(dnA, dnB).ratio else None;
    var both := a.avatarSha256.Some? && b.avatarSha256.Some?;
    var score := CrosslinkScore(a, b);
    Edge(a.id, b.id, handleSim, nameSim,
         if both then Some(a.avatarSha256 == b.avatarSha256) else None,
         score >= 50, score)
  }

  /** The crosslink score does not depend on which node comes first. */
  lemma CrosslinkSymmetric(a: Node, b: Node)
    ensures CrosslinkScore(a, b) == CrosslinkScore(b, a)
    ensures MakeEdge(a, b).crosslink == MakeEdge(b, a).crosslink
  {
  }

  /** Any strong signal alone makes a crosslink; without one, it takes
      at least two of the weaker signals. */
  lemma CrosslinkSignals(a: Node, b: Node)
    ensures StrongSignal(a, b) ==> MakeEdge(a, b).crosslink
    ensures !StrongSignal(a, b) ==> (MakeEdge(a, b).crosslink <==> WeakSignals(a, b) >= 2)
  {
    var e1 := Listed(a.parsedDomain, b.externalLinkDomains);
    var e2 := Listed(b.parsedDomain, a.externalLinkDomains);
    var m1 := Mentioned(LowerHandle(a), b.bioLinkHandles);
    var m2 := Mentioned(LowerHandle(b), a.bioLinkHandles);
    if !StrongSignal(a, b) {
      assert CrosslinkRaw(a, b) == Weight(e1, 35) + Weight(e2, 35) + Weight(m1, 25) + Weight(m2, 25);
      assert WeakSignals(a, b) == Weight(e1, 1) + Weight(e2, 1) + Weight(m1, 1) + Weight(m2, 1);
    } else {
      assert CrosslinkRaw(a, b) >= 50;
    }
  }

  /** The score is zero exactly when no signal fires. */
  lemma CrosslinkZero(a: Node, b: Node)
    ensures CrosslinkScore(a, b) == 0 <==> !StrongSignal(a, b) && WeakSignals(a, b) == 0
  {
  }

  // ---------------------------------------------------------------------
  // Edge classification.

  /** `handle_sim >= 0.92`, with a missing similarity read as not
      confusable. */
  predicate Confusable(e: Edge) {
    e.handleSimilarity.Some? && e.handleSimilarity.value >= 0.92
  }

  /** Confusable identifiers with clearly different names. */
  predicate NameMismatch(e: Edge) {
    e.nameSimilarity.Some? && e.nameSimilarity.value < 0.60 && Confusable(e)
  }

  /** Confusable identifiers with two different avatar digests. */
  predicate AvatarMismatch(e: Edge) {
    e.avatarMatch == Some(false) && Confusable(e)
  }

  predicate Crosslinked(e: Edge) { e.crosslink }

  predicate HasPublic(n: Node) { n.hasPublic }

  // ---------------------------------------------------------------------
  // The graph.

  datatype Graph = Graph(nodes: seq<Node>, edges: seq<Edge>, metrics: Metrics)

  function Nodes(items: seq<IdentityItem>, avatarHash: string -> AvatarHash,
                 reverseLinks: string -> ReverseLinks): (ns: seq<Node>)
    ensures |ns| == |items|
    ensures forall k :: 0 <= k < |items| ==> ns[k] == MakeNode(items[k], avatarHash, reverseLinks)
  {
    seq(|items|, k requires 0 <= k < |items| => MakeNode(items[k], avatarHash, reverseLinks))
  }

  /** `e` is the edge the builder draws for the pair `i < j`. */
  predicate EdgeFor(nodes: seq<Node>, i: nat, j: nat, e: Edge) {
    i < j < |nodes| && e == MakeEdge(nodes[i], nodes[j])
  }

  /** `e` is the edge of some pair. */
  predicate PairEdge(nodes: seq<Node>, e: Edge) {
    exists i: nat, j: nat :: i < j < |nodes| && EdgeFor(nodes, i, j, e)
  }

  /** The pair `i < j` has its edge in `es`. */
  predicate Drawn(nodes: seq<Node>, es: seq<Edge>, i: nat, j: nat) {
    exists k :: 0 <= k < |es| && EdgeFor(nodes, i, j, es[k])
  }

  /** One edge per pair, in loop order. */
  function Edges(nodes: seq<Node>): (es: seq<Edge>)
    ensures |es| == |Pairs.AllPairs(|nodes|)|
    ensures forall k :: 0 <= k < |es| ==> PairEdge(nodes, es[k])
    ensures forall i: nat, j: nat :: i < j < |nodes| ==> Drawn(nodes, es, i, j)
  {
    var ps := Pairs.AllPairs(|nodes|);
    var es := seq(|ps|, k requires 0 <= k < |ps| => MakeEdge(nodes[ps[k].0], nodes[ps[k].1]));
    assert forall k :: 0 <= k < |es| ==> PairEdge(nodes, es[k]) by {
      forall k | 0 <= k < |es| ensures PairEdge(nodes, es[k]) {
        assert EdgeFor(nodes, ps[k].0, ps[k].1, es[k]);
      }
    }
    assert forall i: nat, j: nat :: i < j < |nodes| ==> Drawn(nodes, es, i, j) by {
      forall i: nat, j: nat | i < j < |nodes| ensures Drawn(nodes, es, i, j) {
        Pairs.AllPairsIff(|nodes|, i, j);
        var k :| 0 <= k < |ps| && ps[k] == (i, j);
        assert EdgeFor(nodes, i, j, es[k]);
      }
    }
    es
  }

  /** `has_public` count over `max(1, n)`. */
  function Coverage(nodes: seq<Node>): (c: real)
    ensures 0.0 <= c <= 1.0
    ensures nodes == [] ==> c == 0.0
  {
    var total := if nodes == [] then 1 else |nodes|;
    Similarity.FractionBound(CountWhere(nodes, HasPublic), total);
    (CountWhere(nodes, HasPublic) as real) / (total as real)
  }

  /** The metrics over the nodes and edges. */
  function MetricsOf(nodes: seq<Node>, edges: seq<Edge>): (m: Metrics)
    ensures m.numIdentities == |nodes|
    ensures 0.0 <= m.publicCoverage <= 1.0
    ensures nodes == [] ==> m.publicCoverage == 0.0
    ensures m.avatarMismatchPairs <= m.confusablePairs <= |edges|
    ensures m.nameMismatchPairs <= m.confusablePairs
    ensures m.crosslinkHits <= |edges|
  {
    CountWhereMono(edges, AvatarMismatch, Confusable);
    CountWhereMono(edges, NameMismatch, Confusable);
    Metrics(|nodes|, Coverage(nodes),
            CountWhere(edges, Confusable), CountWhere(edges, NameMismatch),
            CountWhere(edges, AvatarMismatch), CountWhere(edges, Crosslinked))
  }

  /** `build_evidence_graph_v2(per_identity)`, with an edge whose handle
      similarity is missing counted as not confusable. */
  function BuildEvidenceGraph(items: seq<IdentityItem>, avatarHash: string -> AvatarHash,
                              reverseLinks: string -> ReverseLinks): (g: Graph)
    ensures |g.nodes| == |items|
    ensures forall k :: 0 <= k < |items| ==> g.nodes[k].id == items[k].id
    ensures g.metrics.numIdentities == |items|
  {
    var nodes := Nodes(items, avatarHash, reverseLinks);
    var edges := Edges(nodes);
    Graph(nodes, edges, MetricsOf(nodes, edges))
  }

  /** One edge per unordered pair of entries: `n * (n - 1) / 2` edges. */
  lemma BuildEvidenceGraphEdgeCount(items: seq<IdentityItem>, avatarHash: string -> AvatarHash,
                                    reverseLinks: string -> ReverseLinks)
    ensures 2 * |BuildEvidenceGraph(items, avatarHash, reverseLinks).edges| == |items| * (|items| - 1)
  {
    var g := BuildEvidenceGraph(items, avatarHash, reverseLinks);
    assert |g.edges| == |Pairs.AllPairs(|items|)| by {
      assert g.edges == Edges(g.nodes);
    }
    Pairs.AllPairsCount(|items|);
  }

  /** The metrics are counts over the graph: coverage is a fraction,
      mismatches are counted among confusable pairs, and no count
      exceeds the number of edges. */
  lemma BuildEvidenceGraphMetrics(items: seq<IdentityItem>, avatarHash: string -> AvatarHash,
                                  reverseLinks: string -> ReverseLinks)
    ensures var g := BuildEvidenceGraph(items, avatarHash, reverseLinks);
            0.0 <= g.metrics.publicCoverage <= 1.0 && (items == [] ==> g.metrics.publicCoverage == 0.0)
    ensures var g := BuildEvidenceGraph(items, avatarHash, reverseLinks);
            g.metrics.avatarMismatchPairs <= g.metrics.confusablePairs <= |g.edges|
            && g.metrics.nameMismatchPairs <= g.metrics.confusablePairs
            && g.metrics.crosslinkHits <= |g.edges|
  {
    var g := BuildEvidenceGraph(items, avatarHash, reverseLinks);
    assert g.metrics == MetricsOf(g.nodes, g.edges);
  }

  /** Every edge belongs to a pair `i < j` of nodes, and every such pair
      has its edge. */
  lemma BuildEvidenceGraphEdges(items: seq<IdentityItem>, avatarHash: string -> AvatarHash,
                                reverseLinks: string -> ReverseLinks)
    ensures var g := BuildEvidenceGraph(items, avatarHash, reverseLinks);
            forall k :: 0 <= k < |g.edges| ==> PairEdge(g.nodes, g.edges[k])
    ensures var g := BuildEvidenceGraph(items, avatarHash, reverseLinks);
            forall i: nat, j: nat :: i < j < |items| ==> Drawn(g.nodes, g.edges, i, j)
  {
    var g := BuildEvidenceGraph(items, avatarHash, reverseLinks);
    assert g.edges == Edges(g.nodes);
  }

  // ---------------------------------------------------------------------
  // The builder as written: `handle_sim >= 0.92` with a missing similarity.

  /** Some edge has no handle similarity. */
  predicate SimilarityMissing(edges: seq<Edge>) {
    exists k :: 0 <= k < |edges| && edges[k].handleSimilarity.None?
  }

  /** The builder as the source runs it: comparing a missing handle
      similarity with 0.92 raises `TypeError`, so any edge without one
      aborts the whole build. */
  function BuildEvidenceGraphAsWritten(items: seq<IdentityItem>, avatarHash: string -> AvatarHash,
                                       reverseLinks: string -> ReverseLinks): Result<Graph, string>
  {
    var g := BuildEvidenceGraph(items, avatarHash, reverseLinks);
    if SimilarityMissing(g.edges) then
      Failure("TypeError: '>=' not supported between instances of 'NoneType' and 'float'")
    else Success(g)
  }

  /** A node whose claim is blank has an empty comparison key. */
  lemma BlankClaimKey(item: IdentityItem, avatarHash: string -> AvatarHash,
                      reverseLinks: string -> ReverseLinks)
    requires item.claimed.Some? && item.claimed.value != [] && Strip(item.claimed.value) == []
    ensures HandleKey(MakeNode(item, avatarHash, reverseLinks)) == []
  {
    Identifiers.ParseClaimedBlank(item.claimed.value, item.platform);
  }

  /** With two entries, one of them claiming only whitespace (say `"  "`),
      the builder as written raises instead of returning a graph. */
  lemma BlankClaimAborts(items: seq<IdentityItem>, avatarHash: string -> AvatarHash,
                         reverseLinks: string -> ReverseLinks)
    requires |items| >= 2
    requires items[0].claimed.Some? && items[0].claimed.value != [] && Strip(items[0].claimed.value) == []
    ensures BuildEvidenceGraphAsWritten(items, avatarHash, reverseLinks).Failure?
  {
    var g := BuildEvidenceGraph(items, avatarHash, reverseLinks);
    assert g.edges == Edges(g.nodes);
    BlankClaimKey(items[0], avatarHash, reverseLinks);
    BlankFirstEdge(g.nodes);
  }

  /** The first edge joins the first two nodes; when the first has an
      empty comparison key, that edge has no handle similarity. */
  lemma BlankFirstEdge(nodes: seq<Node>)
    requires |nodes| >= 2 && HandleKey(nodes[0]) == []
    ensures SimilarityMissing(Edges(nodes))
  {
    Pairs.FirstPair(|nodes|);
    var es := Edges(nodes);
    assert es[0] == MakeEdge(nodes[0], nodes[1]);
    Similarity.ConfusabilityOfEmpty(HandleKey(nodes[0]), HandleKey(nodes[1]));
    assert es[0].handleSimilarity.None?;
  }

  /** The builder as written fails exactly when there are at least two
      entries and one of them has a comparison key that normalises to
      nothing: every pair involving it lacks a handle similarity. */
  lemma AsWrittenFailsIff(items: seq<IdentityItem>, avatarHash: string -> AvatarHash,
                          reverseLinks: string -> ReverseLinks)
    ensures var nodes := BuildEvidenceGraph(items, avatarHash, reverseLinks).nodes;
            BuildEvidenceGraphAsWritten(items, avatarHash, reverseLinks).Failure? <==>
              |items| >= 2 && exists k :: 0 <= k < |items| && BlankKey(nodes[k])
  {
    var g := BuildEvidenceGraph(items, avatarHash, reverseLinks);
    BuiltEdges(items, avatarHash, reverseLinks);
    MissingIffBlank(g.nodes);
  }

  /** The built graph's edges are the edges of its nodes. */
  lemma BuiltEdges(items: seq<IdentityItem>, avatarHash: string -> AvatarHash,
                   reverseLinks: string -> ReverseLinks)
    ensures var g := BuildEvidenceGraph(items, avatarHash, reverseLinks);
            g.edges == Edges(g.nodes)
  {
  }

  /** Some edge lacks a handle similarity exactly when there are at least
      two nodes and one of them has a blank key. */
  lemma MissingIffBlank(nodes: seq<Node>)
    ensures SimilarityMissing(Edges(nodes)) <==>
              |nodes| >= 2 && exists k :: 0 <= k < |nodes| && BlankKey(nodes[k])
  {
    if SimilarityMissing(Edges(nodes)) {
      var k := MissingHasBlank(nodes);
    }
    if |nodes| >= 2 && exists k :: 0 <= k < |nodes| && BlankKey(nodes[k]) {
      var k :| 0 <= k < |nodes| && BlankKey(nodes[k]);
      BlankMakesMissing(nodes, k);
    }
  }

  /** The handle key of `a` normalises to the empty string. */
  predicate BlankKey(a: Node) {
    Similarity.NormalizeIdentifier(HandleKey(a)) == []
  }

  /** An edge without a handle similarity joins a node with a blank key. */
  lemma MissingHasBlank(nodes: seq<Node>) returns (k: nat)
    requires SimilarityMissing(Edges(nodes))
    ensures |nodes| >= 2 && k < |nodes| && BlankKey(nodes[k])
  {
    var es := Edges(nodes);
    var ps := Pairs.AllPairs(|nodes|);
    var m :| 0 <= m < |es| && es[m].handleSimilarity.None?;
    var i, j := ps[m].0, ps[m].1;
    assert es[m] == MakeEdge(nodes[i], nodes[j]);
    k := if BlankKey(nodes[i]) then i else j;
  }

  /** A node with a blank key, among at least two, leaves some edge
      without a handle similarity. */
  lemma BlankMakesMissing(nodes: seq<Node>, k: nat)
    requires |nodes| >= 2 && k < |nodes| && BlankKey(nodes[k])
    ensures SimilarityMissing(Edges(nodes))
  {
    var es := Edges(nodes);
    var ps := Pairs.AllPairs(|nodes|);
    var lo, hi := 0, if k == 0 then 1 else k;
    Pairs.AllPairsIff(|nodes|, lo, hi);
    var m :| 0 <= m < |ps| && ps[m] == (lo, hi);
    assert es[m] == MakeEdge(nodes[lo], nodes[hi]);
    assert es[m].handleSimilarity.None?;
  }

  // ---------------------------------------------------------------------
  // The metrics as counts over pairs of nodes.

  /** Both strings have a non-empty comparison key, and the similarity
      ratio of the two keys is at least `t`. */
  predicate RatioAtLeast(x: string, y: string, t: real) {
    var nx, ny := Similarity.NormalizeIdentifier(x), Similarity.NormalizeIdentifier(y);
    nx != [] && ny != [] && Similarity.Ratio(nx, ny) >= t
  }

  /** Both strings have a non-empty comparison key, and the similarity
      ratio of the two keys is below `t`. */
  predicate RatioBelow(x: string, y: string, t: real) {
    var nx, ny := Similarity.NormalizeIdentifier(x), Similarity.NormalizeIdentifier(y);
    nx != [] && ny != [] && Similarity.Ratio(nx, ny) < t
  }

  /** The two identifiers are confusable: both keys exist and are at
      least 92% similar. */
  predicate PairConfusable(a: Node, b: Node) {
    RatioAtLeast(HandleKey(a), HandleKey(b), 0.92)
  }

  /** Confusable identifiers whose names are both given and less than 60%
      similar. */
  predicate PairNameMismatch(a: Node, b: Node) {
    NameKey(a) != [] && NameKey(b) != [] && RatioBelow(NameKey(a), NameKey(b), 0.60)
    && PairConfusable(a, b)
  }

  /** Confusable identifiers with two avatar digests that differ. */
  predicate PairAvatarMismatch(a: Node, b: Node) {
    a.avatarSha256.Some? && b.avatarSha256.Some? && a.avatarSha256 != b.avatarSha256
    && PairConfusable(a, b)
  }

  /** The crosslink score reaches one half. */
  predicate PairCrosslinked(a: Node, b: Node) {
    CrosslinkScore(a, b) >= 50
  }

  /** The number of listed index pairs whose two nodes satisfy `P`. */
  function CountPairs(nodes: seq<Node>, ps: seq<(nat, nat)>, P: (Node, Node) -> bool): (n: nat)
    ensures n <= |ps|
  {
    if ps == [] then 0
    else
      (if ps[0].0 < |nodes| && ps[0].1 < |nodes| && P(nodes[ps[0].0], nodes[ps[0].1]) then 1 else 0)
      + CountPairs(nodes, ps[1..], P)
  }

  /** Counting edges by a test that reads the pair behind each edge is
      counting those pairs. */
  lemma {:induction false} CountEdgesByPairs(nodes: seq<Node>, ps: seq<(nat, nat)>, es: seq<Edge>,
                                             q: Edge -> bool, P: (Node, Node) -> bool)
    requires |es| == |ps|
    requires forall k :: 0 <= k < |ps| ==>
      ps[k].0 < |nodes| && ps[k].1 < |nodes| && es[k] == MakeEdge(nodes[ps[k].0], nodes[ps[k].1])
    requires forall a, b :: q(MakeEdge(a, b)) == P(a, b)
    ensures CountWhere(es, q) == CountPairs(nodes, ps, P)
    decreases |ps|
  {
    if ps != [] {
      assert forall k :: 0 <= k < |ps| - 1 ==> ps[1..][k] == ps[k + 1] && es[1..][k] == es[k + 1];
      CountEdgesByPairs(nodes, ps[1..], es[1..], q, P);
      assert q(es[0]) == P(nodes[ps[0].0], nodes[ps[0].1]);
    }
  }

  /** Counting the drawn edges by a test on edges is counting the pairs
      `i < j` by the corresponding test on nodes. */
  lemma EdgesCountPairs(nodes: seq<Node>, q: Edge -> bool, P: (Node, Node) -> bool)
    requires forall a, b :: q(MakeEdge(a, b)) == P(a, b)
    ensures CountWhere(Edges(nodes), q) == CountPairs(nodes, Pairs.AllPairs(|nodes|), P)
  {
    CountEdgesByPairs(nodes, Pairs.AllPairs(|nodes|), Edges(nodes), q, P);
  }

  lemma ConfusableEdge(a: Node, b: Node)
    ensures Confusable(MakeEdge(a, b)) == PairConfusable(a, b)
  {
  }

  lemma ConfusableCount(nodes: seq<Node>)
    ensures MetricsOf(nodes, Edges(nodes)).confusablePairs
            == CountPairs(nodes, Pairs.AllPairs(|nodes|), PairConfusable)
  {
    forall a, b ensures Confusable(MakeEdge(a, b)) == PairConfusable(a, b) {
      ConfusableEdge(a, b);
    }
    EdgesCountPairs(nodes, Confusable, PairConfusable);
  }

  lemma NameMismatchEdge(a: Node, b: Node)
    ensures NameMismatch(MakeEdge(a, b)) == PairNameMismatch(a, b)
  {
    ConfusableEdge(a, b);
  }

  lemma NameMismatchCount(nodes: seq<Node>)
    ensures MetricsOf(nodes, Edges(nodes)).nameMismatchPairs
            == CountPairs(nodes, Pairs.AllPairs(|nodes|), PairNameMismatch)
  {
    forall a, b ensures NameMismatch(MakeEdge(a, b)) == PairNameMismatch(a, b) {
      NameMismatchEdge(a, b);
    }
    EdgesCountPairs(nodes, NameMismatch, PairNameMismatch);
  }

  lemma AvatarMismatchEdge(a: Node, b: Node)
    ensures AvatarMismatch(MakeEdge(a, b)) == PairAvatarMismatch(a, b)
  {
    ConfusableEdge(a, b);
  }

  lemma AvatarMismatchCount(nodes: seq<Node>)
    ensures MetricsOf(nodes, Edges(nodes)).avatarMismatchPairs
            == CountPairs(nodes, Pairs.AllPairs(|nodes|), PairAvatarMismatch)
  {
    forall a, b ensures AvatarMismatch(MakeEdge(a, b)) == PairAvatarMismatch(a, b) {
      AvatarMismatchEdge(a, b);
    }
    EdgesCountPairs(nodes, AvatarMismatch, PairAvatarMismatch);
  }

  lemma CrosslinkCount(nodes: seq<Node>)
    ensures MetricsOf(nodes, Edges(nodes)).crosslinkHits
            == CountPairs(nodes, Pairs.AllPairs(|nodes|), PairCrosslinked)
  {
    EdgesCountPairs(nodes, Crosslinked, PairCrosslinked);
  }

  /** The four pair counts of the graph: confusable pairs, name and avatar
      mismatches among them, and crosslinked pairs, each over the pairs
      `i < j` of nodes. */
  lemma BuildEvidenceGraphCounts(items: seq<IdentityItem>, avatarHash: string -> AvatarHash,
                                 reverseLinks: string -> ReverseLinks)
    ensures var g := BuildEvidenceGraph(items, avatarHash, reverseLinks);
            g.metrics.confusablePairs == CountPairs(g.nodes, Pairs.AllPairs(|items|), PairConfusable)
    ensures var g := BuildEvidenceGraph(items, avatarHash, reverseLinks);
            g.metrics.nameMismatchPairs == CountPairs(g.nodes, Pairs.AllPairs(|items|), PairNameMismatch)
    ensures var g := BuildEvidenceGraph(items, avatarHash, reverseLinks);
            g.metrics.avatarMismatchPairs == CountPairs(g.nodes, Pairs.AllPairs(|items|), PairAvatarMismatch)
    ensures var g := BuildEvidenceGraph(items, avatarHash, reverseLinks);
            g.metrics.crosslinkHits == CountPairs(g.nodes, Pairs.AllPairs(|items|), PairCrosslinked)
  {
    var nodes := Nodes(items, avatarHash, reverseLinks);
    assert BuildEvidenceGraph(items, avatarHash, reverseLinks)
        == Graph(nodes, Edges(nodes), MetricsOf(nodes, Edges(nodes)));
    ConfusableCount(nodes);
    NameMismatchCount(nodes);
    AvatarMismatchCount(nodes);
    CrosslinkCount(nodes);
  }

  /** The corrected builder returns a graph on every input, the same
      graph the builder as written returns whenever that one does not
      fail, and it counts a pair as confusable only when both keys exist
      and are at least 92% similar. */
  lemma BuildEvidenceGraphTotal(items: seq<IdentityItem>, avatarHash: string -> AvatarHash,
                                reverseLinks: string -> ReverseLinks)
    ensures var w := BuildEvidenceGraphAsWritten(items, avatarHash, reverseLinks);
            w.Success? ==> w.value == BuildEvidenceGraph(items, avatarHash, reverseLinks)
    ensures var g := BuildEvidenceGraph(items, avatarHash, reverseLinks);
            g.metrics.confusablePairs == CountPairs(g.nodes, Pairs.AllPairs(|items|), PairConfusable)
  {
    BuildEvidenceGraphCounts(items, avatarHash, reverseLinks);
  }
}

=== FILE: identifiers.dfy ===
/** Claim parsing into a comparison key (pipeline/identifiers.py): the
    platform-aware parse plus a basic normalisation that folds `0` to `o`
    and `1` to `l` unless the key is purely numeric. */
module Identifiers {
  import opened Wrappers
  import opened Text
  import opened PlatformParse

  datatype ParsedIdentifier = ParsedIdentifier(
    rawClaimed: string,
    kind: Kind,
    domain: Option<string>,
    handle: Option<string>,
    normalized: string)

  /** A key `NormalizeBasic` leaves alone: no whitespace, no upper-case
      letter, and either all digits or free of `0` and `1`. */
  predicate IsBasicKey(k: string) {
    NoSpace(k) && NoUpper(k) && (AllDigits(k) || ('0' !in k && '1' !in k))
  }

  /** `_normalize_basic`: strip, lower-case, delete whitespace; a purely
      numeric result is kept, anything else has `0` read as `o` and `1`
      as `l`. */
  function NormalizeBasic(s: string): (r: string)
    ensures IsBasicKey(r)
    ensures |r| <= |s|
  {
    var t := RemoveSpaces(LowerStr(Strip(s)));
    if AllDigits(t) then t else ReplaceChar(ReplaceChar(t, '0', 'o'), '1', 'l')
  }

  /** A basic key is a fixed point of the normalisation. */
  lemma NormalizeBasicFixed(k: string)
    requires IsBasicKey(k)
    ensures NormalizeBasic(k) == k
  {
    if k != [] {
      StripUnchanged(k);
      LowerStrNoUpper(k);
      RemoveSpacesNoSpace(k);
      if !AllDigits(k) {
        ReplaceAbsent(k, '0', 'o');
        ReplaceAbsent(k, '1', 'l');
      }
    }
  }

  /** Normalising twice is normalising once. */
  lemma NormalizeBasicIdempotent(s: string)
    ensures NormalizeBasic(NormalizeBasic(s)) == NormalizeBasic(s)
  {
    NormalizeBasicFixed(NormalizeBasic(s));
  }

  /** A numeric identifier (a Facebook id, say) is kept digit for digit:
      its `0`s and `1`s are not folded. */
  lemma NormalizeBasicKeepsNumbers(s: string)
    requires AllDigits(s)
    ensures NormalizeBasic(s) == s
  {
    NormalizeBasicFixed(s);
  }

  /** On a non-numeric key each `0` becomes `o` and each `1` becomes `l`,
      position by position, and nothing else changes. */
  lemma NormalizeBasicFolds(s: string)
    requires NoSpace(s) && NoUpper(s) && !AllDigits(s)
    ensures |NormalizeBasic(s)| == |s|
    ensures forall i :: 0 <= i < |s| ==>
      NormalizeBasic(s)[i] == (if s[i] == '0' then 'o' else if s[i] == '1' then 'l' else s[i])
  {
    if s != [] {
      StripUnchanged(s);
      LowerStrNoUpper(s);
      RemoveSpacesNoSpace(s);
      assert RemoveSpaces(LowerStr(Strip(s))) == s;
      assert NormalizeBasic(s) == ReplaceChar(ReplaceChar(s, '0', 'o'), '1', 'l');
    }
  }

  /** The comparison key of a parse: the normalised handle when that is
      non-empty, the normalised (stripped) claim otherwise. */
  function KeyOf(pp: PlatformParsed): (k: string)
    ensures IsBasicKey(k)
  {
    var handleNorm := if pp.handle.Some? && pp.handle.value != [] then NormalizeBasic(pp.handle.value) else "";
    if handleNorm != [] then handleNorm else NormalizeBasic(pp.claimed)
  }

  /** An empty handle normalises to the empty key, so the key comes from
      the handle exactly when the handle normalises to something. */
  lemma KeySource(pp: PlatformParsed)
    ensures var h := pp.handle;
            if h.Some? && NormalizeBasic(h.value) != []
            then KeyOf(pp) == NormalizeBasic(h.value)
            else KeyOf(pp) == NormalizeBasic(pp.claimed)
  {
  }

  /** `parse_claimed(claimed, platform)`: the platform-aware parse of the
      claim, keyed by `KeyOf`. */
  function ParseClaimed(claimed: Option<string>, platform: Option<string>): (r: ParsedIdentifier)
    ensures r.rawClaimed == claimed.GetOr("")
    ensures var pp := ExtractHandle(platform, claimed.GetOr(""));
            r.kind == pp.kind && r.domain == pp.domain && r.handle == pp.handle && r.normalized == KeyOf(pp)
    ensures IsBasicKey(r.normalized)
  {
    var raw := claimed.GetOr("");
    var pp := ExtractHandle(platform, raw);
    ParsedIdentifier(raw, pp.kind, pp.domain, pp.handle, KeyOf(pp))
  }

  /** The key comes from the handle whenever the handle normalises to
      something non-empty, and from the stripped claim otherwise. */
  lemma ParseClaimedKeySource(claimed: Option<string>, platform: Option<string>)
    ensures var raw := claimed.GetOr("");
            var h := ExtractHandle(platform, raw).handle;
            var r := ParseClaimed(claimed, platform);
            if h.Some? && NormalizeBasic(h.value) != []
            then r.normalized == NormalizeBasic(h.value)
            else r.normalized == NormalizeBasic(Strip(raw))
  {
    KeySource(ExtractHandle(platform, claimed.GetOr("")));
  }

  /** A blank claim (empty after stripping) parses as other: no domain, no
      handle, empty key. */
  lemma BlankParse(platform: Option<string>, claimed: string)
    requires Strip(claimed) == []
    ensures var pp := ExtractHandle(platform, claimed);
            pp.kind == OtherClaim && pp.domain.None? && pp.handle.None? && KeyOf(pp) == []
  {
    BlankExtract(platform, claimed);
    KeySource(ExtractHandle(platform, claimed));
    assert |NormalizeBasic([])| <= 0;
  }

  lemma BlankExtract(platform: Option<string>, claimed: string)
    requires Strip(claimed) == []
    ensures var pp := ExtractHandle(platform, claimed);
            pp.kind == OtherClaim && pp.domain.None? && pp.handle.None?
  {
    var c := Strip(claimed);
    assert !IsEmail(c) by { assert |c| == 0; }
    assert !IsHttpUrl(c) by { assert |LowerStr(c)| == 0; }
    assert CleanHandle(Some(c)).None?;
    HandleOrOtherRule(platform, claimed);
  }

  /** A missing claim and an empty claim parse alike: kind other, no
      domain, no handle, empty key. */
  lemma ParseClaimedEmpty(platform: Option<string>)
    ensures ParseClaimed(None, platform) == ParseClaimed(Some(""), platform)
    ensures var r := ParseClaimed(None, platform);
            r.kind == OtherClaim && r.domain.None? && r.handle.None? && r.normalized == []
  {
    assert Strip("") == "";
    BlankParse(platform, "");
  }

  /** A blank claim (empty after stripping) has no handle and an empty
      key, whatever the platform. */
  lemma ParseClaimedBlank(claimed: string, platform: Option<string>)
    requires Strip(claimed) == []
    ensures ParseClaimed(Some(claimed), platform).handle.None?
    ensures ParseClaimed(Some(claimed), platform).normalized == []
  {
    BlankParse(platform, claimed);
  }

  /** Parsing an email claim keys it by its lower-cased local part. */
  lemma ParseClaimedEmail(claimed: string, platform: Option<string>)
    requires IsEmail(Strip(claimed))
    ensures ParseClaimed(Some(claimed), platform).kind == EmailClaim
    ensures ParseClaimed(Some(claimed), platform).normalized
            == NormalizeBasic(LowerStr(Before(Strip(claimed), '@')))
  {
    EmailRule(platform, claimed);
    var c := Strip(claimed);
    assert Before(c, '@') != [];
    var local := LowerStr(Before(c, '@'));
    assert local[0] == Lower(c[0]) && !IsSpace(local[0]);
    NormalizeBasicNonEmpty(local, 0);
  }

  /** A claim with any non-whitespace character has a non-empty key. */
  lemma NormalizeBasicNonEmpty(s: string, i: nat)
    requires i < |s| && !IsSpace(s[i])
    ensures NormalizeBasic(s) != []
  {
    RemoveSpacesLowerStrip(s);
    assert !IsSpace(LowerStr(s)[i]);
    RemoveSpacesKeeps(LowerStr(s), i);
  }

  /** `best_compare_key`: the key, domain and handle of the parse. */
  function BestCompareKey(claimed: Option<string>, platform: Option<string>): (r: (string, Option<string>, Option<string>))
    ensures NormalizeBasic(r.0) == r.0
    ensures var pp := ExtractHandle(platform, claimed.GetOr(""));
            r.0 == KeyOf(pp) && r.1 == pp.domain && r.2 == pp.handle
  {
    var p := ParseClaimed(claimed, platform);
    NormalizeBasicFixed(p.normalized);
    (p.normalized, p.domain, p.handle)
  }

  /** The comparison key is the normalised handle returned alongside it,
      or, when that handle is missing or normalises to nothing, the
      normalised stripped claim. */
  lemma BestCompareKeySource(claimed: Option<string>, platform: Option<string>)
    ensures var r := BestCompareKey(claimed, platform);
            if r.2.Some? && NormalizeBasic(r.2.value) != []
            then r.0 == NormalizeBasic(r.2.value)
            else r.0 == NormalizeBasic(Strip(claimed.GetOr("")))
  {
    ParseClaimedKeySource(claimed, platform);
  }
}

=== FILE: judge_v1.dfy ===
/** The verdict layer `judge_v1`: REAL or FAKE with a certainty, read from
    a finished pipeline output. FAKE needs positive evidence of
    substitution (several identities, confusable identifiers, a
    contradiction signal, enough public coverage and a high overall risk);
    weak evidence on its own only makes the judge abstain. */
module JudgeV1 {
  import opened Wrappers
  import opened Evidence
  import AgentPolicyV2

  /** A metrics dictionary as the judge receives it: every key may be
      absent. */
  datatype MetricsDict = MetricsDict(
    numIdentities: Option<int>,
    publicCoverage: Option<real>,
    confusablePairs: Option<int>,
    nameMismatchPairs: Option<int>,
    avatarMismatchPairs: Option<int>,
    crosslinkHits: Option<int>)

  /** The pipeline output the judge reads. `graphMetrics` is the top-level
      `graph_metrics` dictionary, `evidenceGraphMetrics` the one under
      `evidence_graph.metrics`; `agentAction` is `agent.action` when it is
      a string. */
  datatype SivaOutput = SivaOutput(
    overallRisk: Option<real>,
    authenticityRisk: Option<real>,
    substitutionRisk: Option<real>,
    confidence: Option<real>,
    reasons: seq<ReasonEntry>,
    agentAction: Option<string>,
    graphMetrics: Option<MetricsDict>,
    evidenceGraphMetrics: Option<MetricsDict>)

  /** The metrics after missing keys have defaulted to zero. */
  datatype GraphMetrics = GraphMetrics(
    numIdentities: int,
    publicCoverage: real,
    confusablePairs: int,
    nameMismatchPairs: int,
    avatarMismatchPairs: int,
    crosslinkHits: int)

  datatype Verdict = Real | Fake

  datatype Certainty = High | Medium | Low

  function VerdictName(v: Verdict): string {
    match v
    case Real => "REAL"
    case Fake => "FAKE"
  }

  function CertaintyName(c: Certainty): string {
    match c
    case High => "HIGH"
    case Medium => "MEDIUM"
    case Low => "LOW"
  }

  /** A contradiction signal as the standard lists it. */
  datatype Signal = NameMismatchAny | AvatarMismatchAny | NoCrosslink

  /** The text the standard prints for a signal. */
  function SignalText(s: Signal): string {
    match s
    case NameMismatchAny => "name_mismatch_pairs>0"
    case AvatarMismatchAny => "avatar_mismatch_pairs>0"
    case NoCrosslink => "crosslink_hits==0"
  }

  /** The two policy flags of the standard. */
  datatype Policy = Policy(
    fakeRequiresPositiveSubstitutionEvidence: bool,
    weakEvidenceAloneIsNotFake: bool)

  /** The criteria the judge publishes in its `standard` record. */
  datatype Criteria = Criteria(
    minIdentitiesForSubstitution: int,
    minPublicCoverage: real,
    fakeOverallRiskThreshold: real,
    fakeRequiresConfusablePairs: bool,
    fakeRequiresAnyContradictionSignal: seq<Signal>)

  /** The evaluator definition returned with every judgement. */
  datatype StandardRecord = StandardRecord(
    definition: string,
    evidenceScope: string,
    policy: Policy,
    criteria: Criteria)

  const Standard := StandardRecord(
    "substitution_fake_or_contradiction",
    "public_profile_only",
    Policy(true, true),
    Criteria(2, 0.50, 0.70, true, [NameMismatchAny, AvatarMismatchAny, NoCrosslink]))

  const JudgeVersion := "judge_v1"

  /** `siva_passthrough`: the pipeline values repeated for convenience. */
  datatype Passthrough = Passthrough(overallRisk: real, confidence: real, action: string)

  /** The overall risk from which a FAKE verdict carries MEDIUM certainty. */
  const MediumFakeThreshold: real := 0.55

  /** `supporting_metrics`: the values the decision read. */
  datatype Supporting = Supporting(
    overallRisk: real,
    substitutionRisk: real,
    authenticityRisk: real,
    confidence: real,
    metrics: GraphMetrics,
    agentAction: string)

  /** The judge's result. */
  datatype Judgement = Judgement(
    verdict: Verdict,
    certainty: Certainty,
    abstained: bool,
    judgeVersion: string,
    standard: StandardRecord,
    primaryReasons: seq<ReasonEntry>,
    supporting: Supporting,
    passthrough: Passthrough)

  // ---------------------------------------------------------------------
  // Reading the output.

  /** The string codes of the reason entries, in order; entries whose code
      is absent or not a string are skipped. */
  function ReasonCodes(rs: seq<ReasonEntry>): (cs: seq<string>)
    ensures |cs| <= |rs|
    ensures forall x :: x in cs <==> exists k :: 0 <= k < |rs| && rs[k].code == Code(x)
    decreases |rs|
  {
    if rs == [] then []
    else
      var rest := ReasonCodes(rs[1..]);
      assert forall k :: 1 <= k < |rs| ==> rs[k] == rs[1..][k - 1];
      (match rs[0].code
       case Code(s) => [s]
       case _ => []) + rest
  }

  /** The entries that have a `code` key, whatever its value, in order. */
  function PrimaryReasons(rs: seq<ReasonEntry>): (ps: seq<ReasonEntry>)
    ensures |ps| <= |rs|
    ensures forall e :: e in ps <==> e in rs && !e.code.NoCode?
    decreases |rs|
  {
    if rs == [] then []
    else
      var rest := PrimaryReasons(rs[1..]);
      assert forall e :: e in rs <==> e == rs[0] || e in rs[1..];
      (if rs[0].code.NoCode? then [] else [rs[0]]) + rest
  }

  /** Filtering distributes over concatenation: the primary reasons of a
      list are those of its parts, in the same order, repeats kept. */
  lemma {:induction false} PrimaryReasonsAppend(a: seq<ReasonEntry>, b: seq<ReasonEntry>)
    ensures PrimaryReasons(a + b) == PrimaryReasons(a) + PrimaryReasons(b)
    decreases |a|
  {
    if a != [] {
      assert (a + b)[1..] == a[1..] + b;
      PrimaryReasonsAppend(a[1..], b);
    } else {
      assert a + b == b;
    }
  }

  /** A single entry is kept exactly when it has a code. */
  lemma PrimaryReasonsOne(e: ReasonEntry)
    ensures PrimaryReasons([e]) == (if e.code.NoCode? then [] else [e])
  {
    assert [e][1..] == [];
  }

  /** `_extract_agent_action(...) or "UNKNOWN"`: an empty action string
      is replaced too. */
  function ActionOf(o: SivaOutput): (a: string)
    ensures a != []
    ensures o.agentAction.Some? && o.agentAction.value != [] ==> a == o.agentAction.value
  {
    if o.agentAction.Some? && o.agentAction.value != [] then o.agentAction.value else "UNKNOWN"
  }

  /** The metrics dictionary: the top-level one when present (even with
      no keys), else the evidence graph's, else an empty one. */
  function MetricsDictOf(o: SivaOutput): (d: MetricsDict)
    ensures o.graphMetrics.Some? ==> d == o.graphMetrics.value
    ensures o.graphMetrics.None? && o.evidenceGraphMetrics.Some? ==> d == o.evidenceGraphMetrics.value
    ensures o.graphMetrics.None? && o.evidenceGraphMetrics.None? ==> d == MetricsDict(None, None, None, None, None, None)
  {
    match o.graphMetrics
    case Some(gm) => gm
    case None => o.evidenceGraphMetrics.GetOr(MetricsDict(None, None, None, None, None, None))
  }

  /** The metrics with missing keys read as zero. */
  function MetricsOf(o: SivaOutput): (m: GraphMetrics)
    ensures MetricsDictOf(o).confusablePairs.None? ==> m.confusablePairs == 0
    ensures MetricsDictOf(o).numIdentities.None? ==> m.numIdentities == 0
  {
    var d := MetricsDictOf(o);
    GraphMetrics(
      d.numIdentities.GetOr(0), d.publicCoverage.GetOr(0.0), d.confusablePairs.GetOr(0),
      d.nameMismatchPairs.GetOr(0), d.avatarMismatchPairs.GetOr(0), d.crosslinkHits.GetOr(0))
  }

  function OverallOf(o: SivaOutput): real {
    o.overallRisk.GetOr(0.0)
  }

  // ---------------------------------------------------------------------
  // The decision.

  /** A contradiction or instability signal: mismatching names or avatars,
      or no cross-link between the identities. */
  predicate Contradiction(m: GraphMetrics) {
    m.nameMismatchPairs > 0 || m.avatarMismatchPairs > 0 || m.crosslinkHits == 0
  }

  /** The substitution evidence the FAKE verdict needs, at an overall-risk
      threshold. */
  predicate FakeAt(m: GraphMetrics, overall: real, threshold: real) {
    && m.numIdentities >= 2
    && m.publicCoverage >= 0.50
    && m.confusablePairs > 0
    && Contradiction(m)
    && overall >= threshold
  }

  /** The actions that escalate the request. */
  predicate Escalated(action: string) {
    action == "WARN" || action == "REQUEST_STRONGER_PROOF"
  }

  /** A weak-evidence code among the reasons. */
  predicate WeakEvidence(codes: seq<string>) {
    CodeName(GenericPlatformBio) in codes || CodeName(NoBioLinkouts) in codes
  }

  /** The verdict, certainty and abstention for the values read. */
  function Decide(m: GraphMetrics, overall: real, action: string, codes: seq<string>): (vca: (Verdict, Certainty, bool))
    ensures vca.0 == Fake <==> FakeAt(m, overall, MediumFakeThreshold)
    ensures vca.1 == High <==> vca.0 == Fake && overall >= Standard.criteria.fakeOverallRiskThreshold
    ensures vca.2 <==> vca.1 == Low
    ensures vca.2 ==> vca.0 == Real
    ensures vca.0 == Real ==> (vca.2 <==> Escalated(action) || WeakEvidence(codes) || m.publicCoverage < Standard.criteria.minPublicCoverage)
    ensures vca.0 == Real && !vca.2 ==> vca.1 == Medium
  {
    var fakeHigh := FakeAt(m, overall, 0.70);
    var fakeMedium := FakeAt(m, overall, 0.55);
    if fakeHigh then (Fake, High, false)
    else if fakeMedium then (Fake, Medium, false)
    else if Escalated(action) || WeakEvidence(codes) || m.publicCoverage < 0.50 then (Real, Low, true)
    else (Real, Medium, false)
  }

  /** `judge_v1(siva_output)`. */
  function Judge(o: SivaOutput): (j: Judgement)
    ensures j.verdict == Fake <==> FakeAt(MetricsOf(o), OverallOf(o), MediumFakeThreshold)
    ensures j.certainty == High <==> j.verdict == Fake && OverallOf(o) >= Standard.criteria.fakeOverallRiskThreshold
    ensures j.abstained <==> j.certainty == Low
    ensures j.abstained ==> j.verdict == Real
    ensures j.verdict == Real ==>
              (j.abstained <==> Escalated(ActionOf(o)) || WeakEvidence(ReasonCodes(o.reasons))
                                || MetricsOf(o).publicCoverage < Standard.criteria.minPublicCoverage)
    ensures forall e :: e in j.primaryReasons <==> e in o.reasons && !e.code.NoCode?
    ensures j.primaryReasons == PrimaryReasons(o.reasons)
    ensures j.judgeVersion == JudgeVersion && j.standard == Standard
    ensures j.supporting.metrics == MetricsOf(o) && j.supporting.agentAction == ActionOf(o)
    ensures j.supporting.overallRisk == OverallOf(o) && j.supporting.confidence == o.confidence.GetOr(0.0)
    ensures j.passthrough == Passthrough(j.supporting.overallRisk, j.supporting.confidence, j.supporting.agentAction)
  {
    var m := MetricsOf(o);
    var overall := OverallOf(o);
    var action := ActionOf(o);
    var vca := Decide(m, overall, action, ReasonCodes(o.reasons));
    var supporting := Supporting(
      overall, o.substitutionRisk.GetOr(0.0), o.authenticityRisk.GetOr(0.0), o.confidence.GetOr(0.0),
      m, action);
    Judgement(vca.0, vca.1, vca.2, JudgeVersion, Standard, PrimaryReasons(o.reasons), supporting,
              Passthrough(overall, o.confidence.GetOr(0.0), action))
  }

  // ---------------------------------------------------------------------
  // Properties of the verdict.

  /** A FAKE verdict at HIGH certainty meets every published criterion. */
  lemma FakeHighMeetsStandard(o: SivaOutput)
    requires Judge(o).verdict == Fake && Judge(o).certainty == High
    ensures MetricsOf(o).numIdentities >= Standard.criteria.minIdentitiesForSubstitution
    ensures MetricsOf(o).publicCoverage >= Standard.criteria.minPublicCoverage
    ensures MetricsOf(o).confusablePairs > 0 && Contradiction(MetricsOf(o))
    ensures OverallOf(o) >= Standard.criteria.fakeOverallRiskThreshold
  {
  }

  /** The metrics satisfy a listed contradiction signal. */
  predicate SignalHolds(sig: Signal, m: GraphMetrics) {
    match sig
    case NameMismatchAny => m.nameMismatchPairs > 0
    case AvatarMismatchAny => m.avatarMismatchPairs > 0
    case NoCrosslink => m.crosslinkHits == 0
  }

  /** The published signal list describes the decision: the metrics show
      a contradiction exactly when one of the listed signals holds, and
      FAKE needs confusable pairs as the standard says. */
  lemma PublishedSignalsDecide(o: SivaOutput)
    ensures var sigs := Standard.criteria.fakeRequiresAnyContradictionSignal;
            Contradiction(MetricsOf(o)) <==> exists k :: 0 <= k < |sigs| && SignalHolds(sigs[k], MetricsOf(o))
    ensures Standard.criteria.fakeRequiresConfusablePairs && Judge(o).verdict == Fake ==> MetricsOf(o).confusablePairs > 0
  {
    var sigs := Standard.criteria.fakeRequiresAnyContradictionSignal;
    var m := MetricsOf(o);
    assert SignalHolds(sigs[0], m) <==> m.nameMismatchPairs > 0;
    assert SignalHolds(sigs[1], m) <==> m.avatarMismatchPairs > 0;
    assert SignalHolds(sigs[2], m) <==> m.crosslinkHits == 0;
  }

  /** A FAKE verdict at MEDIUM certainty can sit below the published
      overall-risk threshold: the published criteria describe the HIGH
      tier only. */
  lemma MediumFakeBelowPublishedThreshold()
    ensures
      var m := MetricsDict(Some(2), Some(1.0), Some(1), Some(1), None, None);
      var o := SivaOutput(Some(0.60), None, None, None, [], None, Some(m), None);
      Judge(o).verdict == Fake && Judge(o).certainty == Medium
      && OverallOf(o) < Standard.criteria.fakeOverallRiskThreshold
  {
    var m := MetricsDict(Some(2), Some(1.0), Some(1), Some(1), None, None);
    var o := SivaOutput(Some(0.60), None, None, None, [], None, Some(m), None);
    assert MetricsOf(o) == GraphMetrics(2, 1.0, 1, 1, 0, 0);
  }

  /** A single identity is never judged FAKE. */
  lemma SingleIdentityNeverFake(o: SivaOutput)
    requires MetricsOf(o).numIdentities < 2
    ensures Judge(o).verdict == Real
  {
  }

  /** Weak evidence alone is not FAKE: without confusable identifiers or
      without a contradiction signal the verdict is REAL, whatever the
      reasons, the action and the risk. */
  lemma WeakEvidenceAloneNotFake(o: SivaOutput)
    requires MetricsOf(o).confusablePairs <= 0 || !Contradiction(MetricsOf(o))
    ensures Judge(o).verdict == Real
  {
  }

  /** The verdict and the certainty of a FAKE verdict do not depend on
      the reasons or the action. */
  lemma VerdictIgnoresReasonsAndAction(o: SivaOutput, rs: seq<ReasonEntry>, a: Option<string>)
    ensures Judge(o.(reasons := rs, agentAction := a)).verdict == Judge(o).verdict
    ensures Judge(o).verdict == Fake ==> Judge(o.(reasons := rs, agentAction := a)).certainty == Judge(o).certainty
  {
    assert MetricsOf(o.(reasons := rs, agentAction := a)) == MetricsOf(o);
  }

  /** Raising the overall risk never turns FAKE into REAL and never lowers
      the certainty of a FAKE verdict. */
  lemma FakeMonotoneInRisk(o: SivaOutput, x: real)
    requires OverallOf(o) <= x
    ensures Judge(o).verdict == Fake ==> Judge(o.(overallRisk := Some(x))).verdict == Fake
    ensures Judge(o).certainty == High ==> Judge(o.(overallRisk := Some(x))).certainty == High
  {
    assert MetricsOf(o.(overallRisk := Some(x))) == MetricsOf(o);
  }

  /** An escalating action always makes a REAL verdict abstain with LOW
      certainty. */
  lemma EscalationAbstains(o: SivaOutput)
    requires Escalated(ActionOf(o))
    ensures Judge(o).verdict == Real ==> Judge(o).abstained && Judge(o).certainty == Low
  {
  }

  /** On the reasons a scorer emits every entry has a code, so all of
      them are primary reasons. */
  lemma ScorerReasonsArePrimary(rs: seq<Reason>)
    ensures PrimaryReasons(AsEntries(rs)) == AsEntries(rs)
  {
    CodedArePrimary(AsEntries(rs));
  }

  /** Entries that all carry a code are all primary reasons. */
  lemma {:induction false} CodedArePrimary(es: seq<ReasonEntry>)
    requires forall k :: 0 <= k < |es| ==> !es[k].code.NoCode?
    ensures PrimaryReasons(es) == es
    decreases |es|
  {
    if es != [] {
      var tl := es[1..];
      assert forall k :: 0 <= k < |tl| ==> tl[k] == es[k + 1];
      CodedArePrimary(tl);
      PrimaryReasonsOne(es[0]);
      PrimaryReasonsAppend([es[0]], tl);
      assert es == [es[0]] + tl;
    }
  }

  /** The codes the judge reads from a scorer's reasons are their code
      names, in order. */
  lemma ScorerReasonCodes(rs: seq<Reason>)
    ensures |ReasonCodes(AsEntries(rs))| == |rs|
    ensures forall k :: 0 <= k < |rs| ==> ReasonCodes(AsEntries(rs))[k] == CodeName(rs[k].code)
  {
    StringCodesKept(AsEntries(rs));
  }

  /** Entries that all carry a string code give those codes, in order. */
  lemma {:induction false} StringCodesKept(es: seq<ReasonEntry>)
    requires forall k :: 0 <= k < |es| ==> es[k].code.Code?
    ensures |ReasonCodes(es)| == |es|
    ensures forall k :: 0 <= k < |es| ==> ReasonCodes(es)[k] == es[k].code.s
    decreases |es|
  {
    if es != [] {
      var tl := es[1..];
      assert forall k :: 0 <= k < |tl| ==> tl[k] == es[k + 1];
      StringCodesKept(tl);
      assert ReasonCodes(es) == [es[0].code.s] + ReasonCodes(tl);
    }
  }

  /** Judging the output of the threshold policy: a FAKE verdict only
      follows an escalated action, and a REAL verdict at an overall risk
      of 0.40 or more abstains. */
  lemma PolicyOutputJudged(m: Metrics, overall: real, o: SivaOutput)
    requires OverallOf(o) == overall
    requires o.agentAction == Some(ActionName(AgentPolicyV2.DecideActionV2(m, overall).action))
    ensures Judge(o).verdict == Fake ==> Escalated(ActionOf(o))
    ensures Judge(o).verdict == Real && overall >= 0.40 ==> Judge(o).abstained
  {
  }
}

=== FILE: linkout.dfy ===
/** Link-outs found in a bio (pipeline/linkout.py): every `http(s)://`
    URL, the distinct lower-cased hosts of those URLs, and the distinct
    lower-cased `@handles`. The two regular expressions are modelled by
    hand-written left-to-right scanners with `findall`'s non-overlapping,
    greedy matching. */
module Linkout {
  import opened Wrappers
  import opened Text
  import opened Seqs
  import opened Urls
  import PlatformParse

  /** Length of an `https?://` prefix of `t` (letters in any case), or 0. */
  function SchemeLen(t: string): (n: nat)
    ensures n == 0 || n == 7 || n == 8
    ensures n <= |t|
  {
    if |t| >= 7 && LowerStr(t[..7]) == "http://" then 7
    else if |t| >= 8 && LowerStr(t[..8]) == "https://" then 8
    else 0
  }

  /** `[^\s)]`. */
  predicate IsUrlChar(c: char) { !IsSpace(c) && c != ')' }

  /** A whole match of `https?://[^\s)]+`. */
  predicate IsUrlMatch(u: string) {
    var p := SchemeLen(u);
    p > 0 && |u| > p && forall i :: p <= i < |u| ==> IsUrlChar(u[i])
  }

  /** Length of the URL match starting at the head of `t`, or 0: the
      scheme prefix followed by the longest run of URL characters, which
      must not be empty. */
  function UrlAt(t: string): (n: nat)
    ensures n <= |t|
    ensures n > 0 ==> IsUrlMatch(t[..n])
    ensures n > 0 ==> n == |t| || !IsUrlChar(t[n])
  {
    var p := SchemeLen(t);
    if p == 0 then 0
    else
      var run := LeadCount(t[p..], IsUrlChar);
      if run == 0 then 0
      else
        assert t[..p + run][..p] == t[..p];
        p + run
  }

  /** `_URL_RE.findall(t)`: the matches, left to right, each search
      resuming after the previous match. */
  function FindUrls(t: string): (urls: seq<string>)
    ensures forall k :: 0 <= k < |urls| ==> IsUrlMatch(urls[k])
    ensures forall k :: 0 <= k < |urls| ==> |urls[k]| <= |t|
    decreases |t|
  {
    if t == [] then []
    else
      var n := UrlAt(t);
      if n > 0 then [t[..n]] + FindUrls(t[n..]) else FindUrls(t[1..])
  }

  /** Length of the `@handle` match at the head of `t`, or 0: `@` and
      then the longest run of up to 64 handle characters, at least 2. */
  function HandleAt(t: string): (n: nat)
    ensures n <= |t|
    ensures n > 0 ==> t[0] == '@' && PlatformParse.IsHandleBody(t[1..n])
  {
    if t == [] || t[0] != '@' then 0
    else
      var run := LeadCount(t[1..], PlatformParse.IsHandleChar);
      var k := if run > 64 then 64 else run;
      if k >= 2 then 1 + k else 0
  }

  /** `_HANDLE_RE.findall(t)`: the captured handles (without `@`). */
  function FindHandles(t: string): (hs: seq<string>)
    ensures forall k :: 0 <= k < |hs| ==> PlatformParse.IsHandleBody(hs[k])
    decreases |t|
  {
    if t == [] then []
    else
      var n := HandleAt(t);
      if n > 0 then [t[1..n]] + FindHandles(t[n..]) else FindHandles(t[1..])
  }

  /** A whole URL followed by a separator is found as one match, and the
      scan resumes after the separator. */
  lemma FindUrlsStep(u: string, c: char, rest: string)
    requires IsUrlMatch(u) && !IsUrlChar(c)
    ensures FindUrls(u + [c] + rest) == [u] + FindUrls(rest)
  {
    var t := u + [c] + rest;
    var p := SchemeLen(u);
    assert t[..7] == u[..7];
    assert |u| >= 8 ==> t[..8] == u[..8];
    assert SchemeLen(t) == p;
    var s := t[p..];
    assert s[|u| - p] == c;
    assert forall i :: 0 <= i < |u| - p ==> s[i] == u[p + i];
    var run := LeadCount(s, IsUrlChar);
    assert run == |u| - p;
    assert UrlAt(t) == |u|;
    assert t[..|u|] == u;
    assert t[|u|..] == [c] + rest;
    FindUrlsSkip(c, rest);
  }

  /** A character that cannot start a URL is passed over. */
  lemma FindUrlsSkip(c: char, rest: string)
    requires c != 'h' && c != 'H'
    ensures FindUrls([c] + rest) == FindUrls(rest)
  {
    var t := [c] + rest;
    assert t[1..] == rest;
    assert |t| >= 7 ==> LowerStr(t[..7])[0] == Lower(c);
    assert |t| >= 8 ==> LowerStr(t[..8])[0] == Lower(c);
    assert SchemeLen(t) == 0;
  }

  /** `findall` keeps repeated URLs: a URL written twice is reported
      twice. */
  lemma FindUrlsRepeats(u: string)
    requires IsUrlMatch(u)
    ensures FindUrls(u + " " + u) == [u, u]
  {
    FindUrlsStep(u, ' ', u);
    FindUrlsWhole(u);
    assert u + " " + u == u + [' '] + u;
  }

  /** A text that is exactly one URL is found whole. */
  lemma FindUrlsWhole(u: string)
    requires IsUrlMatch(u)
    ensures FindUrls(u) == [u]
  {
    var p := SchemeLen(u);
    assert LeadCount(u[p..], IsUrlChar) == |u| - p;
    assert UrlAt(u) == |u|;
    assert u[..|u|] == u && u[|u|..] == [];
  }

  /** An `@handle` followed by a separator is found, and the scan resumes
      after the separator. */
  lemma FindHandlesStep(h: string, c: char, rest: string)
    requires PlatformParse.IsHandleBody(h) && !PlatformParse.IsHandleChar(c) && c != '@'
    ensures FindHandles(['@'] + h + [c] + rest) == [h] + FindHandles(rest)
  {
    var t := ['@'] + h + [c] + rest;
    HandleAtRun(h, c, rest);
    assert t[1..1 + |h|] == h;
    assert t[1 + |h|..] == [c] + rest;
    FindHandlesSkip(c, rest);
  }

  /** The match at `@` is the whole handle. */
  lemma HandleAtRun(h: string, c: char, rest: string)
    requires PlatformParse.IsHandleBody(h) && !PlatformParse.IsHandleChar(c)
    ensures HandleAt(['@'] + h + [c] + rest) == 1 + |h|
  {
    var t := ['@'] + h + [c] + rest;
    assert t[1..] == h + [c] + rest;
    HandleRunEnds(h, c, rest);
  }

  /** The handle-character run after `@` stops at the separator. */
  lemma HandleRunEnds(h: string, c: char, rest: string)
    requires PlatformParse.IsHandleBody(h) && !PlatformParse.IsHandleChar(c)
    ensures LeadCount(h + [c] + rest, PlatformParse.IsHandleChar) == |h|
  {
    var s := h + [c] + rest;
    assert s[|h|] == c;
    assert forall i :: 0 <= i < |h| ==> s[i] == h[i];
  }

  /** A character other than `@` is passed over. */
  lemma FindHandlesSkip(c: char, rest: string)
    requires c != '@'
    ensures FindHandles([c] + rest) == FindHandles(rest)
  {
    assert ([c] + rest)[1..] == rest;
  }

  /** A run of more than 64 handle characters after `@` yields its first
      64 characters, and the scan resumes inside the run. */
  lemma FindHandlesCapped(h: string, rest: string)
    requires |h| > 64 && forall i :: 0 <= i < |h| ==> PlatformParse.IsHandleChar(h[i])
    ensures FindHandles(['@'] + h + rest) == [h[..64]] + FindHandles(h[64..] + rest)
  {
    var t := ['@'] + h + rest;
    var s := t[1..];
    assert s == h + rest;
    assert forall i :: 0 <= i < |h| ==> s[i] == h[i];
    assert LeadCount(s, PlatformParse.IsHandleChar) >= |h|;
    assert HandleAt(t) == 65;
    assert t[1..65] == h[..64];
    assert t[65..] == h[64..] + rest;
  }

  /** The network location of each URL. */
  function Netlocs(urls: seq<string>): (ns: seq<string>)
    ensures |ns| == |urls|
    ensures forall k :: 0 <= k < |urls| ==> ns[k] == Netloc(urls[k])
  {
    seq(|urls|, k requires 0 <= k < |urls| => Netloc(urls[k]))
  }

  /** `key(n)` is kept as a host: `urlparse` accepted the location `n`
      and the key is not empty. */
  predicate Kept(n: string, key: string -> string) {
    BracketsBalanced(n) && key(n) != []
  }

  /** The keys of the kept network locations, in order. */
  function Hosts(ns: seq<string>, key: string -> string): (ds: seq<string>)
    ensures forall k :: 0 <= k < |ds| ==> ds[k] != []
  {
    if ns == [] then []
    else if Kept(ns[0], key) then [key(ns[0])] + Hosts(ns[1..], key)
    else Hosts(ns[1..], key)
  }

  /** `d` is the key of some kept network location. */
  predicate HostOf(ns: seq<string>, key: string -> string, d: string) {
    exists j :: 0 <= j < |ns| && Kept(ns[j], key) && key(ns[j]) == d
  }

  /** Every host is the key of a kept network location. */
  lemma {:induction false} HostsSound(ns: seq<string>, key: string -> string)
    ensures forall d :: d in Hosts(ns, key) ==> HostOf(ns, key, d)
  {
    if ns != [] {
      HostsSound(ns[1..], key);
      forall d | d in Hosts(ns, key)
        ensures HostOf(ns, key, d)
      {
        if Kept(ns[0], key) && d == key(ns[0]) {
          assert Kept(ns[0], key) && key(ns[0]) == d;
        } else {
          assert d in Hosts(ns[1..], key);
          assert HostOf(ns[1..], key, d);
          var j :| 0 <= j < |ns[1..]| && Kept(ns[1..][j], key) && key(ns[1..][j]) == d;
          assert ns[j + 1] == ns[1..][j];
        }
      }
    }
  }

  /** Every kept network location contributes its key. */
  lemma {:induction false} HostsComplete(ns: seq<string>, key: string -> string)
    ensures forall j :: 0 <= j < |ns| && Kept(ns[j], key) ==> key(ns[j]) in Hosts(ns, key)
  {
    if ns != [] {
      HostsComplete(ns[1..], key);
      forall j | 0 <= j < |ns| && Kept(ns[j], key)
        ensures key(ns[j]) in Hosts(ns, key)
      {
        if j > 0 {
          assert ns[j] == ns[1..][j - 1];
        }
      }
    }
  }

  /** The host loop: the distinct keys in first-seen order. A location
      that `urlparse` rejects is skipped, as is one with an empty key. */
  function Domains(ns: seq<string>, key: string -> string): (ds: seq<string>)
    ensures NoDup(ds)
    ensures forall d :: d in ds <==> HostOf(ns, key, d)
    ensures FirstSeenOrder(ds, Hosts(ns, key))
    ensures forall k :: 0 <= k < |ds| ==> ds[k] != []
  {
    var hosts := Hosts(ns, key);
    HostsSound(ns, key);
    HostsComplete(ns, key);
    var ds := Dedup(hosts);
    assert forall d :: d in ds <==> d in hosts by {
      forall d | d in hosts ensures d in ds {
        var k :| 0 <= k < |hosts| && hosts[k] == d;
      }
    }
    ds
  }

  /** Hosts keyed by a stripping key have no surrounding whitespace. */
  lemma DomainsStripped(ns: seq<string>, key: string -> string)
    requires forall n :: key(n) == [] || (!IsSpace(key(n)[0]) && !IsSpace(key(n)[|key(n)| - 1]))
    ensures forall k :: 0 <= k < |Domains(ns, key)| ==>
      !IsSpace(Domains(ns, key)[k][0]) && !IsSpace(Domains(ns, key)[k][|Domains(ns, key)[k]| - 1])
  {
    var ds := Domains(ns, key);
    forall k | 0 <= k < |ds| ensures !IsSpace(ds[k][0]) && !IsSpace(ds[k][|ds[k]| - 1]) {
      assert HostOf(ns, key, ds[k]);
    }
  }

  /** Hosts keyed by a lower-casing key have no upper-case letter. */
  lemma DomainsLower(ns: seq<string>, key: string -> string)
    requires forall n :: NoUpper(key(n))
    ensures forall k :: 0 <= k < |Domains(ns, key)| ==> NoUpper(Domains(ns, key)[k])
  {
    var ds := Domains(ns, key);
    forall k | 0 <= k < |ds| ensures NoUpper(ds[k]) {
      assert HostOf(ns, key, ds[k]);
    }
  }

  function LowerAll(hs: seq<string>): (r: seq<string>)
    ensures |r| == |hs|
    ensures forall k :: 0 <= k < |hs| ==> r[k] == LowerStr(hs[k])
  {
    seq(|hs|, k requires 0 <= k < |hs| => LowerStr(hs[k]))
  }

  /** `h` is the lower-cased form of one of the handles found. */
  predicate HandleOf(found: seq<string>, h: string) {
    exists k :: 0 <= k < |found| && LowerStr(found[k]) == h
  }

  /** The handle loop: the distinct lower-cased handles in first-seen
      order. */
  function DistinctHandles(found: seq<string>): (hs: seq<string>)
    requires forall k :: 0 <= k < |found| ==> PlatformParse.IsHandleBody(found[k])
    ensures NoDup(hs)
    ensures forall h :: h in hs <==> HandleOf(found, h)
    ensures FirstSeenOrder(hs, LowerAll(found))
    ensures forall k :: 0 <= k < |hs| ==> PlatformParse.IsHandleBody(hs[k]) && NoUpper(hs[k])
  {
    var lowered := LowerAll(found);
    forall k | 0 <= k < |lowered|
      ensures PlatformParse.IsHandleBody(lowered[k]) && NoUpper(lowered[k])
    {
      LowerHandle(found[k]);
    }
    var hs := Dedup(lowered);
    assert forall h :: h in hs <==> HandleOf(found, h) by {
      forall h | HandleOf(found, h) ensures h in hs {
        var k :| 0 <= k < |found| && LowerStr(found[k]) == h;
        assert lowered[k] == h;
      }
      forall h | h in hs ensures HandleOf(found, h) {
        var k :| 0 <= k < |lowered| && lowered[k] == h;
      }
    }
    hs
  }

  datatype LinkOuts = LinkOuts(urls: seq<string>, domains: seq<string>, handles: seq<string>)

  /** `extract_linkouts(text)`. */
  function ExtractLinkouts(text: Option<string>): (r: LinkOuts)
    ensures text.None? || text == Some("") ==> r == LinkOuts([], [], [])
    ensures r.urls == FindUrls(text.GetOr(""))
    ensures NoDup(r.domains) && NoDup(r.handles)
    ensures forall d :: d in r.domains <==> HostOf(Netlocs(r.urls), LowerStr, d)
    ensures forall h :: h in r.handles <==> HandleOf(FindHandles(text.GetOr("")), h)
    ensures FirstSeenOrder(r.domains, Hosts(Netlocs(r.urls), LowerStr))
    ensures FirstSeenOrder(r.handles, LowerAll(FindHandles(text.GetOr(""))))
    ensures forall k :: 0 <= k < |r.domains| ==> r.domains[k] != [] && NoUpper(r.domains[k])
    ensures forall k :: 0 <= k < |r.handles| ==>
      PlatformParse.IsHandleBody(r.handles[k]) && NoUpper(r.handles[k])
  {
    var t := text.GetOr("");
    var urls := FindUrls(t);
    DomainsLower(Netlocs(urls), LowerStr);
    LinkOuts(urls, Domains(Netlocs(urls), LowerStr), DistinctHandles(FindHandles(t)))
  }

  /** Lower-casing keeps a handle a handle. */
  lemma LowerHandle(h: string)
    requires PlatformParse.IsHandleBody(h)
    ensures PlatformParse.IsHandleBody(LowerStr(h)) && NoUpper(LowerStr(h))
  {
  }
}

=== FILE: name_clean.dfy ===
/** Display-name cleaning for platform-templated page titles
    (pipeline/name_clean.py): keep the text before the first template
    marker, drop one trailing platform label, and normalise spacing. */
module NameClean {
  import opened Wrappers
  import opened Text

  /** `_SPLIT_MARKERS`, in the order they are tried: bar, bullet, hyphen,
      em dash, en dash, middle dot, colon, and the two opening brackets. */
  const SplitMarkers: seq<char> :=
    ['|', '\U{2022}', '-', '\U{2014}', '\U{2013}', '\U{b7}', ':', '(', '[']

  predicate NoMarker(s: string) {
    forall i :: 0 <= i < |s| ==> s[i] !in SplitMarkers
  }

  /** `_PLATFORM_TOKENS.get(platform.lower(), [])`: only `twitter` lists two
      labels, and a platform key outside the table (`x` included) lists
      none. */
  function PlatformTokens(platform: string): (r: seq<string>)
    ensures |r| <= 2
    ensures forall k :: 0 <= k < |r| ==> r[k] != []
    ensures LowerStr(platform) == "twitter" <==> r == ["twitter", "x"]
  {
    var key := LowerStr(platform);
    if key == "facebook" then ["facebook"]
    else if key == "instagram" then ["instagram"]
    else if key == "twitter" then ["twitter", "x"]
    else if key == "github" then ["github"]
    else if key == "linkedin" then ["linkedin"]
    else []
  }

  /** The marker loop: for each marker in turn, a string containing it is
      cut to the stripped text before its first occurrence. */
  function SplitOnMarkers(s: string, markers: seq<char>): (r: string)
    ensures |r| <= |s|
    ensures forall i :: 0 <= i < |r| ==> r[i] in s
    ensures forall k, i :: 0 <= k < |markers| && 0 <= i < |r| ==> r[i] != markers[k]
    decreases |markers|
  {
    if markers == [] then s
    else
      var m := markers[0];
      var s' := if m in s then Strip(Before(s, m)) else s;
      StripChars(Before(s, m));
      assert m !in s';
      SplitOnMarkers(s', markers[1..])
  }

  /** The marker loop only cuts: its result is a contiguous piece of its
      input, never a reordering or a repetition of its characters. */
  lemma {:induction false} SplitOnMarkersSlice(s: string, markers: seq<char>)
    ensures IsSlice(SplitOnMarkers(s, markers), s)
    decreases |markers|
  {
    if markers == [] {
      assert s == s[0..|s|];
    } else {
      var m := markers[0];
      var s' := if m in s then Strip(Before(s, m)) else s;
      CutIsSlice(s, m);
      SplitOnMarkersSlice(s', markers[1..]);
      SliceOfSlice(SplitOnMarkers(s', markers[1..]), s', s);
    }
  }

  /** One marker step keeps a contiguous piece of the text: the stripped
      text before the marker is a slice of the whole. */
  lemma CutIsSlice(s: string, m: char)
    ensures IsSlice(if m in s then Strip(Before(s, m)) else s, s)
  {
    if m in s {
      var b := Before(s, m);
      var a, c := StripSlice(b);
      assert Strip(b) == s[a..c];
    } else {
      assert s == s[0..|s|];
    }
  }

  /** `r` is a contiguous piece of `s`. */
  predicate IsSlice(r: string, s: string) {
    exists i, j :: 0 <= i <= j <= |s| && r == s[i..j]
  }

  /** A slice of a slice is a slice. */
  lemma SliceOfSlice(r: string, t: string, s: string)
    requires IsSlice(r, t) && IsSlice(t, s)
    ensures IsSlice(r, s)
  {
    var i, j :| 0 <= i <= j <= |t| && r == t[i..j];
    var k, l :| 0 <= k <= l <= |s| && t == s[k..l];
    forall p | 0 <= p < |r| ensures r[p] == s[k + i + p] {
      assert r[p] == t[i + p];
    }
    assert r == s[k + i..k + j];
  }

  /** Python's `s[:-k]` for `k >= 1`: empty when `k` exceeds the length. */
  function DropLast(s: string, k: nat): (r: string)
    requires k >= 1
    ensures |r| < |s| || r == []
    ensures r == s[..|r|]
  {
    if k <= |s| then s[..|s| - k] else []
  }

  /** The token loop: the first token `t` for which the lower-cased text
      ends with `" " + t` is cut off, and the loop stops there. */
  function DropFirstToken(s: string, lower: string, tokens: seq<string>): (r: string)
    ensures |r| <= |s|
    ensures forall i :: 0 <= i < |r| ==> r[i] in s
  {
    if tokens == [] then s
    else if EndsWith(lower, " " + tokens[0]) then
      StripChars(DropLast(s, |tokens[0]| + 1));
      Strip(DropLast(s, |tokens[0]| + 1))
    else DropFirstToken(s, lower, tokens[1..])
  }

  /** `clean_display_name(raw, platform=platform)`. */
  function CleanDisplayName(raw: Option<string>, platform: string): (r: string)
    ensures raw.None? || raw == Some("") ==> r == ""
    ensures raw.Some? ==> |r| <= |raw.value|
    ensures NoMarker(r)
    ensures SingleSpaced(r)
    ensures r == [] || (!IsSpace(r[0]) && !IsSpace(r[|r| - 1]))
  {
    if raw.None? || raw.value == [] then ""
    else
      var s := CollapseSpaces(Strip(raw.value));
      var s1 := SplitOnMarkers(s, SplitMarkers);
      var s2 := DropFirstToken(s1, Strip(LowerStr(s1)), PlatformTokens(platform));
      CleanedShape(s2, CollapseSpaces(s2));
      Strip(CollapseSpaces(s2))
  }

  lemma CleanedShape(s2: string, c: string)
    requires NoMarker(s2) && c == CollapseSpaces(s2)
    ensures NoMarker(Strip(c)) && SingleSpaced(Strip(c))
  {
    StripChars(c);
    StripSingleSpaced(c);
    forall i | 0 <= i < |c| ensures c[i] !in SplitMarkers {
      if !IsSpace(c[i]) {
        assert c[i] in c;
      }
    }
  }

  // ---------------------------------------------------------------------
  // Properties.

  /** A platform without labels removes nothing: for `x`, or any key
      outside the table, the result is the one an empty platform gives. */
  lemma NoTokensNoRemoval(raw: Option<string>, platform: string)
    requires PlatformTokens(platform) == []
    ensures CleanDisplayName(raw, platform) == CleanDisplayName(raw, "")
  {
  }

  /** At most one label is removed, and only one listed for the
      platform: the token step either keeps the text or cuts `" " + t`
      for the first listed `t` the lower-cased text ends with. */
  lemma {:induction false} TokenStepRemovesOneListedLabel(s: string, lower: string, tokens: seq<string>)
    ensures var r := DropFirstToken(s, lower, tokens);
            || (r == s && forall k :: 0 <= k < |tokens| ==> !EndsWith(lower, " " + tokens[k]))
            || exists k :: 0 <= k < |tokens| && EndsWith(lower, " " + tokens[k])
                 && (forall j :: 0 <= j < k ==> !EndsWith(lower, " " + tokens[j]))
                 && r == Strip(DropLast(s, |tokens[k]| + 1))
  {
    if tokens != [] && !EndsWith(lower, " " + tokens[0]) {
      TokenStepRemovesOneListedLabel(s, lower, tokens[1..]);
      var r := DropFirstToken(s, lower, tokens);
      if r != s || exists k :: 0 <= k < |tokens| && EndsWith(lower, " " + tokens[k]) {
        var k :| 0 <= k < |tokens[1..]| && EndsWith(lower, " " + tokens[1..][k])
                 && (forall j :: 0 <= j < k ==> !EndsWith(lower, " " + tokens[1..][j]))
                 && r == Strip(DropLast(s, |tokens[1..][k]| + 1));
        assert forall j :: 0 <= j < k + 1 ==> !EndsWith(lower, " " + tokens[j]);
      }
    }
  }

  /** A string without markers passes the marker loop unchanged. */
  lemma {:induction false} SplitOnMarkersNoMarker(s: string, markers: seq<char>)
    requires forall k :: 0 <= k < |markers| ==> markers[k] !in s
    ensures SplitOnMarkers(s, markers) == s
  {
    if markers != [] {
      SplitOnMarkersNoMarker(s, markers[1..]);
    }
  }

  /** Markers absent from the text are skipped by the marker loop. */
  lemma {:induction false} SplitOnMarkersSkip(s: string, markers: seq<char>, k: nat)
    requires k <= |markers|
    requires forall j :: 0 <= j < k ==> markers[j] !in s
    ensures SplitOnMarkers(s, markers) == SplitOnMarkers(s, markers[k..])
    decreases k
  {
    if k > 0 {
      assert markers[1..][k - 1..] == markers[k..];
      SplitOnMarkersSkip(s, markers[1..], k - 1);
    }
  }

  /** No listed label matches, so the token step keeps the text. */
  lemma {:induction false} DropFirstTokenNone(s: string, lower: string, tokens: seq<string>)
    requires forall k :: 0 <= k < |tokens| ==> !EndsWith(lower, " " + tokens[k])
    ensures DropFirstToken(s, lower, tokens) == s
  {
    if tokens != [] {
      DropFirstTokenNone(s, lower, tokens[1..]);
    }
  }

  /** A tidy name: non-empty, no surrounding whitespace, single-spaced. */
  predicate Tidy(n: string) {
    n != [] && !IsSpace(n[0]) && !IsSpace(n[|n| - 1]) && SingleSpaced(n)
  }

  lemma StripTrailingSpace(n: string)
    requires n != [] && !IsSpace(n[0]) && !IsSpace(n[|n| - 1])
    ensures Strip(n + " ") == n
  {
    var s := n + " ";
    assert LeadCount(s, IsSpace) == 0;
    assert DropWhile(s, IsSpace) == s;
    assert TrailCount(s[..|s| - 1], IsSpace) == 0;
    assert s[..|s| - 1] == n;
  }

  lemma TitleSingleSpaced(n: string, m: char, x: string)
    requires Tidy(n) && Tidy(x) && !IsSpace(m)
    ensures Tidy(n + [' ', m, ' '] + x)
  {
    var s := n + [' ', m, ' '] + x;
    forall i | 0 <= i < |s| - 1 ensures !(IsSpace(s[i]) && IsSpace(s[i + 1])) {
      if i + 1 < |n| {
        assert s[i] == n[i] && s[i + 1] == n[i + 1];
      } else if i >= |n| + 3 {
        assert s[i] == x[i - |n| - 3] && s[i + 1] == x[i + 1 - |n| - 3];
      }
    }
    forall i | 0 <= i < |s| && IsSpace(s[i]) ensures s[i] == ' ' {
      if i < |n| {
        assert s[i] == n[i];
      } else if i >= |n| + 3 {
        assert s[i] == x[i - |n| - 3];
      }
    }
  }

  lemma MarkersDistinct()
    ensures forall j, k :: 0 <= j < k < |SplitMarkers| ==> SplitMarkers[j] != SplitMarkers[k]
  {
  }

  lemma MarkersNotSpace()
    ensures forall j :: 0 <= j < |SplitMarkers| ==> !IsSpace(SplitMarkers[j])
  {
  }

  lemma NotInTitle(n: string, m: char, x: string, c: char)
    requires c !in n && c != m && c != ' ' && c !in x
    ensures c !in n + [' ', m, ' '] + x
  {
  }

  /** The three stages of the cleaning, one after another. */
  lemma CleanStages(raw: string, platform: string, s1: string, s2: string)
    requires raw != []
    requires s1 == SplitOnMarkers(CollapseSpaces(Strip(raw)), SplitMarkers)
    requires s2 == DropFirstToken(s1, Strip(LowerStr(s1)), PlatformTokens(platform))
    ensures CleanDisplayName(Some(raw), platform) == Strip(CollapseSpaces(s2))
  {
  }

  /** The marker loop cuts `name <marker> label` to the name, for any
      marker list in which the marker is the first one present. */
  lemma MarkerStageFor(n: string, ms: seq<char>, k: nat, x: string)
    requires k < |ms|
    requires Strip(n + " ") == n
    requires forall i :: 0 <= i < |n| ==> n[i] !in ms
    requires forall j :: 0 <= j < |ms| ==> ms[j] != ' '
    requires forall j :: 0 <= j < k ==> ms[j] != ms[k] && ms[j] !in x
    ensures SplitOnMarkers(n + [' ', ms[k], ' '] + x, ms) == n
  {
    var m := ms[k];
    var s := n + [' ', m, ' '] + x;
    forall j | 0 <= j < k ensures ms[j] !in s {
      assert ms[j] in ms;
      NotInTitle(n, m, x, ms[j]);
    }
    SplitOnMarkersSkip(s, ms, k);
    forall i | 0 <= i < |n| + 1 ensures s[i] != m {
      if i < |n| {
        assert s[i] == n[i] && m in ms;
      }
    }
    IndexOfAt(s, m, |n| + 1);
    assert Before(s, m) == n + " ";
    var tail := ms[k + 1..];
    forall j | 0 <= j < |tail| ensures tail[j] !in n {
      assert tail[j] in ms;
    }
    SplitOnMarkersNoMarker(n, ms[k + 1..]);
    var rest := ms[k..];
    assert rest[0] == m && rest[1..] == ms[k + 1..];
    assert m in s;
    assert SplitOnMarkers(s, rest) == SplitOnMarkers(Strip(Before(s, m)), rest[1..]);
  }

  lemma MarkerStage(n: string, k: nat, x: string)
    requires k < |SplitMarkers|
    requires Tidy(n) && NoMarker(n) && Tidy(x)
    requires forall j :: 0 <= j < k ==> SplitMarkers[j] !in x
    ensures SplitOnMarkers(n + [' ', SplitMarkers[k], ' '] + x, SplitMarkers) == n
  {
    MarkersDistinct();
    MarkersNotSpace();
    assert forall j :: 0 <= j < |SplitMarkers| ==> SplitMarkers[j] != ' ';
    StripTrailingSpace(n);
    MarkerStageFor(n, SplitMarkers, k, x);
  }

  /** The token step keeps a tidy name that ends in none of the labels. */
  lemma TokenStage(n: string, platform: string)
    requires Tidy(n)
    requires forall j :: 0 <= j < |PlatformTokens(platform)| ==>
               !EndsWith(LowerStr(n), " " + PlatformTokens(platform)[j])
    ensures DropFirstToken(n, Strip(LowerStr(n)), PlatformTokens(platform)) == n
  {
    StripUnchanged(LowerStr(n));
    DropFirstTokenNone(n, LowerStr(n), PlatformTokens(platform));
  }

  /** A templated title `name <marker> label` cleans to the name, for any
      marker and label, as long as no earlier marker occurs in the label
      and the name does not itself end in one of the platform's labels. */
  lemma TemplateTitle(n: string, k: nat, x: string, platform: string)
    requires k < |SplitMarkers|
    requires Tidy(n) && NoMarker(n) && Tidy(x)
    requires forall j :: 0 <= j < k ==> SplitMarkers[j] !in x
    requires forall j :: 0 <= j < |PlatformTokens(platform)| ==>
               !EndsWith(LowerStr(n), " " + PlatformTokens(platform)[j])
    ensures CleanDisplayName(Some(n + [' ', SplitMarkers[k], ' '] + x), platform) == n
  {
    var s := n + [' ', SplitMarkers[k], ' '] + x;
    TitleSingleSpaced(n, SplitMarkers[k], x);
    StripUnchanged(s);
    CollapseSingleSpaced(s);
    assert CollapseSpaces(Strip(s)) == s;
    MarkerStage(n, k, x);
    TokenStage(n, platform);
    CleanStages(s, platform, n, n);
    CollapseSingleSpaced(n);
    StripUnchanged(n);
  }

  lemma TidyName(n: string)
    requires n != [] && n[0] != ' ' && n[|n| - 1] != ' '
    requires forall i :: 0 <= i < |n| ==> IsAsciiLetterOrSpace(n[i])
    requires forall i :: 0 <= i < |n| - 1 ==> !(n[i] == ' ' && n[i + 1] == ' ')
    ensures Tidy(n) && NoMarker(n)
  {
    forall i | 0 <= i < |n| ensures n[i] !in SplitMarkers && (IsSpace(n[i]) <==> n[i] == ' ') {
      assert IsAsciiLetterOrSpace(n[i]);
    }
  }

  predicate IsAsciiLetterOrSpace(c: char) {
    ('a' <= c <= 'z') || ('A' <= c <= 'Z') || c == ' '
  }

  lemma FacebookTokens()
    ensures PlatformTokens("facebook") == ["facebook"]
  {
    LowerStrNoUpper("facebook");
  }

  lemma InstagramTokens()
    ensures PlatformTokens("instagram") == ["instagram"]
  {
    LowerStrNoUpper("instagram");
  }

  lemma FacebookTitleText(raw: string)
    requires raw == "John Doe | Facebook"
    ensures "John Doe" + [' ', '|', ' '] + "Facebook" == raw
  {
  }

  lemma BulletTitleText(raw: string)
    requires raw == "Jane \U{2022} Instagram"
    ensures "Jane" + [' ', '\U{2022}', ' '] + "Instagram" == raw
  {
  }

  /** `clean_display_name("John Doe | Facebook", platform="facebook")` is
      `"John Doe"`. */
  lemma FacebookTitleExample(raw: string)
    requires raw == "John Doe | Facebook"
    ensures CleanDisplayName(Some(raw), "facebook") == "John Doe"
  {
    var n, x := "John Doe", "Facebook";
    TidyName(n);
    TidyName(x);
    FacebookTokens();
    assert |LowerStr(n)| < |" facebook"|;
    TemplateTitle(n, 0, x, "facebook");
    FacebookTitleText(raw);
  }

  /** A bullet-separated title, `Jane <bullet> Instagram`, cleans to
      `"Jane"`. */
  lemma BulletTitleExample(raw: string)
    requires raw == "Jane \U{2022} Instagram"
    ensures CleanDisplayName(Some(raw), "instagram") == "Jane"
  {
    var n, x := "Jane", "Instagram";
    TidyName(n);
    TidyName(x);
    assert '|' !in x;
    InstagramTokens();
    assert |LowerStr(n)| < |" instagram"|;
    TemplateTitle(n, 1, x, "instagram");
    BulletTitleText(raw);
  }

  lemma LabelSpacing(n: string, x: string)
    requires Tidy(n) && x != [] && NoSpace(x)
    ensures Tidy(n + " " + x)
  {
    var s := n + " " + x;
    forall i | 0 <= i < |s| - 1 ensures !(IsSpace(s[i]) && IsSpace(s[i + 1])) {
      if i + 1 < |n| {
        assert s[i] == n[i] && s[i + 1] == n[i + 1];
      } else if i > |n| {
        assert s[i + 1] == x[i - |n|];
      } else if i == |n| {
        assert s[i + 1] == x[0];
      }
    }
    forall i | |n| < i < |s| ensures !IsSpace(s[i]) {
      assert s[i] == x[i - |n| - 1];
    }
    forall i | 0 <= i < |n| ensures s[i] == n[i] {
    }
  }

  lemma DropFirstTokenHit(s: string, lower: string, tokens: seq<string>)
    requires tokens != [] && EndsWith(lower, " " + tokens[0])
    ensures DropFirstToken(s, lower, tokens) == Strip(DropLast(s, |tokens[0]| + 1))
  {
  }

  /** The token step cuts a trailing label equal (ignoring case) to the
      platform's first label. */
  lemma LabelStage(n: string, x: string, tokens: seq<string>)
    requires Tidy(n + " " + x) && Tidy(n)
    requires |tokens| > 0 && LowerStr(x) == tokens[0]
    ensures DropFirstToken(n + " " + x, Strip(LowerStr(n + " " + x)), tokens) == n
  {
    var s := n + " " + x;
    StripUnchanged(LowerStr(s));
    LowerEndsWithLabel(n, x, tokens[0]);
    DropFirstTokenHit(s, LowerStr(s), tokens);
    DropLastLabel(n, x);
    StripUnchanged(n);
  }

  lemma LowerEndsWithLabel(n: string, x: string, t: string)
    requires LowerStr(x) == t
    ensures |t| == |x| && EndsWith(LowerStr(n + " " + x), " " + t)
  {
    var lower := LowerStr(n + " " + x);
    LowerStrAppend(n + " ", x);
    assert lower[|lower| - |" " + t|..] == " " + t;
  }

  lemma DropLastLabel(n: string, x: string)
    ensures DropLast(n + " " + x, |x| + 1) == n
  {
    assert (n + " " + x)[..|n|] == n;
  }

  lemma NoMarkerJoin(n: string, x: string)
    requires NoMarker(n) && NoMarker(x)
    ensures NoMarker(n + " " + x)
  {
    MarkersNotSpace();
    assert ' ' !in SplitMarkers;
    var s := n + " " + x;
    forall i | 0 <= i < |s| ensures s[i] !in SplitMarkers {
      if i < |n| {
        assert s[i] == n[i];
      } else if i > |n| {
        assert s[i] == x[i - |n| - 1];
      }
    }
  }

  lemma NoMarkerNotIn(s: string)
    requires NoMarker(s)
    ensures forall k :: 0 <= k < |SplitMarkers| ==> SplitMarkers[k] !in s
  {
    forall k | 0 <= k < |SplitMarkers| ensures SplitMarkers[k] !in s {
      assert SplitMarkers[k] in SplitMarkers;
    }
  }

  /** A title `name label`, with the label one of the platform's own
      (in any case), loses the label. */
  lemma TrailingLabel(n: string, x: string, platform: string)
    requires Tidy(n) && NoMarker(n) && NoMarker(x) && x != [] && NoSpace(x)
    requires |PlatformTokens(platform)| > 0 && LowerStr(x) == PlatformTokens(platform)[0]
    ensures CleanDisplayName(Some(n + " " + x), platform) == n
  {
    var s := n + " " + x;
    LabelSpacing(n, x);
    StripUnchanged(s);
    CollapseSingleSpaced(s);
    NoMarkerJoin(n, x);
    NoMarkerNotIn(s);
    SplitOnMarkersNoMarker(s, SplitMarkers);
    LabelStage(n, x, PlatformTokens(platform));
    CleanStages(s, platform, s, n);
    CollapseSingleSpaced(n);
    StripUnchanged(n);
  }

  lemma MisencodedTitleText(raw: string)
    requires raw == "Jane \U{e2}\U{20ac}\U{a2} Instagram"
    ensures raw == "Jane \U{e2}\U{20ac}\U{a2}" + " " + "Instagram"
  {
  }

  lemma MisencodedName()
    ensures Tidy("Jane \U{e2}\U{20ac}\U{a2}") && NoMarker("Jane \U{e2}\U{20ac}\U{a2}")
  {
  }

  /** The title `Jane` + U+00E2 U+20AC U+00A2 + ` Instagram` (a bullet's
      UTF-8 bytes read as cp1252) holds no marker, so only the label is
      removed: the result keeps the three stray characters. */
  lemma MisencodedBulletExample(raw: string)
    requires raw == "Jane \U{e2}\U{20ac}\U{a2} Instagram"
    ensures CleanDisplayName(Some(raw), "instagram") == "Jane \U{e2}\U{20ac}\U{a2}"
  {
    MisencodedTitleText(raw);
    MisencodedName();
    TidyName("Instagram");
    InstagramTokens();
    TrailingLabel("Jane \U{e2}\U{20ac}\U{a2}", "Instagram", "instagram");
  }
}

=== FILE: next_steps.dfy ===
/** The remediation ranking `generate_next_steps`: the default steps of the
    action, then the template steps of each reason code, keeping the first
    step of every step code, sorted by (priority, code) and cut to
    `max_steps`. The `seen` set of the source is the set of codes already
    collected, so it is not kept separately. */
module NextSteps {
  import opened Wrappers
  import opened Text
  import opened Evidence

  /** A step template; a lower priority ranks first. */
  datatype NextStep = NextStep(code: string, title: string, detail: string, priority: nat)

  /** An output entry `{"code", "title", "detail"}`. */
  datatype StepOut = StepOut(code: string, title: string, detail: string)

  // ---------------------------------------------------------------------
  // The tables.

  /** The step templates of the two tables. */
  datatype StepCode =
    | RequestInBandConfirmation | TemporaryBioCrosslink | AddBioLinkout | AskForSpecificBioSignal
    | RequestSecondaryIdentity | RequestAvatarOrSecondIdentity | RequestScreenshotOrPublicView
    | AddSecondIdentity | RequireStrongerProofBeforeAccept | TemporaryMutualCrosslink
    | ResolveNameDiscrepancy | ResolveAvatarDiscrepancy | StrengthenSingleIdentityProof
    | CrosslinkObserved | StrongerProofRequired | ProceedWithCaution

  function StepName(t: StepCode): string {
    match t
    case RequestInBandConfirmation => "request_in_band_confirmation"
    case TemporaryBioCrosslink => "temporary_bio_crosslink"
    case AddBioLinkout => "add_bio_linkout"
    case AskForSpecificBioSignal => "ask_for_specific_bio_signal"
    case RequestSecondaryIdentity => "request_secondary_identity"
    case RequestAvatarOrSecondIdentity => "request_avatar_or_second_identity"
    case RequestScreenshotOrPublicView => "request_screenshot_or_public_view"
    case AddSecondIdentity => "add_second_identity"
    case RequireStrongerProofBeforeAccept => "require_stronger_proof_before_accept"
    case TemporaryMutualCrosslink => "temporary_mutual_crosslink"
    case ResolveNameDiscrepancy => "resolve_name_discrepancy"
    case ResolveAvatarDiscrepancy => "resolve_avatar_discrepancy"
    case StrengthenSingleIdentityProof => "strengthen_single_identity_proof"
    case CrosslinkObserved => "crosslink_observed"
    case StrongerProofRequired => "stronger_proof_required"
    case ProceedWithCaution => "proceed_with_caution"
  }

  function StepTitle(t: StepCode): string {
    match t
    case RequestInBandConfirmation => "Request in-band confirmation"
    case TemporaryBioCrosslink => "Request a temporary bio crosslink"
    case AddBioLinkout => "Ask them to add a bio linkout"
    case AskForSpecificBioSignal => "Request a specific, non-template bio signal"
    case RequestSecondaryIdentity => "Request a second identity for cross-checking"
    case RequestAvatarOrSecondIdentity => "Request an additional corroboration signal"
    case RequestScreenshotOrPublicView => "Request a public-view screenshot"
    case AddSecondIdentity => "Request a second identity"
    case RequireStrongerProofBeforeAccept => "Require stronger proof before accepting"
    case TemporaryMutualCrosslink => "Request mutual crosslinking"
    case ResolveNameDiscrepancy => "Resolve the name discrepancy"
    case ResolveAvatarDiscrepancy => "Resolve the avatar discrepancy"
    case StrengthenSingleIdentityProof => "Strengthen proof for this identity"
    case CrosslinkObserved => "Crosslink evidence observed"
    case StrongerProofRequired => "Stronger proof required"
    case ProceedWithCaution => "Proceed with caution"
  }

  function StepDetail(t: StepCode): string {
    match t
    case RequestInBandConfirmation =>
      "Ask the person to send a one-time phrase from that Facebook account (DM/comment) to confirm control."
    case TemporaryBioCrosslink =>
      "Ask them to add a temporary crosslink in the bio (e.g., a URL/@handle you specify) and re-run verification."
    case AddBioLinkout =>
      "Ask them to add a URL or @handle in the bio that links to another identity or a stable website, then re-run verification."
    case AskForSpecificBioSignal =>
      "Ask them to add a short, unique phrase or reference (time-bounded) to the bio, then re-run verification."
    case RequestSecondaryIdentity =>
      "Ask for a second account (e.g., Instagram/GitHub/website) to improve public coherence checks."
    case RequestAvatarOrSecondIdentity =>
      "Because avatar evidence is missing, request a second identity or a temporary crosslink to strengthen verification."
    case RequestScreenshotOrPublicView =>
      "Ask for a screenshot of the profile page (public-view) or a stable public link to improve evidence coverage."
    case AddSecondIdentity =>
      "Ask them to provide a second identity so SIVA can compute coherence across identities."
    case RequireStrongerProofBeforeAccept =>
      "Do not rely on identifiers alone; require crosslinks or in-band confirmation before proceeding."
    case TemporaryMutualCrosslink =>
      "Ask them to reference Identity A from Identity B (bio link or @mention) and re-run verification."
    case ResolveNameDiscrepancy =>
      "Confusable identifiers but mismatching names: request a temporary crosslink or in-band confirmation."
    case ResolveAvatarDiscrepancy =>
      "Confusable identifiers but mismatching avatars: request a temporary crosslink or in-band confirmation."
    case StrengthenSingleIdentityProof =>
      "Because public signals are weak/generic, request an in-band confirmation or a temporary bio crosslink."
    case CrosslinkObserved =>
      "SIVA observed crosslinking evidence. If this is high impact, still consider a lightweight in-band confirmation."
    case StrongerProofRequired =>
      "Ask for crosslink evidence or in-band confirmation before proceeding."
    case ProceedWithCaution =>
      "If this is a high-impact decision, request a temporary crosslink or second identity as a lightweight check."
  }

  function StepPriority(t: StepCode): nat {
    match t
    case RequestInBandConfirmation => 1
    case TemporaryBioCrosslink => 2
    case AddBioLinkout => 1
    case AskForSpecificBioSignal => 2
    case RequestSecondaryIdentity => 2
    case RequestAvatarOrSecondIdentity => 5
    case RequestScreenshotOrPublicView => 1
    case AddSecondIdentity => 2
    case RequireStrongerProofBeforeAccept => 1
    case TemporaryMutualCrosslink => 2
    case ResolveNameDiscrepancy => 2
    case ResolveAvatarDiscrepancy => 1
    case StrengthenSingleIdentityProof => 1
    case CrosslinkObserved => 20
    case StrongerProofRequired => 0
    case ProceedWithCaution => 10
  }

  /** The `NextStep` record of a template. */
  function Step(t: StepCode): NextStep {
    NextStep(StepName(t), StepTitle(t), StepDetail(t), StepPriority(t))
  }

  /** The templates of each reason code, in table order. */
  function TemplateCodes(c: ReasonCode): (ts: seq<StepCode>)
    ensures 1 <= |ts| <= 2
    ensures forall k :: 0 <= k < |ts| ==> ts[k] != StrongerProofRequired && ts[k] != ProceedWithCaution
  {
    match c
    case FacebookNumericIdProfile => [RequestInBandConfirmation, TemporaryBioCrosslink]
    case NoBioLinkouts => [AddBioLinkout]
    case GenericPlatformBio => [AskForSpecificBioSignal]
    case RepeatedNameTokens => [RequestSecondaryIdentity]
    case MissingAvatarUrl => [RequestAvatarOrSecondIdentity]
    case LowPublicCoverage => [RequestScreenshotOrPublicView, AddSecondIdentity]
    case ConfusableIdentifiers => [RequireStrongerProofBeforeAccept, TemporaryMutualCrosslink]
    case NameMismatchUnderConfusable => [ResolveNameDiscrepancy]
    case AvatarMismatchUnderConfusable => [ResolveAvatarDiscrepancy]
    case LowTrustSingleIdentitySignals => [StrengthenSingleIdentityProof]
    case CrosslinkSupport => [CrosslinkObserved]
  }

  /** `_REASON_TO_STEPS[c]`: every template ranks after the
      REQUEST_STRONGER_PROOF default. */
  function Templates(c: ReasonCode): (r: seq<NextStep>)
    ensures forall k :: 0 <= k < |r| ==> r[k].priority >= 1
  {
    var ts := TemplateCodes(c);
    seq(|ts|, k requires 0 <= k < |ts| => Step(ts[k]))
  }

  /** The reason code a string names, if any. */
  function LookupCode(rc: string): Option<ReasonCode> {
    if rc == "facebook_numeric_id_profile" then Some(FacebookNumericIdProfile)
    else if rc == "no_bio_linkouts" then Some(NoBioLinkouts)
    else if rc == "generic_platform_bio" then Some(GenericPlatformBio)
    else if rc == "repeated_name_tokens" then Some(RepeatedNameTokens)
    else if rc == "missing_avatar_url" then Some(MissingAvatarUrl)
    else if rc == "low_public_coverage" then Some(LowPublicCoverage)
    else if rc == "confusable_identifiers" then Some(ConfusableIdentifiers)
    else if rc == "name_mismatch_under_confusable" then Some(NameMismatchUnderConfusable)
    else if rc == "avatar_mismatch_under_confusable" then Some(AvatarMismatchUnderConfusable)
    else if rc == "low_trust_single_identity_signals" then Some(LowTrustSingleIdentitySignals)
    else if rc == "crosslink_support" then Some(CrosslinkSupport)
    else None
  }

  /** `_REASON_TO_STEPS.get(rc, [])`. */
  function StepsFor(rc: string): (r: seq<NextStep>)
    ensures |r| <= 2
    ensures forall k :: 0 <= k < |r| ==> r[k].priority >= 1
  {
    match LookupCode(rc)
    case None => []
    case Some(c) => Templates(c)
  }

  /** `_ACTION_DEFAULTS.get(action, [])`. */
  function ActionDefaults(action: string): (r: seq<NextStep>)
    ensures |r| <= 1
  {
    if action == "REQUEST_STRONGER_PROOF" then [Step(StrongerProofRequired)]
    else if action == "WARN" then [Step(ProceedWithCaution)]
    else []
  }

  // ---------------------------------------------------------------------
  // Reading the reason codes.

  /** The entry has a non-empty string `code`. */
  predicate Usable(e: ReasonEntry) {
    e.code.Code? && e.code.s != []
  }

  /** The non-empty string codes of the entries, in order. */
  function ValidCodes(reasons: seq<ReasonEntry>): (cs: seq<string>)
    ensures |cs| <= |reasons|
    ensures forall x :: x in cs <==> exists k :: 0 <= k < |reasons| && Usable(reasons[k]) && reasons[k].code.s == x
    decreases |reasons|
  {
    if reasons == [] then []
    else
      var rest := ValidCodes(reasons[1..]);
      assert forall k :: 1 <= k < |reasons| ==> reasons[k] == reasons[1..][k - 1];
      (if Usable(reasons[0]) then [reasons[0].code.s] else []) + rest
  }

  // ---------------------------------------------------------------------
  // Collecting without repeated codes.

  /** Some step of `s` has code `code`. */
  predicate Covers(s: seq<NextStep>, code: string) {
    exists k :: 0 <= k < |s| && s[k].code == code
  }

  /** No two steps share a code. */
  predicate NoDupCodes(s: seq<NextStep>) {
    forall i, j :: 0 <= i < j < |s| ==> s[i].code != s[j].code
  }

  /** Appending the steps whose code is not yet collected, in order. */
  function AddAll(acc: seq<NextStep>, steps: seq<NextStep>): (r: seq<NextStep>)
    ensures |acc| <= |r| <= |acc| + |steps| && r[..|acc|] == acc
    ensures forall y :: y in r ==> y in acc || y in steps
    ensures forall k :: 0 <= k < |steps| ==> Covers(r, steps[k].code)
    ensures forall code :: Covers(r, code) ==> Covers(acc, code) || Covers(steps, code)
    decreases |steps|
  {
    if steps == [] then acc
    else
      var st := steps[0];
      var next := if Covers(acc, st.code) then acc else acc + [st];
      AddOneCovers(acc, st);
      var r := AddAll(next, steps[1..]);
      assert forall k :: 1 <= k < |steps| ==> steps[k] == steps[1..][k - 1];
      CoversPrefix(r, next, st.code);
      CoversTail(steps);
      r
  }

  /** Adding one step covers its code and no code but it. */
  lemma AddOneCovers(acc: seq<NextStep>, st: NextStep)
    ensures var next := if Covers(acc, st.code) then acc else acc + [st];
            && Covers(next, st.code)
            && forall code :: Covers(next, code) ==> Covers(acc, code) || code == st.code
  {
    var next := if Covers(acc, st.code) then acc else acc + [st];
    if !Covers(acc, st.code) {
      assert next[|acc|] == st;
      forall code | Covers(next, code) ensures Covers(acc, code) || code == st.code {
        var k :| 0 <= k < |next| && next[k].code == code;
        if k < |acc| { assert acc[k] == next[k]; }
      }
    }
  }

  /** A code covered by a prefix is covered by the whole. */
  lemma CoversPrefix(r: seq<NextStep>, pre: seq<NextStep>, code: string)
    requires |pre| <= |r| && r[..|pre|] == pre && Covers(pre, code)
    ensures Covers(r, code)
  {
    var k :| 0 <= k < |pre| && pre[k].code == code;
    assert r[k] == pre[k];
  }

  /** A code covered by the tail is covered by the whole. */
  lemma CoversTail(steps: seq<NextStep>)
    requires steps != []
    ensures forall code :: Covers(steps[1..], code) ==> Covers(steps, code)
  {
    forall code | Covers(steps[1..], code) ensures Covers(steps, code) {
      var k :| 0 <= k < |steps[1..]| && steps[1..][k].code == code;
      assert steps[k + 1].code == code;
    }
  }

  /** Adding keeps the codes distinct. */
  lemma {:induction false} AddAllNoDup(acc: seq<NextStep>, steps: seq<NextStep>)
    requires NoDupCodes(acc)
    ensures NoDupCodes(AddAll(acc, steps))
    decreases |steps|
  {
    if steps != [] {
      var st := steps[0];
      if !Covers(acc, st.code) {
        var next := acc + [st];
        forall i, j | 0 <= i < j < |next| ensures next[i].code != next[j].code {
          if j == |acc| {
            assert next[i] == acc[i];
          }
        }
      }
      AddAllNoDup(if Covers(acc, st.code) then acc else acc + [st], steps[1..]);
    }
  }

  /** When every step's code is already collected, nothing is added. */
  lemma {:induction false} AddAllCovered(acc: seq<NextStep>, steps: seq<NextStep>)
    requires forall k :: 0 <= k < |steps| ==> Covers(acc, steps[k].code)
    ensures AddAll(acc, steps) == acc
    decreases |steps|
  {
    if steps != [] {
      assert forall k :: 1 <= k < |steps| ==> steps[k] == steps[1..][k - 1];
      AddAllCovered(acc, steps[1..]);
    }
  }

  /** A step table: the templates of each reason code. */
  type Table = string -> seq<NextStep>

  /** Every code has at most two templates. */
  ghost predicate SmallTable(table: Table) {
    forall rc :: |table(rc)| <= 2
  }

  /** The steps of the reason codes `codes` under `table`, in order,
      after `acc`. */
  function Gather(table: Table, acc: seq<NextStep>, codes: seq<string>): (r: seq<NextStep>)
    requires SmallTable(table)
    ensures |acc| <= |r| <= |acc| + 2 * |codes| && r[..|acc|] == acc
    ensures forall code :: Covers(acc, code) ==> Covers(r, code)
    decreases |codes|
  {
    if codes == [] then acc
    else
      var next := AddAll(acc, table(codes[0]));
      assert forall code :: Covers(acc, code) ==> Covers(next, code) by {
        forall code | Covers(acc, code) ensures Covers(next, code) {
          var k :| 0 <= k < |acc| && acc[k].code == code;
          assert next[k] == acc[k];
        }
      }
      var r := Gather(table, next, codes[1..]);
      assert r[..|acc|] == r[..|next|][..|acc|];
      r
  }

  /** Every collected step is in `acc` or is a template of one of the
      codes; every template of every code is collected. */
  lemma {:induction false} GatherContents(table: Table, acc: seq<NextStep>, codes: seq<string>)
    requires SmallTable(table)
    ensures forall y :: y in Gather(table, acc, codes) ==> y in acc || exists i :: 0 <= i < |codes| && y in table(codes[i])
    ensures forall i, k :: 0 <= i < |codes| && 0 <= k < |table(codes[i])| ==>
              Covers(Gather(table, acc, codes), table(codes[i])[k].code)
    decreases |codes|
  {
    if codes != [] {
      var next := AddAll(acc, table(codes[0]));
      GatherContents(table, next, codes[1..]);
      assert forall i :: 1 <= i < |codes| ==> codes[i] == codes[1..][i - 1];
      forall y | y in Gather(table, acc, codes)
        ensures y in acc || exists i :: 0 <= i < |codes| && y in table(codes[i])
      {
        if !(y in next) {
          var i :| 0 <= i < |codes[1..]| && y in table(codes[1..][i]);
          assert y in table(codes[i + 1]);
        } else if y !in acc {
          assert y in table(codes[0]);
        }
      }
    }
  }

  lemma {:induction false} GatherNoDup(table: Table, acc: seq<NextStep>, codes: seq<string>)
    requires SmallTable(table) && NoDupCodes(acc)
    ensures NoDupCodes(Gather(table, acc, codes))
    decreases |codes|
  {
    if codes != [] {
      AddAllNoDup(acc, table(codes[0]));
      GatherNoDup(table, AddAll(acc, table(codes[0])), codes[1..]);
    }
  }

  /** Gathering over `xs + ys` is gathering over `xs`, then over `ys`. */
  lemma {:induction false} GatherAppend(table: Table, acc: seq<NextStep>, xs: seq<string>, ys: seq<string>)
    requires SmallTable(table)
    ensures Gather(table, acc, xs + ys) == Gather(table, Gather(table, acc, xs), ys)
    decreases |xs|
  {
    if xs != [] {
      assert (xs + ys)[1..] == xs[1..] + ys;
      GatherAppend(table, AddAll(acc, table(xs[0])), xs[1..], ys);
    } else {
      assert xs + ys == ys;
    }
  }

  /** A code that was already gathered adds nothing when it comes again. */
  lemma RepeatAddsNothing(table: Table, acc: seq<NextStep>, xs: seq<string>, c: string, ys: seq<string>)
    requires SmallTable(table) && c in xs
    ensures Gather(table, acc, xs + [c] + ys) == Gather(table, acc, xs + ys)
  {
    var mid := Gather(table, acc, xs);
    var i :| 0 <= i < |xs| && xs[i] == c;
    GatherContents(table, acc, xs);
    AddAllCovered(mid, table(c));
    GatherAppend(table, acc, xs + [c], ys);
    GatherAppend(table, acc, xs, [c]);
    GatherAppend(table, acc, xs, ys);
    assert Gather(table, mid, [c]) == AddAll(mid, table(c));
  }

  /** Codes without templates add nothing. */
  lemma {:induction false} GatherUnknown(table: Table, acc: seq<NextStep>, codes: seq<string>)
    requires SmallTable(table)
    requires forall i :: 0 <= i < |codes| ==> table(codes[i]) == []
    ensures Gather(table, acc, codes) == acc
    decreases |codes|
  {
    if codes != [] {
      assert forall i :: 1 <= i < |codes| ==> codes[i] == codes[1..][i - 1];
      GatherUnknown(table, acc, codes[1..]);
    }
  }

  /** The reason-code table of the ranking is small. */
  lemma StepsForSmall()
    ensures SmallTable(StepsFor)
  {
  }

  /** The candidate steps: the action defaults, then the templates of the
      codes, each code once. */
  function Candidates(action: string, codes: seq<string>): (r: seq<NextStep>)
    ensures NoDupCodes(r)
    ensures |r| <= 1 + 2 * |codes|
  {
    AddAllNoDup([], ActionDefaults(action));
    StepsForSmall();
    GatherNoDup(StepsFor, AddAll([], ActionDefaults(action)), codes);
    Gather(StepsFor, AddAll([], ActionDefaults(action)), codes)
  }

  // ---------------------------------------------------------------------
  // Sorting by (priority, code).

  /** `(a.priority, a.code) <= (b.priority, b.code)`. */
  predicate KeyLe(a: NextStep, b: NextStep) {
    a.priority < b.priority || (a.priority == b.priority && (a.code == b.code || LexLess(a.code, b.code)))
  }

  lemma KeyLeTotal(a: NextStep, b: NextStep)
    ensures KeyLe(a, b) || KeyLe(b, a)
  {
    LexTotal(a.code, b.code);
  }

  lemma KeyLeTransitive(a: NextStep, b: NextStep, c: NextStep)
    requires KeyLe(a, b) && KeyLe(b, c)
    ensures KeyLe(a, c)
  {
    if a.priority == b.priority == c.priority && a.code != b.code && b.code != c.code {
      LexTransitive(a.code, b.code, c.code);
    }
  }

  predicate Sorted(s: seq<NextStep>) {
    forall i, j :: 0 <= i < j < |s| ==> KeyLe(s[i], s[j])
  }

  /** Insertion into a sorted list, before the first step not below `x`. */
  function Insert(x: NextStep, s: seq<NextStep>): (r: seq<NextStep>)
    ensures multiset(r) == multiset(s) + multiset{x}
    decreases |s|
  {
    if s == [] || KeyLe(x, s[0]) then [x] + s
    else
      assert s == [s[0]] + s[1..];
      [s[0]] + Insert(x, s[1..])
  }

  lemma {:induction false} InsertSorted(x: NextStep, s: seq<NextStep>)
    requires Sorted(s)
    ensures Sorted(Insert(x, s))
    decreases |s|
  {
    if s == [] || KeyLe(x, s[0]) {
      BelowHead(x, s);
      PrependSorted(x, s);
    } else {
      KeyLeTotal(x, s[0]);
      var t := Insert(x, s[1..]);
      InsertSorted(x, s[1..]);
      InsertAboveHead(x, s);
      PrependSorted(s[0], t);
    }
  }

  /** A step below the head of a sorted list is below all of it. */
  lemma BelowHead(x: NextStep, s: seq<NextStep>)
    requires Sorted(s) && (s == [] || KeyLe(x, s[0]))
    ensures forall j :: 0 <= j < |s| ==> KeyLe(x, s[j])
  {
    forall j | 0 < j < |s| ensures KeyLe(x, s[j]) {
      KeyLeTransitive(x, s[0], s[j]);
    }
  }

  /** A step below all of a sorted list can go in front of it. */
  lemma PrependSorted(x: NextStep, s: seq<NextStep>)
    requires Sorted(s) && forall j :: 0 <= j < |s| ==> KeyLe(x, s[j])
    ensures Sorted([x] + s)
  {
    var r := [x] + s;
    forall i, j | 0 <= i < j < |r| ensures KeyLe(r[i], r[j]) {
      assert r[j] == s[j - 1];
      if i > 0 {
        assert r[i] == s[i - 1];
      }
    }
  }

  /** Inserting above the head of a sorted list keeps the head below
      everything inserted into the tail. */
  lemma InsertAboveHead(x: NextStep, s: seq<NextStep>)
    requires Sorted(s) && s != [] && KeyLe(s[0], x)
    ensures forall j :: 0 <= j < |Insert(x, s[1..])| ==> KeyLe(s[0], Insert(x, s[1..])[j])
  {
    var t := Insert(x, s[1..]);
    forall j | 0 <= j < |t| ensures KeyLe(s[0], t[j]) {
      assert t[j] in multiset(t);
      if t[j] != x {
        assert t[j] in multiset(s[1..]);
        var k :| 0 <= k < |s[1..]| && s[1..][k] == t[j];
        assert s[k + 1] == t[j];
      }
    }
  }

  /** `sorted(s, key=(priority, code))`. */
  function Sort(s: seq<NextStep>): (r: seq<NextStep>)
    ensures multiset(r) == multiset(s)
    ensures |r| == |s|
    decreases |s|
  {
    if s == [] then []
    else
      assert s == [s[0]] + s[1..];
      Insert(s[0], Sort(s[1..]))
  }

  lemma {:induction false} SortSorted(s: seq<NextStep>)
    ensures Sorted(Sort(s))
    decreases |s|
  {
    if s != [] {
      SortSorted(s[1..]);
      InsertSorted(s[0], Sort(s[1..]));
    }
  }

  /** A permutation of a list with distinct codes has distinct codes. */
  lemma PermutationNoDup(s: seq<NextStep>, r: seq<NextStep>)
    requires multiset(r) == multiset(s) && NoDupCodes(s)
    ensures NoDupCodes(r)
  {
    forall i, j | 0 <= i < j < |r| ensures r[i].code != r[j].code {
      if r[i].code == r[j].code {
        assert r[i] in multiset(s) && r[j] in multiset(s);
        var a :| 0 <= a < |s| && s[a] == r[i];
        var b :| 0 <= b < |s| && s[b] == r[j];
        assert a == b;
        assert r[i] == r[j];
        var m := multiset(r);
        assert multiset(r[..i]) + multiset{r[i]} + multiset(r[i + 1..]) == m by {
          assert r == r[..i] + [r[i]] + r[i + 1..];
        }
        assert r[j] in multiset(r[i + 1..]) by {
          assert r[i + 1..][j - i - 1] == r[j];
        }
        SingleInDistinct(s, a);
      }
    }
  }

  /** In a list with distinct codes each step occurs once. */
  lemma {:induction false} SingleInDistinct(s: seq<NextStep>, a: nat)
    requires NoDupCodes(s) && a < |s|
    ensures multiset(s)[s[a]] == 1
    decreases |s|
  {
    if a == |s| - 1 {
      var p := s[..a];
      assert s == p + [s[a]];
      assert s[a] !in multiset(p);
    } else {
      var p := s[..|s| - 1];
      assert s == p + [s[|s| - 1]];
      assert NoDupCodes(p) by {
        forall i, j | 0 <= i < j < |p| ensures p[i].code != p[j].code {
          assert p[i] == s[i] && p[j] == s[j];
        }
      }
      SingleInDistinct(p, a);
      assert p[a] == s[a];
      assert s[|s| - 1] != s[a];
    }
  }

  // ---------------------------------------------------------------------
  // Truncation and output.

  /** `s[:n]` with Python's slice rule: a negative `n` counts from the
      end. */
  function PyTake(s: seq<NextStep>, n: int): (r: seq<NextStep>)
    ensures |r| <= |s| && r == s[..|r|]
    ensures n >= 0 ==> |r| == if n < |s| then n else |s|
    ensures n < 0 ==> |r| == if |s| + n > 0 then |s| + n else 0
  {
    var m := if n >= 0 then (if n < |s| then n else |s|) else (if |s| + n > 0 then |s| + n else 0);
    s[..m]
  }

  /** The ranked and truncated steps, with their priorities. */
  function RankedSteps(action: string, codes: seq<string>, maxSteps: int): (r: seq<NextStep>)
    ensures Sorted(r)
    ensures NoDupCodes(r)
    ensures maxSteps >= 0 ==> |r| <= maxSteps
    ensures var n := |Candidates(action, codes)|;
            |r| == if maxSteps >= 0 then (if maxSteps < n then maxSteps else n)
                   else (if n + maxSteps > 0 then n + maxSteps else 0)
    ensures forall x :: x in r ==> x in Candidates(action, codes)
    ensures forall x, y :: x in r && y in Candidates(action, codes) && y !in r ==> KeyLe(x, y)
  {
    var cands := Candidates(action, codes);
    var sorted := Sort(cands);
    SortSorted(cands);
    PermutationNoDup(cands, sorted);
    var r := PyTake(sorted, maxSteps);
    assert forall i, j :: 0 <= i < j < |r| ==> r[i] == sorted[i] && r[j] == sorted[j];
    PrefixBelowRest(sorted, |r|, cands);
    r
  }

  /** A prefix of a sorted permutation of `cands` holds members of `cands`,
      each at or below every member left out. */
  lemma PrefixBelowRest(s: seq<NextStep>, m: nat, cands: seq<NextStep>)
    requires Sorted(s) && m <= |s| && multiset(s) == multiset(cands)
    ensures forall x :: x in s[..m] ==> x in cands
    ensures forall x, y :: x in s[..m] && y in cands && y !in s[..m] ==> KeyLe(x, y)
  {
    forall x | x in s[..m] ensures x in cands {
      assert x in multiset(s);
    }
    forall x, y | x in s[..m] && y in cands && y !in s[..m] ensures KeyLe(x, y) {
      var i :| 0 <= i < m && s[..m][i] == x;
      assert y in multiset(s);
      var j :| 0 <= j < |s| && s[j] == y;
      assert s[i] == x;
    }
  }

  function Project(s: seq<NextStep>): (out: seq<StepOut>)
    ensures |out| == |s|
    ensures forall k :: 0 <= k < |s| ==> out[k] == StepOut(s[k].code, s[k].title, s[k].detail)
  {
    seq(|s|, k requires 0 <= k < |s| => StepOut(s[k].code, s[k].title, s[k].detail))
  }

  /** `generate_next_steps(action, reasons, max_steps=...)`: distinct codes,
      at most `max_steps` entries for a non-negative bound. */
  function GenerateNextSteps(action: string, reasons: seq<ReasonEntry>, maxSteps: int): (out: seq<StepOut>)
    ensures forall i, j :: 0 <= i < j < |out| ==> out[i].code != out[j].code
    ensures maxSteps >= 0 ==> |out| <= maxSteps
    ensures var n := |Candidates(action, ValidCodes(reasons))|;
            maxSteps >= 0 ==> |out| == if maxSteps < n then maxSteps else n
  {
    Project(RankedSteps(action, ValidCodes(reasons), maxSteps))
  }

  /** Raising the step limit only appends steps: the shorter output is a
      prefix of the longer one. */
  lemma MoreRoomExtends(action: string, reasons: seq<ReasonEntry>, a: int, b: int)
    requires 0 <= a <= b
    ensures var small := GenerateNextSteps(action, reasons, a);
            var big := GenerateNextSteps(action, reasons, b);
            |small| <= |big| && small == big[..|small|]
  {
    var sorted := Sort(Candidates(action, ValidCodes(reasons)));
    var rs, rb := PyTake(sorted, a), PyTake(sorted, b);
    assert RankedSteps(action, ValidCodes(reasons), a) == rs;
    assert RankedSteps(action, ValidCodes(reasons), b) == rb;
    assert rs == rb[..|rs|];
    ProjectPrefix(rb, |rs|);
  }

  lemma ProjectPrefix(s: seq<NextStep>, m: nat)
    requires m <= |s|
    ensures Project(s[..m]) == Project(s)[..m]
  {
  }

  // ---------------------------------------------------------------------
  // Properties of the ranking.

  /** Entries without a usable code contribute nothing. */
  lemma {:induction false} ValidCodesAppend(a: seq<ReasonEntry>, b: seq<ReasonEntry>)
    ensures ValidCodes(a + b) == ValidCodes(a) + ValidCodes(b)
    decreases |a|
  {
    if a == [] {
      assert a + b == b;
    } else {
      var hd := if Usable(a[0]) then [a[0].code.s] else [];
      assert (a + b)[0] == a[0];
      assert (a + b)[1..] == a[1..] + b;
      ValidCodesAppend(a[1..], b);
      assert ValidCodes(a) == hd + ValidCodes(a[1..]);
      assert ValidCodes(a + b) == hd + (ValidCodes(a[1..]) + ValidCodes(b));
    }
  }

  /** None of the supplied codes has templates. */
  predicate NoKnownCodes(reasons: seq<ReasonEntry>) {
    forall k :: 0 <= k < |reasons| && Usable(reasons[k]) ==> LookupCode(reasons[k].code.s).None?
  }

  /** Without known codes the candidates are the action defaults. */
  lemma DefaultsOnly(action: string, reasons: seq<ReasonEntry>)
    requires NoKnownCodes(reasons)
    ensures Candidates(action, ValidCodes(reasons)) == ActionDefaults(action)
  {
    var codes := ValidCodes(reasons);
    forall i | 0 <= i < |codes| ensures LookupCode(codes[i]).None? {
      assert codes[i] in codes;
    }
    StepsForSmall();
    GatherUnknown(StepsFor, AddAll([], ActionDefaults(action)), codes);
    var d := ActionDefaults(action);
    if d != [] {
      assert AddAll([], d) == AddAll([d[0]], d[1..]);
    }
  }

  /** The first step of a sorted list ranks at or before every step of
      it. */
  lemma SortedHead(s: seq<NextStep>, y: NextStep)
    requires Sorted(s) && y in s
    ensures KeyLe(s[0], y)
  {
    var j :| 0 <= j < |s| && s[j] == y;
    if j > 0 {
      assert KeyLe(s[0], s[j]);
    }
  }

  /** When the action's only default has priority 0, no other candidate
      has priority 0. */
  lemma OnlyDefaultAtZero(action: string, d: NextStep, codes: seq<string>, y: NextStep)
    requires ActionDefaults(action) == [d]
    requires y in Candidates(action, codes) && y.priority == 0
    ensures y == d
  {
    var start := AddAll([], ActionDefaults(action));
    StepsForSmall();
    GatherContents(StepsFor, start, codes);
  }

  /** The candidates open with the action defaults. */
  lemma CandidatesStart(action: string, codes: seq<string>)
    ensures var d := ActionDefaults(action);
            |d| <= |Candidates(action, codes)| && Candidates(action, codes)[..|d|] == d
  {
    var d := ActionDefaults(action);
    if d != [] {
      assert AddAll([], d) == AddAll([d[0]], d[1..]);
    }
  }

  /** When the action's only default has priority 0, the ranked steps
      start with it. */
  lemma ZeroDefaultRanksFirst(action: string, d: NextStep, codes: seq<string>, maxSteps: int)
    requires maxSteps >= 1
    requires ActionDefaults(action) == [d] && d.priority == 0
    ensures var r := RankedSteps(action, codes, maxSteps);
            |r| >= 1 && r[0] == d
  {
    var cands := Candidates(action, codes);
    CandidatesStart(action, codes);
    assert cands[0] == d;
    var sorted := Sort(cands);
    SortSorted(cands);
    assert d in multiset(sorted);
    SortedHead(sorted, d);
    assert sorted[0] in multiset(cands);
    OnlyDefaultAtZero(action, d, codes, sorted[0]);
  }

  /** REQUEST_STRONGER_PROOF with room for one step puts
      `stronger_proof_required` first, whatever the reasons. */
  lemma StrongerProofFirst(reasons: seq<ReasonEntry>, maxSteps: int)
    requires maxSteps >= 1
    ensures var out := GenerateNextSteps("REQUEST_STRONGER_PROOF", reasons, maxSteps);
            |out| >= 1 && out[0].code == "stronger_proof_required" && out[0].title == "Stronger proof required"
  {
    ZeroDefaultRanksFirst("REQUEST_STRONGER_PROOF", Step(StrongerProofRequired), ValidCodes(reasons), maxSteps);
  }

  /** WARN without known codes gives exactly `proceed_with_caution`. */
  lemma WarnAlone(reasons: seq<ReasonEntry>, maxSteps: int)
    requires NoKnownCodes(reasons) && maxSteps >= 1
    ensures GenerateNextSteps("WARN", reasons, maxSteps)
            == [StepOut("proceed_with_caution", "Proceed with caution", StepDetail(ProceedWithCaution))]
  {
    WarnOutput(reasons, maxSteps);
    ProjectOne(Step(ProceedWithCaution));
    ProceedWithCautionOut();
  }

  lemma WarnOutput(reasons: seq<ReasonEntry>, maxSteps: int)
    requires NoKnownCodes(reasons) && maxSteps >= 1
    ensures GenerateNextSteps("WARN", reasons, maxSteps) == Project([Step(ProceedWithCaution)])
  {
    DefaultsOnly("WARN", reasons);
    WarnDefault();
    SingleCandidate("WARN", ValidCodes(reasons), Step(ProceedWithCaution), maxSteps);
  }

  lemma ProceedWithCautionOut()
    ensures var d := Step(ProceedWithCaution);
            StepOut(d.code, d.title, d.detail)
            == StepOut("proceed_with_caution", "Proceed with caution", StepDetail(ProceedWithCaution))
  {
  }

  lemma WarnDefault()
    ensures ActionDefaults("WARN") == [Step(ProceedWithCaution)]
  {
    assert |"WARN"| != |"REQUEST_STRONGER_PROOF"|;
  }

  lemma ProjectOne(d: NextStep)
    ensures Project([d]) == [StepOut(d.code, d.title, d.detail)]
  {
  }

  /** A single candidate is ranked alone. */
  lemma SingleCandidate(action: string, codes: seq<string>, d: NextStep, maxSteps: int)
    requires Candidates(action, codes) == [d] && maxSteps >= 1
    ensures RankedSteps(action, codes, maxSteps) == [d]
  {
    assert Sort([d]) == [d];
  }

  /** ALLOW, or an action without defaults, without known codes gives no
      steps. */
  lemma NoDefaultsNoSteps(action: string, reasons: seq<ReasonEntry>, maxSteps: int)
    requires action != "REQUEST_STRONGER_PROOF" && action != "WARN"
    requires NoKnownCodes(reasons)
    ensures GenerateNextSteps(action, reasons, maxSteps) == []
  {
    DefaultsOnly(action, reasons);
  }

  /** An entry without a non-empty string code changes nothing. */
  lemma UnusableIgnored(action: string, a: seq<ReasonEntry>, e: ReasonEntry, b: seq<ReasonEntry>, maxSteps: int)
    requires !Usable(e)
    ensures GenerateNextSteps(action, a + [e] + b, maxSteps) == GenerateNextSteps(action, a + b, maxSteps)
  {
    ValidCodesAppend(a + [e], b);
    ValidCodesAppend(a, [e]);
    ValidCodesAppend(a, b);
    assert ValidCodes([e]) == [];
    assert ValidCodes(a + [e] + b) == ValidCodes(a + b);
  }

  /** Repeating a code that an earlier entry already supplied changes
      nothing. */
  lemma RepeatIgnored(action: string, a: seq<ReasonEntry>, e: ReasonEntry, b: seq<ReasonEntry>, maxSteps: int)
    requires Usable(e) && exists k :: 0 <= k < |a| && Usable(a[k]) && a[k].code.s == e.code.s
    ensures GenerateNextSteps(action, a + [e] + b, maxSteps) == GenerateNextSteps(action, a + b, maxSteps)
  {
    ValidCodesAppend(a + [e], b);
    ValidCodesAppend(a, [e]);
    ValidCodesAppend(a, b);
    assert ValidCodes([e]) == [e.code.s];
    StepsForSmall();
    RepeatAddsNothing(StepsFor, AddAll([], ActionDefaults(action)), ValidCodes(a), e.code.s, ValidCodes(b));
  }

  /** Every output step is a default of the action or a template of a
      supplied code. */
  lemma OutputFromTables(action: string, reasons: seq<ReasonEntry>, maxSteps: int)
    ensures var out := GenerateNextSteps(action, reasons, maxSteps);
            forall n :: 0 <= n < |out| ==>
              Covers(ActionDefaults(action), out[n].code)
              || exists k :: 0 <= k < |reasons| && Usable(reasons[k]) && Covers(StepsFor(reasons[k].code.s), out[n].code)
  {
    var codes := ValidCodes(reasons);
    var cands := Candidates(action, codes);
    var sorted := Sort(cands);
    var r := RankedSteps(action, codes, maxSteps);
    forall n | 0 <= n < |r|
      ensures Covers(ActionDefaults(action), r[n].code)
              || exists k :: 0 <= k < |reasons| && Usable(reasons[k]) && Covers(StepsFor(reasons[k].code.s), r[n].code)
    {
      assert r[n] == sorted[n];
      assert r[n] in multiset(cands);
      CandidateOrigin(action, reasons, r[n]);
    }
  }

  /** Every candidate is a default of the action or a template of a
      supplied code. */
  lemma {:induction false} CandidateOrigin(action: string, reasons: seq<ReasonEntry>, y: NextStep)
    requires y in Candidates(action, ValidCodes(reasons))
    ensures Covers(ActionDefaults(action), y.code)
            || exists k :: 0 <= k < |reasons| && Usable(reasons[k]) && Covers(StepsFor(reasons[k].code.s), y.code)
  {
    var codes := ValidCodes(reasons);
    var start := AddAll([], ActionDefaults(action));
    StepsForSmall();
    GatherContents(StepsFor, start, codes);
    assert Candidates(action, codes) == Gather(StepsFor, start, codes);
    if y in start {
      assert y in ActionDefaults(action);
      var m :| 0 <= m < |ActionDefaults(action)| && ActionDefaults(action)[m] == y;
      assert Covers(ActionDefaults(action), y.code);
    } else {
      var i :| 0 <= i < |codes| && y in StepsFor(codes[i]);
      assert codes[i] in codes;
      var k :| 0 <= k < |reasons| && Usable(reasons[k]) && reasons[k].code.s == codes[i];
      var m :| 0 <= m < |StepsFor(codes[i])| && StepsFor(codes[i])[m] == y;
      assert Covers(StepsFor(reasons[k].code.s), y.code);
    }
  }


  /** With room for every candidate, every default of the action and every
      template of every supplied code is in the output. */
  lemma OutputComplete(action: string, reasons: seq<ReasonEntry>, maxSteps: int)
    requires maxSteps >= |Candidates(action, ValidCodes(reasons))|
    ensures var out := GenerateNextSteps(action, reasons, maxSteps);
            && (forall m :: 0 <= m < |ActionDefaults(action)| ==>
                  exists n :: 0 <= n < |out| && out[n].code == ActionDefaults(action)[m].code)
            && (forall k, m :: 0 <= k < |reasons| && Usable(reasons[k]) && 0 <= m < |StepsFor(reasons[k].code.s)| ==>
                  exists n :: 0 <= n < |out| && out[n].code == StepsFor(reasons[k].code.s)[m].code)
  {
    var codes := ValidCodes(reasons);
    var start := AddAll([], ActionDefaults(action));
    var cands := Candidates(action, codes);
    var out := GenerateNextSteps(action, reasons, maxSteps);
    StepsForSmall();
    GatherContents(StepsFor, start, codes);
    forall m | 0 <= m < |ActionDefaults(action)|
      ensures exists n :: 0 <= n < |out| && out[n].code == ActionDefaults(action)[m].code
    {
      var x := cands[..|start|];
      assert x == start;
      CandidateInOutput(action, reasons, maxSteps, ActionDefaults(action)[m].code);
    }
    forall k, m | 0 <= k < |reasons| && Usable(reasons[k]) && 0 <= m < |StepsFor(reasons[k].code.s)|
      ensures exists n :: 0 <= n < |out| && out[n].code == StepsFor(reasons[k].code.s)[m].code
    {
      assert reasons[k].code.s in codes;
      var i :| 0 <= i < |codes| && codes[i] == reasons[k].code.s;
      CandidateInOutput(action, reasons, maxSteps, StepsFor(reasons[k].code.s)[m].code);
    }
  }

  /** With room for every candidate, every candidate code is output. */
  lemma CandidateInOutput(action: string, reasons: seq<ReasonEntry>, maxSteps: int, code: string)
    requires maxSteps >= |Candidates(action, ValidCodes(reasons))|
    requires Covers(Candidates(action, ValidCodes(reasons)), code)
    ensures var out := GenerateNextSteps(action, reasons, maxSteps);
            exists n :: 0 <= n < |out| && out[n].code == code
  {
    var codes := ValidCodes(reasons);
    var cands := Candidates(action, codes);
    RankedAll(action, codes, maxSteps);
    assert GenerateNextSteps(action, reasons, maxSteps) == Project(Sort(cands));
    PermutationCovers(cands, Sort(cands), code);
    ProjectCovers(Sort(cands), code);
  }

  /** With room for every candidate, the ranking only sorts. */
  lemma RankedAll(action: string, codes: seq<string>, maxSteps: int)
    requires maxSteps >= |Candidates(action, codes)|
    ensures RankedSteps(action, codes, maxSteps) == Sort(Candidates(action, codes))
  {
  }

  /** A permutation has the same step codes. */
  lemma PermutationCovers(s: seq<NextStep>, r: seq<NextStep>, code: string)
    requires multiset(r) == multiset(s) && Covers(s, code)
    ensures Covers(r, code)
  {
    var i :| 0 <= i < |s| && s[i].code == code;
    assert s[i] in multiset(r);
    var n :| 0 <= n < |r| && r[n] == s[i];
  }

  /** Projection keeps the step codes. */
  lemma ProjectCovers(s: seq<NextStep>, code: string)
    requires Covers(s, code)
    ensures exists n :: 0 <= n < |Project(s)| && Project(s)[n].code == code
  {
    var n :| 0 <= n < |s| && s[n].code == code;
    assert Project(s)[n].code == code;
  }
}

=== FILE: pairs.dfy ===
/** The unordered pairs visited by the nested loop
    `for i in range(n): for j in range(i + 1, n)`, in loop order. */
module Pairs {

  /** `(i, j)` comes strictly before `(i', j')` in loop order. */
  predicate Before(p: (nat, nat), q: (nat, nat)) {
    p.0 < q.0 || (p.0 == q.0 && p.1 < q.1)
  }

  /** The inner loop for a fixed `i`, from `j` up to `n - 1`. */
  function Row(i: nat, j: nat, n: nat): (ps: seq<(nat, nat)>)
    ensures |ps| == if j <= n then n - j else 0
    ensures forall k :: 0 <= k < |ps| ==> ps[k] == (i, j + k)
    decreases n - j
  {
    if j >= n then [] else [(i, j)] + Row(i, j + 1, n)
  }

  /** The outer loop from `i` up to `n - 1`. */
  function PairsFrom(i: nat, n: nat): (ps: seq<(nat, nat)>)
    ensures forall k :: 0 <= k < |ps| ==> i <= ps[k].0 < ps[k].1 < n
    ensures forall a, b :: 0 <= a < b < |ps| ==> Before(ps[a], ps[b])
    decreases n - i
  {
    if i >= n then []
    else
      var row := Row(i, i + 1, n);
      var rest := PairsFrom(i + 1, n);
      var ps := row + rest;
      assert forall k :: 0 <= k < |row| ==> ps[k] == row[k];
      assert forall k :: |row| <= k < |ps| ==> ps[k] == rest[k - |row|];
      ps
  }

  /** All pairs `i < j < n`. */
  function AllPairs(n: nat): (ps: seq<(nat, nat)>)
    ensures forall k :: 0 <= k < |ps| ==> ps[k].0 < ps[k].1 < n
  {
    PairsFrom(0, n)
  }

  /** Loop order is strict, so no pair is visited twice. */
  lemma AllPairsDistinct(n: nat)
    ensures forall a, b :: 0 <= a < b < |AllPairs(n)| ==> AllPairs(n)[a] != AllPairs(n)[b]
  {
    var ps := AllPairs(n);
    forall a, b | 0 <= a < b < |ps| ensures ps[a] != ps[b] {
      assert Before(ps[a], ps[b]);
    }
  }

  /** Every pair `i < j < n` is visited. */
  lemma {:induction false} PairsFromComplete(i: nat, n: nat, x: nat, y: nat)
    requires i <= x < y < n
    ensures (x, y) in PairsFrom(i, n)
    decreases n - i
  {
    var row := Row(i, i + 1, n);
    var rest := PairsFrom(i + 1, n);
    assert PairsFrom(i, n) == row + rest;
    if x == i {
      assert row[y - i - 1] == (x, y);
    } else {
      PairsFromComplete(i + 1, n, x, y);
    }
  }

  /** A pair is visited exactly when `i < j < n`. */
  lemma AllPairsIff(n: nat, x: nat, y: nat)
    ensures (x, y) in AllPairs(n) <==> x < y < n
  {
    if x < y < n {
      PairsFromComplete(0, n, x, y);
    }
  }

  /** The loop visits `(n - i)(n - i - 1) / 2` pairs from row `i` on. */
  lemma {:induction false} PairsFromCount(i: nat, n: nat)
    requires i <= n
    ensures 2 * |PairsFrom(i, n)| == (n - i) * (n - i - 1)
    decreases n - i
  {
    if i < n {
      PairsFromCount(i + 1, n);
      assert |PairsFrom(i, n)| == (n - i - 1) + |PairsFrom(i + 1, n)|;
    }
  }

  /** `n (n - 1) / 2` pairs in all. */
  lemma AllPairsCount(n: nat)
    ensures 2 * |AllPairs(n)| == n * (n - 1)
  {
    PairsFromCount(0, n);
  }

  /** The loop starts with `(0, 1)`. */
  lemma FirstPair(n: nat)
    requires n >= 2
    ensures |AllPairs(n)| > 0 && AllPairs(n)[0] == (0, 1)
  {
    assert PairsFrom(0, n) == Row(0, 1, n) + PairsFrom(1, n);
  }
}

=== FILE: platform_parse.dfy ===
/** Platform-aware claim parsing (pipeline/platform_parse.py): an email,
    a URL with per-platform path rules, a bare handle, or other. */
module PlatformParse {
  import opened Wrappers
  import opened Text
  import opened Urls

  datatype Kind = UrlClaim | EmailClaim | HandleClaim | OtherClaim

  datatype PlatformParsed = PlatformParsed(
    platform: Option<string>,
    claimed: string,
    domain: Option<string>,
    handle: Option<string>,
    kind: Kind)

  /** `_clean_handle`: strip, drop one leading `@`, strip again, strip `/`
      from both ends; empty results become None. */
  function CleanHandle(h: Option<string>): (r: Option<string>)
    ensures h.None? || h == Some("") ==> r.None?
    ensures r.Some? ==> r.value != [] && r.value[0] != '/' && r.value[|r.value| - 1] != '/'
  {
    if h.None? || h.value == [] then None
    else
      var a := Strip(h.value);
      var b := if StartsWith(a, "@") then a[1..] else a;
      var c := StripChar(Strip(b), '/');
      if c == [] then None else Some(c)
  }

  /** Characters of `[^@\s]`. */
  predicate NoAtNoSpace(s: string) {
    forall i :: 0 <= i < |s| ==> s[i] != '@' && !IsSpace(s[i])
  }

  /** `^[^@\s]+@[^@\s]+\.[^@\s]+$` on a stripped string: one `@` with a
      non-empty local part, and a domain part holding a `.` that is neither
      its first nor its last character. */
  predicate IsEmail(c: string) {
    var k := IndexOf(c, '@');
    && 0 < k < |c|
    && NoAtNoSpace(c[..k])
    && NoAtNoSpace(c[k + 1..])
    && exists i :: k + 1 < i < |c| - 1 && c[i] == '.'
  }

  predicate IsHandleChar(c: char) {
    IsAsciiLetter(c) || IsDigit(c) || c == '.' || c == '_' || c == '-'
  }

  /** `[a-zA-Z0-9._-]{2,64}` over the whole string. */
  predicate IsHandleBody(s: string) {
    2 <= |s| <= 64 && forall i :: 0 <= i < |s| ==> IsHandleChar(s[i])
  }

  /** `_HANDLE_RE.match(h)`: Python's `$` also matches just before a final
      newline. */
  predicate MatchesHandleRe(h: string) {
    IsHandleBody(h) || (|h| > 0 && h[|h| - 1] == '\n' && IsHandleBody(h[..|h| - 1]))
  }

  predicate IsHttpUrl(c: string) {
    StartsWith(LowerStr(c), "http://") || StartsWith(LowerStr(c), "https://")
  }

  /** The non-empty segments of a path. */
  function Segments(path: string): (segs: seq<string>)
    ensures forall k :: 0 <= k < |segs| ==> segs[k] != [] && '/' !in segs[k]
  {
    NonEmpty(Split(StripChar(path, '/'), '/'))
  }

  function NonEmpty(parts: seq<string>): (r: seq<string>)
    requires forall k :: 0 <= k < |parts| ==> '/' !in parts[k]
    ensures forall k :: 0 <= k < |r| ==> r[k] != [] && '/' !in r[k]
  {
    if parts == [] then []
    else if parts[0] == [] then NonEmpty(parts[1..])
    else [parts[0]] + NonEmpty(parts[1..])
  }

  /** The platform as `extract_handle` records it: lower-cased, or None
      when absent or empty. */
  function PlatformKey(platform: Option<string>): Option<string> {
    if platform.None? || platform.value == [] then None else Some(LowerStr(platform.value))
  }

  /** The path rule a platform key selects; the keys of different rules
      are distinct, so the source's sequence of `if p in (...)` tests
      picks at most one. */
  datatype PathRule = LinkedinPath | UserPath | FacebookPath | AnyPath

  function PathRuleOf(p: Option<string>): PathRule {
    if p == Some("linkedin") then LinkedinPath
    else if p == Some("github") || p == Some("instagram") || p == Some("x") || p == Some("twitter") then UserPath
    else if p == Some("facebook") then FacebookPath
    else AnyPath
  }

  /** The fallback: the cleaned first segment, None without segments. */
  function FirstSegment(segs: seq<string>): Option<string> {
    if |segs| >= 1 then CleanHandle(Some(segs[0])) else None
  }

  /** The handle a URL yields under the per-platform path rules; a rule
      whose path shape does not match falls through to the first
      segment. */
  function UrlHandle(p: Option<string>, segs: seq<string>, query: string): Option<string> {
    match PathRuleOf(p)
    case LinkedinPath =>
      if |segs| >= 2 && (segs[0] == "in" || segs[0] == "company") then CleanHandle(Some(segs[1]))
      else FirstSegment(segs)
    case UserPath => FirstSegment(segs)
    case FacebookPath =>
      if |segs| >= 1 && LowerStr(segs[0]) == "profile.php" then CleanHandle(QueryValue(query, "id"))
      else FirstSegment(segs)
    case AnyPath => FirstSegment(segs)
  }

  /** The URL branch of `extract_handle`. */
  function FromUrl(p: Option<string>, c: string): PlatformParsed {
    var u := UrlParse(c);
    PlatformParsed(p, c, Some(LowerStr(u.netloc)), UrlHandle(p, Segments(u.path), u.query), UrlClaim)
  }

  /** `extract_handle(platform, claimed)`. */
  function ExtractHandle(platform: Option<string>, claimed: string): (r: PlatformParsed)
    ensures r.claimed == Strip(claimed)
    ensures r.platform == PlatformKey(platform)
    ensures r.kind == HandleClaim ==> r.handle.Some? && MatchesHandleRe(r.handle.value)
    ensures r.kind == OtherClaim ==> r.handle.None?
    ensures r.kind != UrlClaim ==> r.domain.None?
  {
    var c := Strip(claimed);
    var p := PlatformKey(platform);
    if IsEmail(c) then
      PlatformParsed(p, c, None, Some(LowerStr(Before(c, '@'))), EmailClaim)
    else if IsHttpUrl(c) then FromUrl(p, c)
    else
      var h := CleanHandle(Some(c));
      if h.Some? && MatchesHandleRe(h.value) then PlatformParsed(p, c, None, h, HandleClaim)
      else PlatformParsed(p, c, None, None, OtherClaim)
  }

  // ---------------------------------------------------------------------
  // Properties of the rules.

  /** A plain handle survives cleaning, with or without one leading `@`. */
  lemma CleanHandlePlain(h: string)
    requires h != [] && !IsSpace(h[0]) && !IsSpace(h[|h| - 1])
    requires h[0] != '@' && h[0] != '/' && h[|h| - 1] != '/'
    ensures CleanHandle(Some(h)) == Some(h)
    ensures CleanHandle(Some("@" + h)) == Some(h)
  {
    StripUnchanged(h);
    StripSlashUnchanged(h);
    assert !StartsWith(h, "@");
    var a := "@" + h;
    StripUnchanged(a);
    assert StartsWith(a, "@");
    assert a[1..] == h;
  }

  /** An email-shaped claim is classified as email before any URL rule:
      handle = lower-cased local part, no domain. */
  lemma EmailRule(platform: Option<string>, claimed: string)
    requires IsEmail(Strip(claimed))
    ensures ExtractHandle(platform, claimed).kind == EmailClaim
    ensures ExtractHandle(platform, claimed).domain.None?
    ensures ExtractHandle(platform, claimed).handle == Some(LowerStr(Before(Strip(claimed), '@')))
  {
  }

  /** A non-email claim starting with `http://` or `https://` in any case
      takes the URL branch. */
  lemma UrlBranch(platform: Option<string>, claimed: string)
    requires !IsEmail(Strip(claimed)) && IsHttpUrl(Strip(claimed))
    ensures ExtractHandle(platform, claimed) == FromUrl(PlatformKey(platform), Strip(claimed))
  {
  }

  /** Without path segments no platform rule yields a handle. */
  lemma NoSegmentsNoHandle(p: Option<string>, query: string)
    ensures UrlHandle(p, [], query).None?
  {
  }

  /** A non-email claim starting with `http://` or `https://` in any case
      is a URL whose domain is its lower-cased network location; without
      path segments it has no handle. */
  lemma UrlRule(platform: Option<string>, claimed: string)
    requires !IsEmail(Strip(claimed)) && IsHttpUrl(Strip(claimed))
    ensures ExtractHandle(platform, claimed).kind == UrlClaim
    ensures ExtractHandle(platform, claimed).domain == Some(LowerStr(Netloc(Strip(claimed))))
    ensures Segments(UrlParse(Strip(claimed)).path) == [] ==> ExtractHandle(platform, claimed).handle.None?
  {
    UrlBranch(platform, claimed);
    NoSegmentsNoHandle(PlatformKey(platform), UrlParse(Strip(claimed)).query);
  }

  /** The facebook rule on a `profile.php` path. */
  lemma FacebookProfileHandle(segs: seq<string>, query: string)
    requires |segs| >= 1 && LowerStr(segs[0]) == "profile.php"
    ensures UrlHandle(Some("facebook"), segs, query) == CleanHandle(QueryValue(query, "id"))
  {
    FacebookRuleSelected();
  }

  lemma FacebookRuleSelected()
    ensures PathRuleOf(Some("facebook")) == FacebookPath
  {
    var f := "facebook";
    assert f[0] == 'f' && "linkedin"[0] == 'l' && "github"[0] == 'g' && "instagram"[0] == 'i';
    assert |f| != |"x"| && |f| != |"twitter"|;
  }

  /** A facebook `profile.php` URL yields the cleaned `id` query value, or
      None when there is none. */
  lemma FacebookProfileRule(platform: Option<string>, claimed: string)
    requires PlatformKey(platform) == Some("facebook")
    requires !IsEmail(Strip(claimed)) && IsHttpUrl(Strip(claimed))
    requires var segs := Segments(UrlParse(Strip(claimed)).path);
             |segs| >= 1 && LowerStr(segs[0]) == "profile.php"
    ensures ExtractHandle(platform, claimed).handle
            == CleanHandle(QueryValue(UrlParse(Strip(claimed)).query, "id"))
  {
    var u := UrlParse(Strip(claimed));
    UrlBranch(platform, claimed);
    FacebookProfileHandle(Segments(u.path), u.query);
  }

  /** The linkedin rule on a path with at least one segment. */
  lemma LinkedinHandle(segs: seq<string>, query: string)
    requires |segs| >= 1
    ensures UrlHandle(Some("linkedin"), segs, query) ==
              if |segs| >= 2 && (segs[0] == "in" || segs[0] == "company")
              then CleanHandle(Some(segs[1])) else CleanHandle(Some(segs[0]))
  {
  }

  /** LinkedIn takes the segment after `in` or `company`, and otherwise
      falls back to the first segment. */
  lemma LinkedinRule(platform: Option<string>, claimed: string)
    requires PlatformKey(platform) == Some("linkedin")
    requires !IsEmail(Strip(claimed)) && IsHttpUrl(Strip(claimed))
    requires |Segments(UrlParse(Strip(claimed)).path)| >= 1
    ensures var segs := Segments(UrlParse(Strip(claimed)).path);
            ExtractHandle(platform, claimed).handle ==
              if |segs| >= 2 && (segs[0] == "in" || segs[0] == "company")
              then CleanHandle(Some(segs[1])) else CleanHandle(Some(segs[0]))
  {
    var u := UrlParse(Strip(claimed));
    UrlBranch(platform, claimed);
    LinkedinHandle(Segments(u.path), u.query);
  }

  /** Neither email nor URL: a handle exactly when the cleaned claim
      matches the handle pattern, otherwise other with no handle. */
  lemma HandleOrOtherRule(platform: Option<string>, claimed: string)
    requires !IsEmail(Strip(claimed)) && !IsHttpUrl(Strip(claimed))
    ensures var h := CleanHandle(Some(Strip(claimed)));
            var r := ExtractHandle(platform, claimed);
            (r.kind == HandleClaim <==> h.Some? && MatchesHandleRe(h.value))
            && (r.kind == HandleClaim ==> r.handle == h)
            && (r.kind != HandleClaim ==> r.kind == OtherClaim && r.handle.None?)
  {
  }
}

=== FILE: platform_rendering.dfy ===
/** Which platform string reaches the platform rules. The evidence
    collector stores `str(platform)` (agent/tools/build_per_identity.py,
    line 36), which for this `str`-mixin enumeration is `"Platform.FACEBOOK"`
    and not the keyword `"facebook"` the rules of `extract_handle` and
    `clean_display_name` are written against. */
module PlatformRendering {
  import opened Wrappers
  import opened Text
  import opened Platforms
  import opened Urls
  import opened PlatformParse
  import NameClean

  /** The platform keys some rule of `extract_handle` or of the label
      table of `clean_display_name` mentions. */
  predicate RuleKey(k: string) {
    k == "linkedin" || k == "github" || k == "instagram" || k == "x"
    || k == "twitter" || k == "facebook"
  }

  /** As stored: the rendered name matches no rule, so the platform-aware
      rules never fire and no label is listed for the name cleaner. */
  lemma RenderedMatchesNoRule(p: Platform)
    ensures PlatformKey(Some(Rendered(p))).Some?
    ensures !RuleKey(PlatformKey(Some(Rendered(p))).value)
    ensures NameClean.PlatformTokens(Rendered(p)) == []
  {
    var s := Rendered(p);
    assert |s| >= 10;
    assert |LowerStr(s)| >= 10;
  }

  /** As stored, every URL claim yields its first path segment as the
      handle, whatever the platform: a Facebook `profile.php?id=...` link
      yields `profile.php` instead of the `id` value that
      `FacebookProfileRule` gives under the keyword. */
  lemma RenderedUrlFirstSegment(p: Platform, claimed: string)
    requires !IsEmail(Strip(claimed)) && IsHttpUrl(Strip(claimed))
    requires |Segments(UrlParse(Strip(claimed)).path)| >= 1
    ensures var segs := Segments(UrlParse(Strip(claimed)).path);
            ExtractHandle(Some(Rendered(p)), claimed).handle == CleanHandle(Some(segs[0]))
  {
    RenderedMatchesNoRule(p);
    UrlBranch(Some(Rendered(p)), claimed);
    NoRuleAnyPath(PlatformKey(Some(Rendered(p))).value);
  }

  /** A key no rule mentions selects the fallback rule. */
  lemma NoRuleAnyPath(k: string)
    requires !RuleKey(k)
    ensures PathRuleOf(Some(k)) == AnyPath
  {
  }

  /** As stored, a trailing platform label is never removed from a
      display name: the cleaner behaves as for an unknown platform. */
  lemma RenderedKeepsLabels(p: Platform, raw: Option<string>)
    ensures NameClean.CleanDisplayName(raw, Rendered(p)) == NameClean.CleanDisplayName(raw, "")
  {
    RenderedMatchesNoRule(p);
    NameClean.NoTokensNoRemoval(raw, Rendered(p));
  }

  /** The platform string the collector stores, as written:
      `str(platform)`. */
  function CollectedPlatformAsWritten(p: Platform): (s: string)
    ensures PlatformKey(Some(s)).Some? && !RuleKey(PlatformKey(Some(s)).value)
    ensures NameClean.PlatformTokens(s) == []
  {
    RenderedMatchesNoRule(p);
    Rendered(p)
  }

  /** The platform string the collector evidently means to store: the
      enumeration's value. It reaches the rules unchanged, and every
      platform with a label table lists its own keyword. */
  function CollectedPlatform(p: Platform): (s: string)
    ensures PlatformKey(Some(s)) == Some(s)
    ensures p in {Facebook, Instagram, Github, Linkedin} ==> NameClean.PlatformTokens(s) == [s]
    ensures p == Facebook ==> RuleKey(s) && PlatformKey(Some(s)) == Some("facebook")
  {
    LowerStrNoUpper(Keyword(p));
    Keyword(p)
  }
}

=== FILE: platforms.dfy ===
/** The closed platform enumeration of the schema (`Platform(str, Enum)`). */
module Platforms {

  datatype Platform =
    | Facebook | Instagram | X | Linkedin | Github | Tiktok | Youtube
    | Snapchat | Discord | Telegram | Email | Website | Other

  /** The enumeration value, e.g. `"facebook"`: the keyword every platform
      rule of the pipeline is written against. */
  function Keyword(p: Platform): string {
    match p
    case Facebook => "facebook"
    case Instagram => "instagram"
    case X => "x"
    case Linkedin => "linkedin"
    case Github => "github"
    case Tiktok => "tiktok"
    case Youtube => "youtube"
    case Snapchat => "snapchat"
    case Discord => "discord"
    case Telegram => "telegram"
    case Email => "email"
    case Website => "website"
    case Other => "other"
  }

  /** What `str(member)` renders for this mixed-in `str` enumeration,
      e.g. `"Platform.FACEBOOK"`: the form the evidence collector actually
      stores in the per-identity map. */
  function Rendered(p: Platform): string {
    "Platform." +
    match p
    case Facebook => "FACEBOOK"
    case Instagram => "INSTAGRAM"
    case X => "X"
    case Linkedin => "LINKEDIN"
    case Github => "GITHUB"
    case Tiktok => "TIKTOK"
    case Youtube => "YOUTUBE"
    case Snapchat => "SNAPCHAT"
    case Discord => "DISCORD"
    case Telegram => "TELEGRAM"
    case Email => "EMAIL"
    case Website => "WEBSITE"
    case Other => "OTHER"
  }

  /** Keywords identify platforms: no two members share one. */
  lemma KeywordInjective(p: Platform, q: Platform)
    ensures Keyword(p) == Keyword(q) <==> p == q
  {
  }
}

=== FILE: reason_fold.dfy ===
/** The shape both scorers share: a fixed list of checks run in order, each
    adding its weight to a running risk and appending its reason when its
    condition holds (`risk += w; reasons.append(...)`). The condition,
    weight and reason of a check are parameters. */
module ReasonFold {
  import opened Evidence

  /** The reason of a check carries that check's code. */
  predicate Labels(explain: ReasonCode -> Reason) {
    forall c :: explain(c).code == c
  }

  /** The running risk after the checks `cs`. */
  function Accumulate(fires: ReasonCode -> bool, weight: ReasonCode -> real, cs: seq<ReasonCode>, risk: real): real
    decreases |cs|
  {
    if cs == [] then risk
    else Accumulate(fires, weight, cs[1..], if fires(cs[0]) then risk + weight(cs[0]) else risk)
  }

  /** The reasons appended by the checks `cs`. */
  function Collect(fires: ReasonCode -> bool, explain: ReasonCode -> Reason, cs: seq<ReasonCode>): (rs: seq<Reason>)
    requires Labels(explain)
    ensures |rs| <= |cs|
    ensures forall k :: 0 <= k < |rs| ==> rs[k].code in cs && fires(rs[k].code) && rs[k] == explain(rs[k].code)
    decreases |cs|
  {
    if cs == [] then []
    else (if fires(cs[0]) then [explain(cs[0])] else []) + Collect(fires, explain, cs[1..])
  }

  /** The sum of `f` over the reasons `rs`. */
  function SumBy(f: Reason -> real, rs: seq<Reason>): real
    decreases |rs|
  {
    if rs == [] then 0.0 else f(rs[0]) + SumBy(f, rs[1..])
  }

  /** The sum of `f` over the codes `cs`. */
  function SumOf(f: ReasonCode -> real, cs: seq<ReasonCode>): real
    decreases |cs|
  {
    if cs == [] then 0.0 else f(cs[0]) + SumOf(f, cs[1..])
  }

  /** Codes below `n` in `rank`, strictly increasing: each code at most
      once, in check order. */
  predicate InRankOrder(rank: ReasonCode -> nat, n: nat, rs: seq<Reason>) {
    && (forall k :: 0 <= k < |rs| ==> rank(rs[k].code) < n)
    && (forall a, b :: 0 <= a < b < |rs| ==> rank(rs[a].code) < rank(rs[b].code))
  }

  /** When `inc` reads a fired check's weight back from its reason, the
      risk is the start value plus the increments of the reasons. */
  lemma {:induction false} AccumulateExplained(
    fires: ReasonCode -> bool, weight: ReasonCode -> real, explain: ReasonCode -> Reason,
    inc: Reason -> real, cs: seq<ReasonCode>, risk: real)
    requires Labels(explain)
    requires forall c :: fires(c) ==> inc(explain(c)) == weight(c)
    ensures Accumulate(fires, weight, cs, risk) == risk + SumBy(inc, Collect(fires, explain, cs))
    decreases |cs|
  {
    if cs != [] {
      var c := cs[0];
      var head := if fires(c) then [explain(c)] else [];
      var rest := Collect(fires, explain, cs[1..]);
      AccumulateExplained(fires, weight, explain, inc, cs[1..], if fires(c) then risk + weight(c) else risk);
      assert Collect(fires, explain, cs) == head + rest;
      if fires(c) {
        assert (head + rest)[1..] == rest;
      } else {
        assert head + rest == rest;
      }
    }
  }

  /** With every fired weight in `[lo, hi]` around 0, the risk stays
      between the start value plus the sums of `lo` and of `hi`. */
  lemma {:induction false} AccumulateBounds(
    fires: ReasonCode -> bool, weight: ReasonCode -> real, lo: ReasonCode -> real, hi: ReasonCode -> real,
    cs: seq<ReasonCode>, risk: real)
    requires forall c :: lo(c) <= 0.0 <= hi(c)
    requires forall c :: fires(c) ==> lo(c) <= weight(c) <= hi(c)
    ensures risk + SumOf(lo, cs) <= Accumulate(fires, weight, cs, risk) <= risk + SumOf(hi, cs)
    decreases |cs|
  {
    if cs != [] {
      AccumulateBounds(fires, weight, lo, hi, cs[1..], if fires(cs[0]) then risk + weight(cs[0]) else risk);
    }
  }

  /** Checks in increasing rank give reasons in increasing rank. */
  lemma {:induction false} CollectOrdered(
    fires: ReasonCode -> bool, explain: ReasonCode -> Reason, rank: ReasonCode -> nat, n: nat, cs: seq<ReasonCode>)
    requires Labels(explain)
    requires forall k :: 0 <= k < |cs| ==> rank(cs[k]) < n
    requires forall a, b :: 0 <= a < b < |cs| ==> rank(cs[a]) < rank(cs[b])
    ensures InRankOrder(rank, n, Collect(fires, explain, cs))
    decreases |cs|
  {
    if cs != [] {
      var c := cs[0];
      var rest := Collect(fires, explain, cs[1..]);
      CollectOrdered(fires, explain, rank, n, cs[1..]);
      forall k | 0 <= k < |rest| ensures rank(c) < rank(rest[k].code) {
        var j :| 0 <= j < |cs[1..]| && cs[1..][j] == rest[k].code;
        assert cs[j + 1] == rest[k].code;
      }
      if fires(c) {
        assert Collect(fires, explain, cs) == [explain(c)] + rest;
        PrependOrdered(rank, n, explain(c), rest);
      } else {
        assert Collect(fires, explain, cs) == rest;
      }
    }
  }

  /** A reason ranked below everything in an ordered list keeps it ordered. */
  lemma PrependOrdered(rank: ReasonCode -> nat, n: nat, r: Reason, rest: seq<Reason>)
    requires InRankOrder(rank, n, rest) && rank(r.code) < n
    requires forall k :: 0 <= k < |rest| ==> rank(r.code) < rank(rest[k].code)
    ensures InRankOrder(rank, n, [r] + rest)
  {
    var rs := [r] + rest;
    forall a, b | 0 <= a < b < |rs| ensures rank(rs[a].code) < rank(rs[b].code) {
      assert rs[b] == rest[b - 1];
      if a > 0 {
        assert rs[a] == rest[a - 1];
      }
    }
  }

  /** A checked code whose condition holds is collected. */
  lemma {:induction false} CollectFired(
    fires: ReasonCode -> bool, explain: ReasonCode -> Reason, cs: seq<ReasonCode>, c: ReasonCode)
    requires Labels(explain)
    requires c in cs && fires(c)
    ensures HasCode(Collect(fires, explain, cs), c)
    decreases |cs|
  {
    var rs := Collect(fires, explain, cs);
    if cs[0] == c {
      assert rs[0] == explain(c);
    } else {
      var rest := Collect(fires, explain, cs[1..]);
      CollectFired(fires, explain, cs[1..], c);
      var k :| 0 <= k < |rest| && rest[k].code == c;
      var head := if fires(cs[0]) then [explain(cs[0])] else [];
      assert rs == head + rest;
      assert rs[|head| + k] == rest[k];
    }
  }

  /** A code is collected exactly when it is checked and its condition
      holds. */
  lemma CollectHas(
    fires: ReasonCode -> bool, explain: ReasonCode -> Reason, cs: seq<ReasonCode>, c: ReasonCode)
    requires Labels(explain)
    ensures HasCode(Collect(fires, explain, cs), c) <==> c in cs && fires(c)
  {
    if c in cs && fires(c) {
      CollectFired(fires, explain, cs, c);
    }
  }
}

=== FILE: resolver.dfy ===
/** Resolving a claimed handle to a public profile URL
    (connectors/resolver.py), and how that URL parses back under the
    platform rules of `extract_handle`. */
module Resolver {
  import opened Wrappers
  import opened Text
  import opened Platforms
  import opened Urls
  import opened PlatformParse

  /** A profile URL pattern: the handle goes between `prefix` and
      `suffix`. */
  datatype UrlTemplate = UrlTemplate(prefix: string, suffix: string)

  /** The public profile URL pattern of a platform; the platforms whose
      profile URL is not guessed have none. */
  function Template(p: Platform): Option<UrlTemplate> {
    match p
    case X => Some(UrlTemplate("https://x.com/", ""))
    case Instagram => Some(UrlTemplate("https://www.instagram.com/", "/"))
    case Github => Some(UrlTemplate("https://github.com/", ""))
    case Tiktok => Some(UrlTemplate("https://www.tiktok.com/@", ""))
    case Youtube => Some(UrlTemplate("https://www.youtube.com/@", ""))
    case Linkedin => Some(UrlTemplate("https://www.linkedin.com/in/", "/"))
    case Facebook => Some(UrlTemplate("https://www.facebook.com/", ""))
    case _ => None
  }

  /** A claim that already is a URL: the prefix test is case-sensitive. */
  predicate IsUrlClaim(c: string) {
    StartsWith(c, "http://") || StartsWith(c, "https://")
  }

  /** The claim without one leading `@`. */
  function DropAt(c: string): (h: string)
    ensures |h| <= |c|
    ensures c != [] && c[0] == '@' ==> h == c[1..]
    ensures c == [] || c[0] != '@' ==> h == c
  {
    if StartsWith(c, "@") then c[1..] else c
  }

  /** Resolving under the pattern `t` of some platform. */
  function ResolveWith(t: Option<UrlTemplate>, claimed: Option<string>): (r: Option<string>)
    ensures var c := Strip(claimed.GetOr(""));
            IsUrlClaim(c) ==> r == Some(c)
    ensures var c := Strip(claimed.GetOr(""));
            !IsUrlClaim(c) ==> (r.None? <==> DropAt(c) == [] || t.None?)
    ensures var c := Strip(claimed.GetOr(""));
            !IsUrlClaim(c) && r.Some? ==> r.value == t.value.prefix + DropAt(c) + t.value.suffix
  {
    var c := Strip(claimed.GetOr(""));
    if IsUrlClaim(c) then Some(c)
    else
      var h := DropAt(c);
      if h == [] then None
      else match t
        case Some(t) => Some(t.prefix + h + t.suffix)
        case None => None
  }

  /** `resolve_to_url(platform, claimed)`. */
  function ResolveToUrl(p: Platform, claimed: Option<string>): (r: Option<string>)
    ensures var c := Strip(claimed.GetOr(""));
            IsUrlClaim(c) ==> r == Some(c)
    ensures var c := Strip(claimed.GetOr(""));
            !IsUrlClaim(c) ==> (r.None? <==> DropAt(c) == [] || Template(p).None?)
    ensures var c := Strip(claimed.GetOr(""));
            !IsUrlClaim(c) && r.Some? ==>
              r.value == Template(p).value.prefix + DropAt(c) + Template(p).value.suffix
  {
    ResolveWith(Template(p), claimed)
  }

  // ---------------------------------------------------------------------
  // Properties of the resolver.

  /** The platforms without a profile pattern resolve only URL claims. */
  lemma NotGuessed(p: Platform, claimed: Option<string>)
    requires p in {Snapchat, Discord, Telegram, Email, Website, Other}
    ensures ResolveToUrl(p, claimed).Some? <==> IsUrlClaim(Strip(claimed.GetOr("")))
  {
  }

  /** An absent claim, a blank one and a lone `@` resolve to nothing. */
  lemma NothingToResolve(p: Platform, claimed: Option<string>)
    requires claimed.None? || Strip(claimed.value) == [] || Strip(claimed.value) == "@"
    ensures ResolveToUrl(p, claimed).None?
  {
    if claimed.Some? && Strip(claimed.value) == "@" {
      assert !StartsWith("@", "http://") && !StartsWith("@", "https://");
      assert DropAt("@") == [];
    } else {
      assert Strip(claimed.GetOr("")) == [];
    }
  }

  /** A stripped claim that is not a URL resolves to its handle placed in
      the pattern. */
  lemma ResolvedClaim(t: UrlTemplate, c: string, h: string)
    requires Strip(c) == c && !IsUrlClaim(c) && DropAt(c) == h && h != []
    ensures ResolveWith(Some(t), Some(c)) == Some(t.prefix + h + t.suffix)
  {
  }

  /** Only one `@` is dropped: `@@h` survives stripping, is not a URL
      claim, and resolves with `@h` in the pattern (`ResolvedClaim`). */
  lemma OneAtDropped(h: string)
    requires h != [] && !IsSpace(h[|h| - 1])
    ensures Strip("@@" + h) == "@@" + h && !IsUrlClaim("@@" + h) && DropAt("@@" + h) == "@" + h
  {
    var c := "@@" + h;
    assert c[|c| - 1] == h[|h| - 1];
    StripUnchanged(c);
    assert c[0] == '@' && c[1..] == "@" + h;
  }

  // ---------------------------------------------------------------------
  // Parsing a resolved URL.

  /** Characters that never change a URL's structure: the handle
      characters `[a-zA-Z0-9._-]`. */
  predicate Plain(s: string) {
    forall i :: 0 <= i < |s| ==> IsHandleChar(s[i])
  }

  /** A path of plain segments separated by `/`. */
  predicate PlainPath(s: string) {
    forall i :: 0 <= i < |s| ==> IsHandleChar(s[i]) || s[i] == '/'
  }

  lemma {:induction false} RemoveTabsNewlinesNone(s: string)
    requires forall i :: 0 <= i < |s| ==> !IsTabOrNewline(s[i])
    ensures RemoveTabsNewlines(s) == s
    decreases |s|
  {
    if s != [] {
      RemoveTabsNewlinesNone(s[1..]);
    }
  }

  /** A character with no effect on where the network location ends. */
  lemma LeadCountStops(host: string, path: string)
    requires Plain(host) && path != [] && path[0] == '/'
    ensures LeadCount(host + path, c => !IsNetlocDelimiter(c)) == |host|
  {
    var s := host + path;
    assert forall i :: 0 <= i < |host| ==> s[i] == host[i];
    assert s[|host|] == '/';
  }

  /** Without leading controls and without tabs or newlines, nothing is
      cleaned away. */
  lemma SanitizeClean(u: string)
    requires u != [] && u[0] > ' '
    requires forall i :: 0 <= i < |u| ==> !IsTabOrNewline(u[i])
    ensures Sanitize(u) == u
  {
    assert LeadCount(u, c => c <= ' ') == 0;
    RemoveTabsNewlinesNone(u);
  }

  /** The scheme of an `https://` URL. */
  lemma SplitHttps(t: string)
    ensures SplitScheme("https://" + t) == ("https", "//" + t)
  {
    var u := "https://" + t;
    assert forall i :: 0 <= i < 5 ==> u[i] != ':' && IsSchemeChar(u[i]);
    IndexOfAt(u, ':', 5);
    assert u[..5] == "https";
    LowerStrNoUpper("https");
    assert u[6..] == "//" + t;
  }

  /** A plain path has no fragment, query or parameters to cut. */
  lemma PlainPathUncut(path: string)
    requires PlainPath(path)
    ensures Before(Before(path, '#'), '?') == path
    ensures After(Before(path, '#'), '?') == []
    ensures DropParams(path) == path
  {
    assert '#' !in path && '?' !in path && ';' !in path by {
      forall i | 0 <= i < |path| ensures path[i] != '#' && path[i] != '?' && path[i] != ';' {
      }
    }
  }

  /** `urlparse` of `https://host/path` with plain parts. */
  lemma ParseHttps(host: string, path: string)
    requires Plain(host) && PlainPath(path) && path != [] && path[0] == '/'
    ensures UrlParse("https://" + host + path) == UrlParts("https", host, path, "")
  {
    var t := host + path;
    var u := "https://" + t;
    assert u == "https://" + host + path;
    HttpsNoTabs(host, path);
    SanitizeClean(u);
    SplitHttps(t);
    var rest := "//" + t;
    assert rest[2..] == t;
    LeadCountStops(host, path);
    assert t[..|host|] == host;
    assert t[|host|..] == path;
    PlainPathUncut(path);
    assert UsesParams("https");
  }

  lemma HttpsNoTabs(host: string, path: string)
    requires Plain(host) && PlainPath(path)
    ensures forall i :: 0 <= i < |"https://" + host + path| ==> !IsTabOrNewline(("https://" + host + path)[i])
  {
    var u := "https://" + host + path;
    forall i | 0 <= i < |u| ensures !IsTabOrNewline(u[i]) {
      if i >= 8 + |host| {
        assert u[i] == path[i - 8 - |host|];
      } else if i >= 8 {
        assert u[i] == host[i - 8];
      }
    }
  }

  /** Stripping the slashes around a middle part without end slashes. */
  lemma StripSlashes(m: string, t: string)
    requires m != [] && m[0] != '/' && m[|m| - 1] != '/'
    requires t == [] || t == "/"
    ensures StripChar("/" + m + t, '/') == m
  {
    var s := "/" + m + t;
    assert s[1] == m[0];
    var n := LeadCount(s, c => c == '/');
    assert n == 1;
    var d := DropWhile(s, c => c == '/');
    assert d == m + t;
    assert d[|m| - 1] == m[|m| - 1];
    var k := TrailCount(d, c => c == '/');
    assert k == |t|;
    assert d[..|d| - k] == m;
  }

  /** A plain part has no slash. */
  lemma PlainNoSlash(h: string)
    requires Plain(h)
    ensures '/' !in h
  {
    forall i | 0 <= i < |h| ensures h[i] != '/' {
    }
  }

  /** A plain handle is a single path segment. */
  lemma SplitPlain(h: string)
    requires Plain(h)
    ensures Split(h, '/') == [h]
  {
    PlainNoSlash(h);
  }

  /** The path segments of `/h` and `/h/`. */
  lemma SegmentsOfHandlePath(h: string, t: string)
    requires h != [] && Plain(h)
    requires t == [] || t == "/"
    ensures Segments("/" + h + t) == [h]
  {
    PlainNoSlash(h);
    assert h[0] != '/' && h[|h| - 1] != '/';
    StripSlashes(h, t);
    SplitPlain(h);
    assert [h][1..] == [];
    assert NonEmpty([h]) == [h];
  }

  lemma SplitIn(h: string)
    requires Plain(h)
    ensures Split("in/" + h, '/') == ["in", h]
  {
    var m := "in/" + h;
    IndexOfAt(m, '/', 2);
    assert m[..2] == "in";
    assert m[3..] == h;
    SplitPlain(h);
  }

  /** The path segments of `/in/h/`. */
  lemma SegmentsOfInPath(h: string)
    requires h != [] && Plain(h)
    ensures Segments("/in/" + h + "/") == ["in", h]
  {
    PlainNoSlash(h);
    var m := "in/" + h;
    assert m[0] != '/' && m[|m| - 1] == h[|h| - 1];
    assert "/in/" + h + "/" == "/" + m + "/";
    StripSlashes(m, "/");
    SplitIn(h);
    var parts := ["in", h];
    assert parts[1..] == [h] && [h][1..] == [];
    assert NonEmpty([h]) == [h];
    assert NonEmpty(parts) == ["in"] + NonEmpty([h]);
  }

  /** `extract_handle` of `https://host/path` with plain parts: a URL
      claim whose domain is the host and whose handle follows the path
      segments. */
  lemma ExtractFromHttps(kw: string, host: string, path: string)
    requires Plain(host) && PlainPath(path) && path != [] && path[0] == '/'
    ensures var r := ExtractHandle(Some(kw), "https://" + host + path);
            && r.kind == UrlClaim
            && r.domain == Some(LowerStr(host))
            && r.handle == UrlHandle(PlatformKey(Some(kw)), Segments(path), "")
  {
    HttpsClaim(host, path);
    ParseHttps(host, path);
  }

  /** `https://host/path` with plain parts survives stripping, is no
      email and is an http URL. */
  lemma HttpsClaim(host: string, path: string)
    requires Plain(host) && PlainPath(path) && path != [] && path[0] == '/'
    ensures var u := "https://" + host + path;
            Strip(u) == u && !IsEmail(u) && IsHttpUrl(u)
  {
    var u := "https://" + host + path;
    assert u[0] == 'h';
    assert u[|u| - 1] == path[|path| - 1];
    StripUnchanged(u);
    NoAtInHttps(host, path);
    assert !IsEmail(u);
    assert LowerStr(u)[..8] == "https://";
  }

  lemma NoAtInHttps(host: string, path: string)
    requires Plain(host) && PlainPath(path)
    ensures '@' !in "https://" + host + path
  {
    var u := "https://" + host + path;
    forall i | 0 <= i < |u| ensures u[i] != '@' {
      if i >= 8 + |host| {
        assert u[i] == path[i - 8 - |host|];
      } else if i >= 8 {
        assert u[i] == host[i - 8];
      }
    }
  }

  /** The four platforms whose profile path `extract_handle` reads
      back. */
  predicate ReadBack(p: Platform) {
    p == Github || p == X || p == Instagram || p == Linkedin
  }

  function ProfileHost(p: Platform): (host: string)
    requires ReadBack(p)
  {
    match p
    case Github => "github.com"
    case X => "x.com"
    case Instagram => "www.instagram.com"
    case Linkedin => "www.linkedin.com"
  }

  /** The path before the handle. */
  function ProfileLead(p: Platform): string
    requires ReadBack(p)
  {
    if p == Linkedin then "/in/" else "/"
  }

  /** The profile patterns of these platforms are
      `https://` + host + lead + handle + suffix. */
  lemma ProfileTemplate(p: Platform)
    requires ReadBack(p)
    ensures Template(p).Some?
    ensures Template(p).value.prefix == "https://" + ProfileHost(p) + ProfileLead(p)
    ensures Template(p).value.suffix == (if p == Github || p == X then "" else "/")
  {
    match p
    case Github => GithubPrefix();
    case X => XPrefix();
    case Instagram => InstagramPrefix();
    case Linkedin => LinkedinPrefix();
  }

  lemma GithubPrefix()
    ensures "https://github.com/" == "https://" + "github.com" + "/"
  {
  }

  lemma XPrefix()
    ensures "https://x.com/" == "https://" + "x.com" + "/"
  {
  }

  lemma InstagramPrefix()
    ensures "https://www.instagram.com/" == "https://" + "www.instagram.com" + "/"
  {
  }

  lemma LinkedinPrefix()
    ensures "https://www.linkedin.com/in/" == "https://" + "www.linkedin.com" + "/in/"
  {
  }

  lemma ProfileHostPlain(p: Platform)
    requires ReadBack(p)
    ensures Plain(ProfileHost(p))
  {
  }

  /** A plain handle is not a URL claim: `:` is not a handle character. */
  lemma PlainNotUrl(h: string)
    requires Plain(h)
    ensures !IsUrlClaim(h)
  {
    assert forall i :: 0 <= i < |h| ==> h[i] != ':';
    assert "http://"[4] == ':' && "https://"[5] == ':';
  }

  /** A plain handle survives stripping and has no `@` to drop. */
  lemma PlainClaim(h: string)
    requires h != [] && Plain(h)
    ensures Strip(h) == h && !IsUrlClaim(h) && DropAt(h) == h
  {
    assert !IsSpace(h[0]) && !IsSpace(h[|h| - 1]);
    StripUnchanged(h);
    PlainNotUrl(h);
  }

  /** So does the handle with one `@` in front, which is then dropped. */
  lemma AtPlainClaim(h: string)
    requires h != [] && Plain(h)
    ensures Strip("@" + h) == "@" + h && !IsUrlClaim("@" + h) && DropAt("@" + h) == h
  {
    var a := "@" + h;
    assert !IsSpace(h[|h| - 1]) && a[|a| - 1] == h[|h| - 1];
    StripUnchanged(a);
    assert a[1..] == h;
    assert a[0] == '@';
  }

  /** A plain handle, with or without one `@`, resolves to the pattern
      filled with that handle. */
  lemma ResolvedPlain(t: UrlTemplate, h: string)
    requires h != [] && Plain(h)
    ensures ResolveWith(Some(t), Some(h)) == Some(t.prefix + h + t.suffix)
    ensures ResolveWith(Some(t), Some("@" + h)) == ResolveWith(Some(t), Some(h))
  {
    PlainClaim(h);
    AtPlainClaim(h);
  }

  /** Regrouping a five-part concatenation. */
  lemma Regroup(a: string, b: string, c: string, d: string, e: string)
    ensures (a + b + c) + d + e == a + b + (c + d + e)
  {
  }

  /** The plain profile path of a handle. */
  function ProfilePath(p: Platform, h: string): string
    requires ReadBack(p)
  {
    ProfileLead(p) + h + (if p == Github || p == X then "" else "/")
  }

  lemma ProfilePathPlain(p: Platform, h: string)
    requires ReadBack(p)
    requires Plain(h)
    ensures PlainPath(ProfilePath(p, h)) && ProfilePath(p, h)[0] == '/'
  {
    var lead := ProfileLead(p);
    var path := ProfilePath(p, h);
    forall i | 0 <= i < |path| ensures IsHandleChar(path[i]) || path[i] == '/' {
      if |lead| <= i < |lead| + |h| {
        assert path[i] == h[i - |lead|];
      }
    }
  }

  /** The URL built for a plain handle on these platforms. */
  lemma ResolvedProfileUrl(p: Platform, h: string)
    requires ReadBack(p)
    requires h != [] && Plain(h)
    ensures ResolveToUrl(p, Some(h)) == Some("https://" + ProfileHost(p) + ProfilePath(p, h))
    ensures ResolveToUrl(p, Some("@" + h)) == ResolveToUrl(p, Some(h))
  {
    ProfileTemplate(p);
    var t := Template(p).value;
    ResolvedPlain(t, h);
    var suffix := if p == Github || p == X then "" else "/";
    Regroup("https://", ProfileHost(p), ProfileLead(p), h, suffix);
  }

  /** The platform key `extract_handle` records for these platforms is
      their keyword. */
  lemma ReadBackKey(p: Platform)
    requires ReadBack(p)
    ensures PlatformKey(Some(Keyword(p))) == Some(Keyword(p))
  {
    match p
    case Github => LowerStrNoUpper("github");
    case X => LowerStrNoUpper("x");
    case Instagram => LowerStrNoUpper("instagram");
    case Linkedin => LowerStrNoUpper("linkedin");
  }

  /** GitHub, X and Instagram take the first segment. */
  lemma FirstSegmentRule(key: string, segs: seq<string>)
    requires key == "github" || key == "x" || key == "instagram"
    requires |segs| >= 1
    ensures UrlHandle(Some(key), segs, "") == CleanHandle(Some(segs[0]))
  {
    assert |key| != |"linkedin"|;
    assert PathRuleOf(Some(key)) == UserPath;
  }

  /** A plain handle survives cleaning. */
  lemma CleanPlain(h: string)
    requires h != [] && Plain(h)
    ensures CleanHandle(Some(h)) == Some(h)
  {
    CleanHandlePlain(h);
  }

  /** LinkedIn takes the segment after `in`. */
  lemma InSegmentHandle(h: string)
    requires h != [] && Plain(h)
    ensures UrlHandle(Some("linkedin"), ["in", h], "") == Some(h)
  {
    CleanPlain(h);
  }

  /** The handle `extract_handle` reads from the profile path segments. */
  lemma ProfileSegmentsHandle(p: Platform, h: string)
    requires ReadBack(p)
    requires h != [] && Plain(h)
    ensures UrlHandle(PlatformKey(Some(Keyword(p))), Segments(ProfilePath(p, h)), "") == Some(h)
  {
    ReadBackKey(p);
    if p == Linkedin {
      SegmentsOfInPath(h);
      InSegmentHandle(h);
    } else if p == Instagram {
      SegmentsOfHandlePath(h, "/");
      FirstSegmentRule(Keyword(p), [h]);
      CleanPlain(h);
    } else {
      SegmentsOfHandlePath(h, "");
      assert "/" + h + "" == "/" + h;
      FirstSegmentRule(Keyword(p), [h]);
      CleanPlain(h);
    }
  }

  /** Round trip: `extract_handle` recovers a plain handle from the URL
      `resolve_to_url` builds for it on GitHub, X, Instagram and LinkedIn,
      with or without a leading `@`. */
  lemma ResolveExtractRoundTrip(p: Platform, h: string)
    requires ReadBack(p)
    requires h != [] && Plain(h)
    ensures ResolveToUrl(p, Some(h)).Some?
    ensures ResolveToUrl(p, Some("@" + h)) == ResolveToUrl(p, Some(h))
    ensures ExtractHandle(Some(Keyword(p)), ResolveToUrl(p, Some(h)).value).kind == UrlClaim
    ensures ExtractHandle(Some(Keyword(p)), ResolveToUrl(p, Some(h)).value).handle == Some(h)
  {
    ResolvedProfileUrl(p, h);
    ProfilePathPlain(p, h);
    ProfileHostPlain(p);
    ExtractFromHttps(Keyword(p), ProfileHost(p), ProfilePath(p, h));
    ProfileSegmentsHandle(p, h);
  }
}

=== FILE: risk_v2.dfy ===
/** The combined scorer `compute_risk_v2`: a set-level substitution risk
    from the graph metrics, an authenticity risk that is the strongest
    single-identity score, their maximum, and a confidence that reflects
    public coverage and collection errors, capped when a high authenticity
    risk rests on weak evidence. The per-identity map is the sequence of
    its entries in insertion order. */
module RiskV2 {
  import opened Evidence
  import opened ReasonFold
  import Single = SingleIdentityRisk

  /** The scorer's result record. */
  datatype RiskV2 = RiskV2(
    substitutionRisk: real,
    authenticityRisk: real,
    overallRisk: real,
    confidence: real,
    reasons: seq<Reason>)

  function Max(a: real, b: real): real { if a >= b then a else b }

  function Min(a: real, b: real): real { if a <= b then a else b }

  // ---------------------------------------------------------------------
  // A) Substitution risk
  // ---------------------------------------------------------------------

  /** The set-level checks, in the order the scorer runs them. */
  const SubCodes: seq<ReasonCode> :=
    [LowPublicCoverage, ConfusableIdentifiers, NameMismatchUnderConfusable,
     AvatarMismatchUnderConfusable, CrosslinkSupport]

  /** The position of a set-level code in `SubCodes`; 5 for the others. */
  function SubRank(c: ReasonCode): nat {
    match c
    case LowPublicCoverage => 0
    case ConfusableIdentifiers => 1
    case NameMismatchUnderConfusable => 2
    case AvatarMismatchUnderConfusable => 3
    case CrosslinkSupport => 4
    case _ => 5
  }

  /** Set-level codes only, each at most once, in check order. */
  predicate InSubOrder(rs: seq<Reason>) {
    InRankOrder(SubRank, 5, rs)
  }

  /** The metric condition behind a set-level code. */
  predicate SubFires(m: Metrics, c: ReasonCode) {
    match c
    case LowPublicCoverage => m.numIdentities > 1 && m.publicCoverage < 0.5
    case ConfusableIdentifiers => m.confusablePairs > 0
    case NameMismatchUnderConfusable => m.nameMismatchPairs > 0
    case AvatarMismatchUnderConfusable => m.avatarMismatchPairs > 0
    case CrosslinkSupport => m.crosslinkHits > 0
    case _ => false
  }

  /** The change a set-level code makes to the substitution risk; the
      crosslink support lowers it. */
  function SubWeight(c: ReasonCode): real {
    match c
    case LowPublicCoverage => 0.25
    case ConfusableIdentifiers => 0.30
    case NameMismatchUnderConfusable => 0.20
    case AvatarMismatchUnderConfusable => 0.20
    case CrosslinkSupport => -0.10
    case _ => 0.0
  }

  function Raise(c: ReasonCode): real { Max(SubWeight(c), 0.0) }

  function Lower(c: ReasonCode): real { Min(SubWeight(c), 0.0) }

  /** The reason record of a set-level code, with the metric it reports. */
  function SubExplain(m: Metrics, c: ReasonCode): (r: Reason)
    ensures r.code == c
  {
    match c
    case LowPublicCoverage => Reason(c, Score("public_coverage", m.publicCoverage))
    case ConfusableIdentifiers => Reason(c, Count("confusable_pairs", m.confusablePairs))
    case NameMismatchUnderConfusable => Reason(c, Count("name_mismatch_pairs", m.nameMismatchPairs))
    case AvatarMismatchUnderConfusable => Reason(c, Count("avatar_mismatch_pairs", m.avatarMismatchPairs))
    case _ => Reason(c, Count("crosslink_hits", m.crosslinkHits))
  }

  function SubFiresOf(m: Metrics): ReasonCode -> bool { c => SubFires(m, c) }

  function SubExplainOf(m: Metrics): (e: ReasonCode -> Reason)
    ensures Labels(e)
  {
    c => SubExplain(m, c)
  }

  /** The change a reason stands for, read from its code. */
  function ReasonWeight(r: Reason): real { SubWeight(r.code) }

  lemma SubCodesSums()
    ensures SumOf(Raise, SubCodes) == 0.95 && SumOf(Lower, SubCodes) == -0.10
  {
    var cs := SubCodes;
    assert cs[1..][1..][1..][1..][1..] == [];
  }

  /** The substitution risk before clamping, between 0.00 and 1.05. */
  function SubstitutionRaw(m: Metrics): (x: real)
    ensures 0.0 <= x <= 1.05
  {
    AccumulateBounds(SubFiresOf(m), SubWeight, Lower, Raise, SubCodes, 0.10);
    SubCodesSums();
    Accumulate(SubFiresOf(m), SubWeight, SubCodes, 0.10)
  }

  /** The set-level reasons, in check order. */
  function SubstitutionReasons(m: Metrics): (rs: seq<Reason>)
    ensures InSubOrder(rs)
  {
    CollectOrdered(SubFiresOf(m), SubExplainOf(m), SubRank, 5, SubCodes);
    Collect(SubFiresOf(m), SubExplainOf(m), SubCodes)
  }

  /** The clamped substitution risk is the base 0.10 plus the changes its
      reasons stand for, cut to at most 1. */
  lemma SubstitutionExplained(m: Metrics)
    ensures SubstitutionRaw(m) == 0.10 + SumBy(ReasonWeight, SubstitutionReasons(m))
    ensures Clamp01(SubstitutionRaw(m)) == Min(1.0, 0.10 + SumBy(ReasonWeight, SubstitutionReasons(m)))
  {
    AccumulateExplained(SubFiresOf(m), SubWeight, SubExplainOf(m), ReasonWeight, SubCodes, 0.10);
  }

  /** A set-level reason is present exactly when its metric condition
      holds; no other code is produced. */
  lemma SubstitutionReasonsIff(m: Metrics, c: ReasonCode)
    ensures HasCode(SubstitutionReasons(m), c) <==> SubFires(m, c)
  {
    CollectHas(SubFiresOf(m), SubExplainOf(m), SubCodes, c);
    if SubFires(m, c) {
      assert c == SubCodes[SubRank(c)];
    }
  }

  // ---------------------------------------------------------------------
  // B) Authenticity risk
  // ---------------------------------------------------------------------

  /** The scorer's loop over the single-identity results: a strictly larger
      score replaces the best one and its reasons. */
  function Strongest(ss: seq<Single.SingleIdentityRisk>, best: real, top: seq<Reason>): (real, seq<Reason>)
    decreases |ss|
  {
    if ss == [] then (best, top)
    else if ss[0].authenticityRisk > best then Strongest(ss[1..], ss[0].authenticityRisk, ss[0].reasons)
    else Strongest(ss[1..], best, top)
  }

  /** Reference: the largest score, or 0 when there is none. */
  function MaxAuth(ss: seq<Single.SingleIdentityRisk>): real
    decreases |ss|
  {
    if ss == [] then 0.0 else Max(ss[0].authenticityRisk, MaxAuth(ss[1..]))
  }

  /** The loop computes the maximum of its start value and the scores. */
  lemma {:induction false} StrongestIsMax(ss: seq<Single.SingleIdentityRisk>, best: real, top: seq<Reason>)
    requires 0.0 <= best
    ensures Strongest(ss, best, top).0 == Max(best, MaxAuth(ss))
    decreases |ss|
  {
    if ss != [] {
      var s := ss[0].authenticityRisk;
      StrongestIsMax(ss[1..], Max(best, s), if s > best then ss[0].reasons else top);
    }
  }

  /** The loop keeps the reasons of the FIRST identity that reaches the
      maximum, or the start reasons when no score exceeds the start
      value. */
  lemma {:induction false} StrongestFirst(ss: seq<Single.SingleIdentityRisk>, best: real, top: seq<Reason>)
    ensures var (a, t) := Strongest(ss, best, top);
            || (a == best && t == top && forall j :: 0 <= j < |ss| ==> ss[j].authenticityRisk <= best)
            || (exists k :: 0 <= k < |ss| && best < a == ss[k].authenticityRisk && t == ss[k].reasons
                  && (forall j :: 0 <= j < k ==> ss[j].authenticityRisk < a)
                  && (forall j :: 0 <= j < |ss| ==> ss[j].authenticityRisk <= a))
    decreases |ss|
  {
    if ss != [] {
      var s := ss[0];
      var rest := ss[1..];
      if s.authenticityRisk > best {
        StrongestFirst(rest, s.authenticityRisk, s.reasons);
        var (a, t) := Strongest(rest, s.authenticityRisk, s.reasons);
        if a == s.authenticityRisk && t == s.reasons && forall j :: 0 <= j < |rest| ==> rest[j].authenticityRisk <= s.authenticityRisk {
          assert forall j :: 0 <= j < |ss| ==> ss[j].authenticityRisk <= a by {
            forall j | 0 <= j < |ss| ensures ss[j].authenticityRisk <= a {
              if j > 0 { assert ss[j] == rest[j - 1]; }
            }
          }
          assert ss[0].authenticityRisk == a;
        } else {
          var k :| 0 <= k < |rest| && s.authenticityRisk < a == rest[k].authenticityRisk && t == rest[k].reasons
                  && (forall j :: 0 <= j < k ==> rest[j].authenticityRisk < a)
                  && (forall j :: 0 <= j < |rest| ==> rest[j].authenticityRisk <= a);
          assert ss[k + 1] == rest[k];
          forall j | 0 <= j < k + 1 ensures ss[j].authenticityRisk < a {
            if j > 0 { assert ss[j] == rest[j - 1]; }
          }
          forall j | 0 <= j < |ss| ensures ss[j].authenticityRisk <= a {
            if j > 0 { assert ss[j] == rest[j - 1]; }
          }
        }
      } else {
        StrongestFirst(rest, best, top);
        var (a, t) := Strongest(rest, best, top);
        if a == best && t == top && forall j :: 0 <= j < |rest| ==> rest[j].authenticityRisk <= best {
          forall j | 0 <= j < |ss| ensures ss[j].authenticityRisk <= best {
            if j > 0 { assert ss[j] == rest[j - 1]; }
          }
        } else {
          var k :| 0 <= k < |rest| && best < a == rest[k].authenticityRisk && t == rest[k].reasons
                  && (forall j :: 0 <= j < k ==> rest[j].authenticityRisk < a)
                  && (forall j :: 0 <= j < |rest| ==> rest[j].authenticityRisk <= a);
          assert ss[k + 1] == rest[k];
          forall j | 0 <= j < k + 1 ensures ss[j].authenticityRisk < a {
            if j > 0 { assert ss[j] == rest[j - 1]; }
          }
          forall j | 0 <= j < |ss| ensures ss[j].authenticityRisk <= a {
            if j > 0 { assert ss[j] == rest[j - 1]; }
          }
        }
      }
    }
  }

  /** Single-identity results as the single-identity scorer produces
      them: risks in `[0.10, 0.80]`, per-identity reasons in check order. */
  predicate ValidScores(ss: seq<Single.SingleIdentityRisk>) {
    forall k :: 0 <= k < |ss| ==>
      0.10 <= ss[k].authenticityRisk <= 0.80 && Single.InSingleOrder(ss[k].reasons)
  }

  /** The single-identity results of the entries, in order. */
  function Scores(items: seq<IdentityItem>): (ss: seq<Single.SingleIdentityRisk>)
    ensures |ss| == |items| && ValidScores(ss)
    ensures forall k :: 0 <= k < |ss| ==> ss[k] == Single.ScoreSingleIdentity(items[k])
  {
    seq(|items|, k requires 0 <= k < |items| => Single.ScoreSingleIdentity(items[k]))
  }

  /** Every single-identity score lies in `[0.10, 0.80]`, so the maximum
      lies in `[0, 0.80]`, and in `[0.10, 0.80]` when there is a score. */
  lemma {:induction false} MaxAuthBounds(ss: seq<Single.SingleIdentityRisk>)
    requires ValidScores(ss)
    ensures 0.0 <= MaxAuth(ss) <= 0.80
    ensures ss != [] ==> 0.10 <= MaxAuth(ss)
    decreases |ss|
  {
    if ss != [] {
      assert ValidScores(ss[1..]) by {
        forall k | 0 <= k < |ss[1..]| ensures 0.10 <= ss[1..][k].authenticityRisk <= 0.80 && Single.InSingleOrder(ss[1..][k].reasons) {
          assert ss[1..][k] == ss[k + 1];
        }
      }
      MaxAuthBounds(ss[1..]);
    }
  }

  /** The maximum bounds every score. */
  lemma {:induction false} MaxAuthUpper(ss: seq<Single.SingleIdentityRisk>)
    ensures forall k :: 0 <= k < |ss| ==> ss[k].authenticityRisk <= MaxAuth(ss)
    decreases |ss|
  {
    if ss != [] {
      MaxAuthUpper(ss[1..]);
      forall k | 0 <= k < |ss| ensures ss[k].authenticityRisk <= MaxAuth(ss) {
        if k > 0 { assert ss[k] == ss[1..][k - 1]; }
      }
    }
  }

  /** The authenticity risk and the reasons of the strongest identity. */
  function Authenticity(ss: seq<Single.SingleIdentityRisk>): (p: (real, seq<Reason>))
    requires ValidScores(ss)
    ensures 0.0 <= p.0 <= 0.80
    ensures p.0 == MaxAuth(ss)
    ensures Single.InSingleOrder(p.1)
  {
    StrongestIsMax(ss, 0.0, []);
    MaxAuthBounds(ss);
    StrongestFirst(ss, 0.0, []);
    var (a, t) := Strongest(ss, 0.0, []);
    (Clamp01(a), t)
  }

  // ---------------------------------------------------------------------
  // D) Confidence
  // ---------------------------------------------------------------------

  /** The number of entries with a non-empty error list. */
  function FetchErrors(items: seq<IdentityItem>): (n: nat)
    ensures n <= |items|
    ensures n == 0 <==> forall k :: 0 <= k < |items| ==> items[k].errors == []
    decreases |items|
  {
    if items == [] then 0
    else
      var rest := FetchErrors(items[1..]);
      assert forall k :: 1 <= k < |items| ==> items[k] == items[1..][k - 1];
      (if items[0].errors != [] then 1 else 0) + rest
  }

  /** The confidence before the cap: `0.40 + 0.50 * coverage` less
      `min(0.20, 0.05 * errors)`, which for a coverage in `[0, 1]` stays in
      `[0.20, 0.90]` without clamping. */
  function BaseConfidence(coverage: real, fetchErrors: nat): (c: real)
    ensures 0.0 <= c <= 1.0
    ensures 0.0 <= coverage <= 1.0 ==>
              c == 0.40 + 0.50 * coverage - Min(0.20, 0.05 * fetchErrors as real) && 0.20 <= c <= 0.90
  {
    var conf := 0.40 + 0.50 * coverage;
    var conf := if fetchErrors > 0 then conf - Min(0.20, 0.05 * fetchErrors as real) else conf;
    Clamp01(conf)
  }

  /** Reason codes that mark the evidence as weak. */
  predicate WeakEvidence(rs: seq<Reason>) {
    HasCode(rs, GenericPlatformBio) || HasCode(rs, NoBioLinkouts) || HasCode(rs, LowTrustSingleIdentitySignals)
  }

  /** The reasons after the set-level ones: the umbrella reason and up to
      three reasons of the strongest identity when its risk exceeds 0.25. */
  function AuthenticityReasons(auth: real, top: seq<Reason>): (rs: seq<Reason>)
    ensures auth > 0.25 ==> 1 <= |rs| <= 4 && rs[0].code == LowTrustSingleIdentitySignals
    ensures auth <= 0.25 ==> rs == []
  {
    if auth > 0.25 then
      [Reason(LowTrustSingleIdentitySignals, Score("authenticity_risk", auth))]
      + (if |top| <= 3 then top else top[..3])
    else []
  }

  // ---------------------------------------------------------------------
  // The scorer.
  // ---------------------------------------------------------------------

  /** The scorer over the metrics, the single-identity results and the
      number of entries with collection errors. */
  function Combine(m: Metrics, ss: seq<Single.SingleIdentityRisk>, fetchErrors: nat): (r: RiskV2)
    requires ValidScores(ss)
    ensures 0.0 <= r.substitutionRisk <= 1.0
    ensures 0.0 <= r.authenticityRisk <= 0.80
    ensures r.overallRisk == Max(r.substitutionRisk, r.authenticityRisk)
    ensures 0.0 <= r.confidence <= BaseConfidence(m.publicCoverage, fetchErrors)
    ensures r.confidence == if r.authenticityRisk >= 0.70
                            then Min(BaseConfidence(m.publicCoverage, fetchErrors), 0.75)
                            else BaseConfidence(m.publicCoverage, fetchErrors)
  {
    var sub := Clamp01(SubstitutionRaw(m));
    var (auth, top) := Authenticity(ss);
    var reasons := SubstitutionReasons(m) + AuthenticityReasons(auth, top);
    AuthenticityReasonsWeak(SubstitutionReasons(m), auth, top);
    var conf := BaseConfidence(m.publicCoverage, fetchErrors);
    var conf := if auth >= 0.70 && WeakEvidence(reasons) then Min(conf, 0.75) else conf;
    RiskV2(sub, auth, Max(sub, auth), conf, reasons)
  }

  /** `compute_risk_v2(graph_metrics, per_identity)`: both parts and the
      overall risk in `[0, 1]`, the overall risk their maximum, and the
      confidence never above the uncapped confidence. */
  function ComputeRiskV2(m: Metrics, items: seq<IdentityItem>): (r: RiskV2)
    ensures 0.0 <= r.substitutionRisk <= 1.0
    ensures 0.0 <= r.authenticityRisk <= 0.80
    ensures r.overallRisk == Max(r.substitutionRisk, r.authenticityRisk)
    ensures 0.0 <= r.confidence <= BaseConfidence(m.publicCoverage, FetchErrors(items))
    ensures r.confidence == if r.authenticityRisk >= 0.70
                            then Min(BaseConfidence(m.publicCoverage, FetchErrors(items)), 0.75)
                            else BaseConfidence(m.publicCoverage, FetchErrors(items))
  {
    Combine(m, Scores(items), FetchErrors(items))
  }

  /** Above 0.25 the umbrella reason is among the reasons, so the evidence
      counts as weak. */
  lemma AuthenticityReasonsWeak(sr: seq<Reason>, auth: real, top: seq<Reason>)
    ensures auth > 0.25 ==> WeakEvidence(sr + AuthenticityReasons(auth, top))
  {
    if auth > 0.25 {
      assert (sr + AuthenticityReasons(auth, top))[|sr|].code == LowTrustSingleIdentitySignals;
    }
  }

  /** The substitution risk is the base plus the changes its set-level
      reasons stand for, and those reasons open the reason list in check
      order. */
  lemma CombineSubstitution(m: Metrics, ss: seq<Single.SingleIdentityRisk>, e: nat)
    requires ValidScores(ss)
    ensures var r := Combine(m, ss, e);
            var sr := SubstitutionReasons(m);
            && |sr| <= |r.reasons|
            && r.reasons[..|sr|] == sr
            && r.substitutionRisk == Min(1.0, 0.10 + SumBy(ReasonWeight, sr))
  {
    SubstitutionExplained(m);
    var r := Combine(m, ss, e);
    var sr := SubstitutionReasons(m);
    var (auth, top) := Authenticity(ss);
    assert r.reasons == sr + AuthenticityReasons(auth, top);
  }

  /** The authenticity risk is the largest single-identity score (0 with
      none, at least 0.10 otherwise), and the overall risk bounds both
      parts. */
  lemma CombineAuthenticity(m: Metrics, ss: seq<Single.SingleIdentityRisk>, e: nat)
    requires ValidScores(ss)
    ensures var r := Combine(m, ss, e);
            && r.authenticityRisk == MaxAuth(ss)
            && (forall k :: 0 <= k < |ss| ==> ss[k].authenticityRisk <= r.authenticityRisk)
            && (ss == [] ==> r.authenticityRisk == 0.0)
            && (ss != [] ==> 0.10 <= r.authenticityRisk)
            && r.substitutionRisk <= r.overallRisk && r.authenticityRisk <= r.overallRisk
  {
    MaxAuthBounds(ss);
    MaxAuthUpper(ss);
  }

  /** The umbrella reason is present exactly when the authenticity risk
      exceeds 0.25; it then follows the set-level reasons and is followed
      by the first three reasons of the first identity with the largest
      score. */
  lemma CombineLowTrust(m: Metrics, ss: seq<Single.SingleIdentityRisk>, e: nat)
    requires ValidScores(ss)
    ensures var r := Combine(m, ss, e);
            HasCode(r.reasons, LowTrustSingleIdentitySignals) <==> r.authenticityRisk > 0.25
    ensures var r := Combine(m, ss, e);
            r.authenticityRisk > 0.25 ==>
              exists k :: 0 <= k < |ss|
                && ss[k].authenticityRisk == r.authenticityRisk
                && (forall j :: 0 <= j < k ==> ss[j].authenticityRisk < r.authenticityRisk)
                && r.reasons == SubstitutionReasons(m)
                                + [Reason(LowTrustSingleIdentitySignals, Score("authenticity_risk", r.authenticityRisk))]
                                + (if |ss[k].reasons| <= 3 then ss[k].reasons else ss[k].reasons[..3])
  {
    CombineUmbrella(m, ss, e);
    var sr := SubstitutionReasons(m);
    var (auth, top) := Authenticity(ss);
    if auth > 0.25 {
      CombineParts(m, ss, e);
      StrongestWitness(ss);
      var x := Reason(LowTrustSingleIdentitySignals, Score("authenticity_risk", auth));
      var t := if |top| <= 3 then top else top[..3];
      assert sr + ([x] + t) == sr + [x] + t;
    }
  }

  /** The umbrella reason is present exactly when the authenticity risk
      exceeds 0.25. */
  lemma CombineUmbrella(m: Metrics, ss: seq<Single.SingleIdentityRisk>, e: nat)
    requires ValidScores(ss)
    ensures var r := Combine(m, ss, e);
            HasCode(r.reasons, LowTrustSingleIdentitySignals) <==> r.authenticityRisk > 0.25
  {
    var (auth, top) := Authenticity(ss);
    CombineParts(m, ss, e);
    NoUmbrella(SubstitutionReasons(m), SubRank);
    UmbrellaIff(SubstitutionReasons(m), auth, top);
  }

  /** The result of `Combine` in terms of its parts. */
  lemma CombineParts(m: Metrics, ss: seq<Single.SingleIdentityRisk>, e: nat)
    requires ValidScores(ss)
    ensures var r := Combine(m, ss, e);
            var (auth, top) := Authenticity(ss);
            r.authenticityRisk == auth && r.reasons == SubstitutionReasons(m) + AuthenticityReasons(auth, top)
  {
  }

  /** After reasons without it, the umbrella reason is present exactly
      when the risk exceeds 0.25. */
  lemma UmbrellaIff(sr: seq<Reason>, auth: real, top: seq<Reason>)
    requires !HasCode(sr, LowTrustSingleIdentitySignals)
    ensures HasCode(sr + AuthenticityReasons(auth, top), LowTrustSingleIdentitySignals) <==> auth > 0.25
  {
    var rs := sr + AuthenticityReasons(auth, top);
    if auth > 0.25 {
      assert rs[|sr|].code == LowTrustSingleIdentitySignals;
    } else {
      assert rs == sr;
    }
  }

  /** A positive authenticity risk is the score of the first identity
      with the largest score, whose reasons it carries. */
  lemma StrongestWitness(ss: seq<Single.SingleIdentityRisk>)
    requires ValidScores(ss) && Authenticity(ss).0 > 0.0
    ensures var (auth, top) := Authenticity(ss);
            exists k :: 0 <= k < |ss|
              && ss[k].authenticityRisk == auth && top == ss[k].reasons
              && (forall j :: 0 <= j < k ==> ss[j].authenticityRisk < auth)
  {
    StrongestFirst(ss, 0.0, []);
    StrongestIsMax(ss, 0.0, []);
    MaxAuthBounds(ss);
  }

  /** Neither scorer's check list produces the umbrella code. */
  lemma NoUmbrella(rs: seq<Reason>, rank: ReasonCode -> nat)
    requires InRankOrder(rank, 5, rs)
    requires rank(LowTrustSingleIdentitySignals) == 5
    ensures !HasCode(rs, LowTrustSingleIdentitySignals)
  {
  }

  /** A high authenticity risk always brings the umbrella reason, so the
      cap applies: the confidence is at most 0.75. */
  lemma CombineCapsConfidence(m: Metrics, ss: seq<Single.SingleIdentityRisk>, e: nat)
    requires ValidScores(ss)
    ensures var r := Combine(m, ss, e);
            r.authenticityRisk >= 0.70 ==> r.confidence <= 0.75
  {
    var r := Combine(m, ss, e);
    if r.authenticityRisk >= 0.70 {
      CombineLowTrust(m, ss, e);
      assert WeakEvidence(r.reasons);
    }
  }

  /** More collection errors never raise the confidence, and more public
      coverage never lowers it. */
  lemma BaseConfidenceMonotone(cov1: real, cov2: real, e1: nat, e2: nat)
    requires cov1 <= cov2 && e2 <= e1
    ensures BaseConfidence(cov1, e1) <= BaseConfidence(cov2, e2)
  {
  }

  // ---------------------------------------------------------------------
  // The same facts about the entries.
  // ---------------------------------------------------------------------

  /** The authenticity risk is the largest single-identity score over the
      entries (`Scores(items)[k]` is `ScoreSingleIdentity(items[k])`). */
  lemma ComputeRiskV2Authenticity(m: Metrics, items: seq<IdentityItem>)
    ensures var r := ComputeRiskV2(m, items);
            var ss := Scores(items);
            && (forall k :: 0 <= k < |items| ==> ss[k].authenticityRisk <= r.authenticityRisk)
            && (items == [] ==> r.authenticityRisk == 0.0)
            && (items != [] ==> exists k :: 0 <= k < |items| && ss[k].authenticityRisk == r.authenticityRisk)
  {
    ScoresAuthenticity(m, Scores(items), FetchErrors(items));
  }

  /** The authenticity risk over scores is their maximum, attained by one
      of them. */
  lemma ScoresAuthenticity(m: Metrics, ss: seq<Single.SingleIdentityRisk>, e: nat)
    requires ValidScores(ss)
    ensures var r := Combine(m, ss, e);
            && (forall k :: 0 <= k < |ss| ==> ss[k].authenticityRisk <= r.authenticityRisk)
            && (ss == [] ==> r.authenticityRisk == 0.0)
            && (ss != [] ==> exists k :: 0 <= k < |ss| && ss[k].authenticityRisk == r.authenticityRisk)
  {
    CombineAuthenticity(m, ss, e);
    CombineParts(m, ss, e);
    if ss != [] {
      MaxAuthBounds(ss);
      StrongestWitness(ss);
    }
  }

  /** A high authenticity risk over the entries caps the confidence at
      0.75. */
  lemma ComputeRiskV2CapsConfidence(m: Metrics, items: seq<IdentityItem>)
    ensures var r := ComputeRiskV2(m, items);
            r.authenticityRisk >= 0.70 ==> r.confidence <= 0.75
  {
    CombineCapsConfidence(m, Scores(items), FetchErrors(items));
  }
}

=== FILE: seqs.dfy ===
/** Generic sequence facts: duplicate-freedom, first occurrence, the
    "first-seen unique" filter that the pipeline writes as a `seen`-set loop,
    and counting. */
module Seqs {

  predicate NoDup<T(==)>(s: seq<T>) {
    forall i, j :: 0 <= i < j < |s| ==> s[i] != s[j]
  }

  /** Position of the first occurrence of `x` in `s`. */
  function FirstIndex<T(==)>(s: seq<T>, x: T): (k: nat)
    requires x in s
    ensures k < |s| && s[k] == x
    ensures forall i :: 0 <= i < k ==> s[i] != x
  {
    if s[0] == x then 0 else 1 + FirstIndex(s[1..], x)
  }

  lemma FirstIndexOfPrefix<T>(s: seq<T>, x: T, y: T)
    requires y in s
    ensures FirstIndex(s + [x], y) == FirstIndex(s, y)
  {
    var t := s + [x];
    var k := FirstIndex(s, y);
    assert t[k] == y;
    var k' := FirstIndex(t, y);
    assert forall i :: 0 <= i < k ==> t[i] != y;
  }

  /** The elements of `s` in first-seen order, each once: the loop
      `for x in s: if x not in seen: out.append(x); seen.add(x)`. */
  function Dedup<T(==)>(s: seq<T>): (r: seq<T>)
    ensures forall i :: 0 <= i < |r| ==> r[i] in s
    ensures forall i :: 0 <= i < |s| ==> s[i] in r
    ensures NoDup(r)
    ensures |r| <= |s|
    ensures forall i, j :: 0 <= i < j < |r| ==> FirstIndex(s, r[i]) < FirstIndex(s, r[j])
    decreases |s|
  {
    if s == [] then []
    else
      var init := s[..|s| - 1];
      var x := s[|s| - 1];
      assert s == init + [x];
      var d := Dedup(init);
      forall y | y in init
        ensures FirstIndex(s, y) == FirstIndex(init, y)
      {
        FirstIndexOfPrefix(init, x, y);
      }
      if x in d then d
      else
        assert FirstIndex(s, x) == |init|;
        d + [x]
  }

  /** Every element of `r` occurs in `s`, and `r` lists them in the order
      of their first occurrence in `s`. */
  predicate FirstSeenOrder<T(==)>(r: seq<T>, s: seq<T>) {
    (forall k :: 0 <= k < |r| ==> r[k] in s) &&
    forall i, j :: 0 <= i < j < |r| && r[i] in s && r[j] in s ==> FirstIndex(s, r[i]) < FirstIndex(s, r[j])
  }

  /** The first-seen filter is the only duplicate-free listing of the
      elements of `s` in first-seen order. */
  lemma DedupUnique<T>(r: seq<T>, s: seq<T>)
    requires NoDup(r) && FirstSeenOrder(r, s)
    requires forall x :: x in s ==> x in r
    ensures r == Dedup(s)
  {
    var d := Dedup(s);
    assert forall x :: x in r <==> x in d;
    FirstSeenEqual(r, d, s);
  }

  /** Two duplicate-free listings of the same elements, both in first-seen
      order, are equal. */
  lemma {:induction false} FirstSeenEqual<T>(r: seq<T>, t: seq<T>, s: seq<T>)
    requires NoDup(r) && NoDup(t) && FirstSeenOrder(r, s) && FirstSeenOrder(t, s)
    requires forall x :: x in r <==> x in t
    ensures r == t
    decreases |r|
  {
    if r == [] {
      HeadIn(t);
    } else {
      assert t != [] by {
        assert r[0] in t;
      }
      var a, b := r[0], t[0];
      assert b in r && a in t;
      assert FirstIndex(s, a) <= FirstIndex(s, b) by {
        var k :| 0 <= k < |r| && r[k] == b;
      }
      assert FirstIndex(s, b) <= FirstIndex(s, a) by {
        var k :| 0 <= k < |t| && t[k] == a;
      }
      assert a == b;
      forall x ensures x in r[1..] <==> x in t[1..] {
        if x in r[1..] {
          var k :| 1 <= k < |r| && r[k] == x;
          assert x in t;
          var m :| 0 <= m < |t| && t[m] == x;
          assert m != 0;
          assert t[1..][m - 1] == x;
        }
        if x in t[1..] {
          var k :| 1 <= k < |t| && t[k] == x;
          assert x in r;
          var m :| 0 <= m < |r| && r[m] == x;
          assert m != 0;
          assert r[1..][m - 1] == x;
        }
      }
      FirstSeenTail(r, s);
      FirstSeenTail(t, s);
      FirstSeenEqual(r[1..], t[1..], s);
    }
  }

  lemma HeadIn<T>(t: seq<T>)
    ensures t == [] || t[0] in t
  {
  }

  lemma FirstSeenTail<T>(r: seq<T>, s: seq<T>)
    requires r != [] && NoDup(r) && FirstSeenOrder(r, s)
    ensures NoDup(r[1..]) && FirstSeenOrder(r[1..], s)
  {
  }

  /** Number of elements of `s` that satisfy `p`. */
  function CountWhere<T>(s: seq<T>, p: T -> bool): (n: nat)
    ensures n <= |s|
  {
    if s == [] then 0 else (if p(s[0]) then 1 else 0) + CountWhere(s[1..], p)
  }

  /** Counting is monotone in the predicate. */
  lemma {:induction false} CountWhereMono<T>(s: seq<T>, p: T -> bool, q: T -> bool)
    requires forall x :: x in s && p(x) ==> q(x)
    ensures CountWhere(s, p) <= CountWhere(s, q)
  {
    if s != [] {
      CountWhereMono(s[1..], p, q);
    }
  }

  /** Counting distributes over concatenation. */
  lemma {:induction false} CountWhereAppend<T>(s: seq<T>, t: seq<T>, p: T -> bool)
    ensures CountWhere(s + t, p) == CountWhere(s, p) + CountWhere(t, p)
  {
    if s == [] {
      assert s + t == t;
    } else {
      assert (s + t)[1..] == s[1..] + t;
      CountWhereAppend(s[1..], t, p);
    }
  }
}

=== FILE: similarity.dfy ===
/** Confusability scoring (pipeline/similarity.py): homoglyph folding,
    Levenshtein distance and the Indel-normalised similarity ratio. */
module Similarity {
  import opened Wrappers
  import opened Text

  /** One entry of the homoglyph map: the character a digit or symbol
      stands in for. */
  function Homoglyph(c: char): char {
    if c == '0' then 'o'
    else if c == '1' then 'l'
    else if c == '3' then 'e'
    else if c == '5' then 's'
    else if c == '7' then 't'
    else if c == '@' then 'a'
    else if c == '$' then 's'
    else c
  }

  predicate IsHomoglyphKey(c: char) {
    c == '0' || c == '1' || c == '3' || c == '5' || c == '7' || c == '@' || c == '$'
  }

  /** `normalize_identifier`: strip, lower-case, delete whitespace, then
      apply the homoglyph replacements one after another in map order. */
  function NormalizeIdentifier(s: string): string {
    var t := RemoveSpaces(LowerStr(Strip(s)));
    ReplaceChar(ReplaceChar(ReplaceChar(ReplaceChar(ReplaceChar(ReplaceChar(ReplaceChar(
      t, '0', 'o'), '1', 'l'), '3', 'e'), '5', 's'), '7', 't'), '@', 'a'), '$', 's')
  }

  /** The character a non-space input character contributes to the key. */
  function CanonChar(c: char): char {
    Homoglyph(Lower(c))
  }

  /** Reference definition of the normalised key: one folded character per
      non-whitespace input character, in order. */
  function Canon(s: string): (r: string)
    decreases |s|
  {
    if s == [] then []
    else if IsSpace(s[0]) then Canon(s[1..])
    else [CanonChar(s[0])] + Canon(s[1..])
  }

  /** The homoglyph replacement applied to every character. */
  function HomoglyphAll(t: string): (r: string) {
    seq(|t|, i requires 0 <= i < |t| => Homoglyph(t[i]))
  }

  lemma HomoglyphCons(c: char, t: string)
    ensures HomoglyphAll([c] + t) == [Homoglyph(c)] + HomoglyphAll(t)
  {
    var u := [c] + t;
    assert forall i :: 1 <= i < |u| ==> u[i] == t[i - 1];
  }

  lemma {:induction false} CanonOfRemoved(s: string)
    ensures Canon(s) == HomoglyphAll(RemoveSpaces(LowerStr(s)))
    decreases |s|
  {
    if s != [] {
      assert LowerStr(s)[1..] == LowerStr(s[1..]);
      assert LowerStr(s)[0] == Lower(s[0]);
      CanonOfRemoved(s[1..]);
      if !IsSpace(s[0]) {
        HomoglyphCons(Lower(s[0]), RemoveSpaces(LowerStr(s[1..])));
      }
    }
  }

  /** The pipeline's sequence of string rewrites computes the reference
      key: the replacements never feed each other because no replacement
      character is itself a key. */
  lemma NormalizeIsCanon(s: string)
    ensures NormalizeIdentifier(s) == Canon(s)
  {
    RemoveSpacesLowerStrip(s);
    CanonOfRemoved(s);
  }

  lemma {:induction false} CanonAppend(a: string, b: string)
    ensures Canon(a + b) == Canon(a) + Canon(b)
    decreases |a|
  {
    if a == [] {
      assert a + b == b;
    } else {
      assert (a + b)[0] == a[0];
      assert (a + b)[1..] == a[1..] + b;
      CanonAppend(a[1..], b);
    }
  }

  lemma {:induction false} CanonShape(s: string)
    ensures NoSpace(Canon(s)) && NoUpper(Canon(s))
    ensures forall i :: 0 <= i < |Canon(s)| ==> !IsHomoglyphKey(Canon(s)[i])
    ensures |Canon(s)| <= |s|
    decreases |s|
  {
    if s != [] {
      CanonShape(s[1..]);
    }
  }

  /** The key has no whitespace, no upper-case letter and none of the
      homoglyph keys `0 1 3 5 7 @ $`. */
  lemma NormalizeIdentifierShape(s: string)
    ensures NoSpace(NormalizeIdentifier(s))
    ensures NoUpper(NormalizeIdentifier(s))
    ensures forall i :: 0 <= i < |NormalizeIdentifier(s)| ==> !IsHomoglyphKey(NormalizeIdentifier(s)[i])
  {
    NormalizeIsCanon(s);
    CanonShape(s);
  }

  lemma {:induction false} CanonFixed(s: string)
    requires NoSpace(s) && NoUpper(s)
    requires forall i :: 0 <= i < |s| ==> !IsHomoglyphKey(s[i])
    ensures Canon(s) == s
    decreases |s|
  {
    if s != [] {
      CanonFixed(s[1..]);
    }
  }

  /** Normalising a key again changes nothing. */
  lemma NormalizeIdentifierIdempotent(s: string)
    ensures NormalizeIdentifier(NormalizeIdentifier(s)) == NormalizeIdentifier(s)
  {
    var k := NormalizeIdentifier(s);
    NormalizeIdentifierShape(s);
    NormalizeIsCanon(k);
    CanonFixed(k);
  }

  /** Two characters are interchangeable for the key: both whitespace, or
      both not and folding to the same character. */
  predicate SameKeyChar(c: char, d: char) {
    (IsSpace(c) && IsSpace(d)) || (!IsSpace(c) && !IsSpace(d) && CanonChar(c) == CanonChar(d))
  }

  lemma {:induction false} CanonPointwise(a: string, b: string)
    requires |a| == |b|
    requires forall i :: 0 <= i < |a| ==> SameKeyChar(a[i], b[i])
    ensures Canon(a) == Canon(b)
    decreases |a|
  {
    if a != [] {
      CanonPointwise(a[1..], b[1..]);
    }
  }

  lemma {:induction false} CanonOfSpaces(w: string)
    requires forall i :: 0 <= i < |w| ==> IsSpace(w[i])
    ensures Canon(w) == []
    decreases |w|
  {
    if w != [] {
      CanonOfSpaces(w[1..]);
    }
  }

  // ---------------------------------------------------------------------
  // Edit distance and the Indel similarity ratio.

  function Min3(x: nat, y: nat, z: nat): nat {
    if x <= y && x <= z then x else if y <= z then y else z
  }

  function Max(x: int, y: int): int { if x >= y then x else y }

  /** Levenshtein distance with unit costs (insert, delete, substitute). */
  function Lev(a: string, b: string): (r: nat)
    ensures r <= Max(|a|, |b|)
    ensures r == 0 <==> a == b
    decreases |a| + |b|
  {
    if |a| == 0 then |b|
    else if |b| == 0 then |a|
    else if a[0] == b[0] then
      assert a == b <==> a[1..] == b[1..];
      Lev(a[1..], b[1..])
    else
      assert a != b;
      1 + Min3(Lev(a[1..], b), Lev(a, b[1..]), Lev(a[1..], b[1..]))
  }

  /** Length of a longest common subsequence. */
  function Lcs(a: string, b: string): (r: nat)
    ensures r <= |a| && r <= |b|
    decreases |a| + |b|
  {
    if |a| == 0 || |b| == 0 then 0
    else if a[0] == b[0] then 1 + Lcs(a[1..], b[1..])
    else Max(Lcs(a[1..], b), Lcs(a, b[1..]))
  }

  lemma {:induction false} LevSymmetric(a: string, b: string)
    ensures Lev(a, b) == Lev(b, a)
    decreases |a| + |b|
  {
    if |a| > 0 && |b| > 0 {
      LevSymmetric(a[1..], b[1..]);
      if a[0] != b[0] {
        LevSymmetric(a[1..], b);
        LevSymmetric(a, b[1..]);
      }
    }
  }

  lemma {:induction false} LcsSymmetric(a: string, b: string)
    ensures Lcs(a, b) == Lcs(b, a)
    decreases |a| + |b|
  {
    if |a| > 0 && |b| > 0 {
      LcsSymmetric(a[1..], b[1..]);
      if a[0] != b[0] {
        LcsSymmetric(a[1..], b);
        LcsSymmetric(a, b[1..]);
      }
    }
  }

  lemma {:induction false} LcsSelf(a: string)
    ensures Lcs(a, a) == |a|
    decreases |a|
  {
    if |a| > 0 {
      LcsSelf(a[1..]);
    }
  }

  /** A common subsequence as long as both strings forces them equal. */
  lemma {:induction false} LcsFull(a: string, b: string)
    requires Lcs(a, b) == |a| == |b|
    ensures a == b
    decreases |a| + |b|
  {
    if |a| > 0 {
      if a[0] == b[0] {
        LcsFull(a[1..], b[1..]);
        assert a == [a[0]] + a[1..];
        assert b == [b[0]] + b[1..];
      } else {
        assert Lcs(a[1..], b) <= |a| - 1;
        assert Lcs(a, b[1..]) <= |b| - 1;
      }
    }
  }

  /** `fuzz.ratio / 100`: the normalised Indel similarity
      `2 * LCS / (|a| + |b|)`. */
  function Ratio(a: string, b: string): (r: real)
    requires |a| + |b| > 0
    ensures 0.0 <= r <= 1.0
  {
    FractionBound(2 * Lcs(a, b), |a| + |b|);
    (2 * Lcs(a, b)) as real / (|a| + |b|) as real
  }

  lemma FractionBound(x: int, n: int)
    requires 0 <= x <= n && n > 0
    ensures 0.0 <= x as real / n as real <= 1.0
  {
    var q := x as real / n as real;
    assert q * n as real == x as real;
  }

  lemma RatioOneIff(a: string, b: string)
    requires |a| + |b| > 0
    ensures Ratio(a, b) == 1.0 <==> a == b
  {
    FractionOne(2 * Lcs(a, b), |a| + |b|);
    if a == b {
      LcsSelf(a);
    }
    if 2 * Lcs(a, b) == |a| + |b| {
      LcsFull(a, b);
    }
  }

  lemma FractionOne(x: int, n: int)
    requires n > 0
    ensures x as real / n as real == 1.0 <==> x == n
  {
    var q := x as real / n as real;
    assert q * n as real == x as real;
  }

  datatype Confusion = Confusion(lev: Option<nat>, ratio: Option<real>)

  /** `confusability(a, b)`: both fields are None when either normalised
      key is empty; otherwise the Levenshtein distance and the ratio of the
      keys. */
  function Confusability(a: string, b: string): (r: Confusion)
    ensures r.lev.None? <==> (NormalizeIdentifier(a) == [] || NormalizeIdentifier(b) == [])
    ensures r.ratio.None? <==> r.lev.None?
    ensures r.ratio.Some? ==> 0.0 <= r.ratio.value <= 1.0
    ensures r.lev.Some? ==>
      r.lev.value <= Max(|NormalizeIdentifier(a)|, |NormalizeIdentifier(b)|)
  {
    var na, nb := NormalizeIdentifier(a), NormalizeIdentifier(b);
    if na == [] || nb == [] then Confusion(None, None)
    else Confusion(Some(Lev(na, nb)), Some(Ratio(na, nb)))
  }

  /** An empty identifier has no similarity to anything. */
  lemma ConfusabilityOfEmpty(a: string, b: string)
    requires a == []
    ensures Confusability(a, b).ratio.None?
  {
    NormalizeIsCanon(a);
  }

  /** Confusability does not depend on argument order. */
  lemma ConfusabilitySymmetric(a: string, b: string)
    ensures Confusability(a, b) == Confusability(b, a)
  {
    var na, nb := NormalizeIdentifier(a), NormalizeIdentifier(b);
    LevSymmetric(na, nb);
    LcsSymmetric(na, nb);
  }

  /** Distance 0 and ratio 1.0 exactly for equal (non-empty) keys. */
  lemma ConfusabilityIdentical(a: string, b: string)
    requires NormalizeIdentifier(a) != [] && NormalizeIdentifier(b) != []
    ensures Confusability(a, b).lev == Some(0) <==> NormalizeIdentifier(a) == NormalizeIdentifier(b)
    ensures Confusability(a, b).ratio == Some(1.0) <==> NormalizeIdentifier(a) == NormalizeIdentifier(b)
  {
    RatioOneIff(NormalizeIdentifier(a), NormalizeIdentifier(b));
  }

  /** Changing letters' case, whitespace characters, or a character for one
      that folds to the same key character leaves the result unchanged. */
  lemma ConfusabilityIgnoresKeyEquivalentChars(a: string, a': string, b: string)
    requires |a| == |a'|
    requires forall i :: 0 <= i < |a| ==> SameKeyChar(a[i], a'[i])
    ensures Confusability(a', b) == Confusability(a, b)
  {
    NormalizeIsCanon(a);
    NormalizeIsCanon(a');
    CanonPointwise(a, a');
  }

  /** Inserting a run of whitespace anywhere leaves the result unchanged. */
  lemma ConfusabilityIgnoresInsertedSpace(x: string, w: string, y: string, b: string)
    requires forall i :: 0 <= i < |w| ==> IsSpace(w[i])
    ensures Confusability(x + w + y, b) == Confusability(x + y, b)
  {
    var s1, s2 := x + w + y, x + y;
    assert Canon(s1) == Canon(s2) by {
      CanonAppend(x + w, y);
      CanonAppend(x, w);
      CanonAppend(x, y);
      CanonOfSpaces(w);
    }
    NormalizeIsCanon(s1);
    NormalizeIsCanon(s2);
    assert NormalizeIdentifier(s1) == NormalizeIdentifier(s2);
  }

  lemma ConfusabilityRatioOf(a: string, b: string, v: real)
    requires NormalizeIdentifier(a) != [] && NormalizeIdentifier(b) != []
    requires Ratio(NormalizeIdentifier(a), NormalizeIdentifier(b)) == v
    ensures Confusability(a, b).ratio == Some(v)
  {
  }

  lemma RatioOf(a: string, b: string, n: nat)
    requires |a| + |b| > 0 && Lcs(a, b) == n
    ensures Ratio(a, b) == (2 * n) as real / (|a| + |b|) as real
  {
  }

  lemma PlainKey(s: string)
    requires NoSpace(s) && NoUpper(s)
    requires forall i :: 0 <= i < |s| ==> !IsHomoglyphKey(s[i])
    ensures NormalizeIdentifier(s) == s
  {
    CanonFixed(s);
    NormalizeIsCanon(s);
  }

  lemma SwappedLettersLcs()
    ensures Lcs("john_doe", "jhon_doe") == 7
  {
    LcsSelf("n_doe");
    assert Lcs("n_doe", "on_doe") == 5;
    assert Lcs("hn_doe", "hon_doe") == 6;
    assert Lcs("hn_doe", "n_doe") == 5;
    assert Lcs("ohn_doe", "on_doe") == 6;
  }

  lemma RatioSevenOfEight(a: string, b: string)
    requires |a| == 8 && |b| == 8 && Lcs(a, b) == 7
    ensures Ratio(a, b) == 0.875
  {
    RatioOf(a, b, 7);
  }

  /** Identifiers whose keys are `john_doe` and `jhon_doe` (one adjacent
      swap, e.g. `John_D0e` against `jhon_doe`) share a common subsequence
      of 7 characters, so their ratio is 14/16 = 0.875: below the 0.92
      confusability threshold. */
  lemma SwappedLettersRatio(a: string, b: string)
    requires NormalizeIdentifier(a) == "john_doe" && NormalizeIdentifier(b) == "jhon_doe"
    ensures Confusability(a, b).ratio == Some(0.875)
  {
    SwappedLettersLcs();
    RatioSevenOfEight("john_doe", "jhon_doe");
    ConfusabilityRatioOf(a, b, 0.875);
  }

  /** `john_doe` is its own key. */
  lemma PlainKeyExample()
    ensures NormalizeIdentifier("john_doe") == "john_doe"
  {
    PlainKey("john_doe");
  }
}

=== FILE: single_identity_risk.dfy ===
/** The single-identity low-trust score (pipeline/single_identity_risk.py):
    a base of 0.10 plus fixed increments for weak evidence about one
    identity, each increment explained by one reason. */
module SingleIdentityRisk {
  import opened Wrappers
  import opened Text
  import opened Platforms
  import opened Evidence
  import opened ReasonFold

  // ---------------------------------------------------------------------
  // Platform normalisation.

  /** `_norm_platform`: the first platform keyword the lower-cased text
      contains, in the order facebook, instagram, linkedin, github, tiktok,
      youtube; `x` for `x`, `twitter` or anything containing `twitter`;
      otherwise the lower-cased text itself. */
  function NormPlatform(p: Option<string>): (r: string)
    ensures NoUpper(r)
  {
    var s := LowerStr(p.GetOr(""));
    if Contains(s, "facebook") then "facebook"
    else if Contains(s, "instagram") then "instagram"
    else if Contains(s, "linkedin") then "linkedin"
    else if Contains(s, "github") then "github"
    else if Contains(s, "tiktok") then "tiktok"
    else if Contains(s, "youtube") then "youtube"
    else if s == "x" || s == "twitter" || Contains(s, "twitter") then "x"
    else s
  }

  /** The platform normalises to `facebook` exactly when its lower-cased
      text mentions `facebook`. */
  lemma NormPlatformFacebookIff(p: Option<string>)
    ensures NormPlatform(p) == "facebook" <==> Contains(LowerStr(p.GetOr("")), "facebook")
  {
    var s := LowerStr(p.GetOr(""));
    if !Contains(s, "facebook") {
      assert s == "facebook" ==> StartsWith(s, "facebook");
      assert "linkedin" != "facebook" by { assert "linkedin"[0] != "facebook"[0]; }
    }
  }

  /** The lower-cased form of a rendered enumeration member. */
  lemma RenderedLower(p: Platform)
    ensures LowerStr(Rendered(p)) == "platform." + LowerStr(Rendered(p)[9..])
  {
    LowerStrAppend("Platform.", Rendered(p)[9..]);
    assert Rendered(p) == "Platform." + Rendered(p)[9..];
    assert LowerStr("Platform.") == "platform.";
  }

  /** The enumeration leak is undone for Facebook: `"Platform.FACEBOOK"`
      normalises to `facebook`, as does the keyword itself. */
  lemma NormPlatformFacebook()
    ensures NormPlatform(Some(Rendered(Facebook))) == "facebook"
    ensures NormPlatform(Some(Keyword(Facebook))) == "facebook"
  {
    RenderedLower(Facebook);
    assert LowerStr("FACEBOOK") == "facebook";
    ContainsInfix("platform.", "facebook", "");
    assert "platform." + "facebook" + "" == LowerStr(Rendered(Facebook));
    LowerStrNoUpper("facebook");
    ContainsInfix("", "facebook", "");
    assert "" + "facebook" + "" == "facebook";
  }

  // ---------------------------------------------------------------------
  // Bio and name signals.

  /** `_GENERIC_BIO_PATTERNS`. The long phrases are written in pieces so
      that their first and last characters are cheap to read off. */
  const GenericBioPatterns: seq<string> := [
    "is on facebook." + " join facebook" + " to connect with",
    "facebook gives" + " people the power" + " to share",
    "see instagram" + " photos and videos" + " from",
    "view",
    "profile",
    "on linkedin"]

  /** `_is_generic_bio`: blank, or containing a template phrase once
      stripped and lower-cased. */
  predicate IsGenericBio(bio: string) {
    var b := LowerStr(Strip(bio));
    b == [] || exists k :: 0 <= k < |GenericBioPatterns| && Contains(b, GenericBioPatterns[k])
  }

  /** A bio that is empty after stripping is generic. */
  lemma BlankBioIsGeneric(bio: string)
    requires Strip(bio) == []
    ensures IsGenericBio(bio)
  {
  }

  /** Each template phrase starts and ends with a letter. */
  lemma PatternEnds(k: nat)
    requires k < |GenericBioPatterns|
    ensures var pat := GenericBioPatterns[k];
            pat != [] && !IsSpace(pat[0]) && !IsSpace(pat[|pat| - 1])
  {
    var pat := GenericBioPatterns[k];
    if k == 0 {
      var a, b, c := "is on facebook.", " join facebook", " to connect with";
      assert pat == a + b + c;
      assert pat[0] == a[0] && pat[|pat| - 1] == c[|c| - 1];
    } else if k == 1 {
      var a, b, c := "facebook gives", " people the power", " to share";
      assert pat == a + b + c;
      assert pat[0] == a[0] && pat[|pat| - 1] == c[|c| - 1];
    } else if k == 2 {
      var a, b, c := "see instagram", " photos and videos", " from";
      assert pat == a + b + c;
      assert pat[0] == a[0] && pat[|pat| - 1] == c[|c| - 1];
    } else if k == 3 {
      assert pat[0] == 'v' && pat[|pat| - 1] == 'w';
    } else if k == 4 {
      assert pat[0] == 'p' && pat[|pat| - 1] == 'e';
    } else {
      assert pat[0] == 'o' && pat[|pat| - 1] == 'n';
    }
  }

  /** A bio containing a template phrase in any letter case is generic,
      whatever surrounds the phrase. */
  lemma TemplatePhraseIsGeneric(bio: string, pre: string, k: nat, post: string)
    requires k < |GenericBioPatterns|
    requires LowerStr(bio) == pre + GenericBioPatterns[k] + post
    ensures IsGenericBio(bio)
  {
    PatternEnds(k);
    LowerInfixSurvivesStrip(bio, pre, GenericBioPatterns[k], post);
  }

  /** The whitespace-separated tokens of a name: `re.sub(r"\s+", " ",
      name.strip()).split(" ")`, with no tokens for a blank name. */
  function NameTokens(name: string): (toks: seq<string>)
    ensures forall k :: 0 <= k < |toks| ==> ' ' !in toks[k]
  {
    var t := CollapseSpaces(Strip(name));
    if t == [] then [] else Split(t, ' ')
  }

  /** `_name_repetition_score`. */
  function NameRepetitionScore(name: string): (r: real)
    ensures r == 0.0 || r == 0.8 || r == 1.0
    ensures |NameTokens(name)| < 2 ==> r == 0.0
  {
    var toks := NameTokens(name);
    if |toks| < 2 then 0.0
    else if toks[0] == toks[1] then 1.0
    else if |toks| % 2 == 0 && toks[..|toks| / 2] == toks[|toks| / 2..] then 0.8
    else 0.0
  }

  /** Splitting at the first separator. */
  lemma SplitFirst(a: string, c: char, b: string)
    requires c !in a
    ensures Split(a + [c] + b, c) == [a] + Split(b, c)
  {
    var s := a + [c] + b;
    IndexOfAt(s, c, |a|);
    assert s[..|a|] == a && s[|a| + 1..] == b;
  }

  /** A string without the separator is one piece. */
  lemma SplitNone(a: string, c: char)
    requires c !in a
    ensures Split(a, c) == [a]
  {
  }

  /** A space-free word: a single token. */
  predicate Word(w: string) {
    w != [] && NoSpace(w)
  }

  /** Words joined by single spaces are already stripped and collapsed. */
  lemma JoinedTokens(ws: seq<string>)
    requires |ws| >= 1 && forall k :: 0 <= k < |ws| ==> Word(ws[k])
    ensures NameTokens(Join(ws)) == ws
  {
    var s := Join(ws);
    JoinShape(ws);
    StripUnchanged(s);
    CollapseSingleSpaced(s);
    JoinSplit(ws);
  }

  /** `" ".join(ws)`. */
  function Join(ws: seq<string>): string
    decreases |ws|
  {
    if ws == [] then [] else if |ws| == 1 then ws[0] else ws[0] + " " + Join(ws[1..])
  }

  lemma {:induction false} JoinShape(ws: seq<string>)
    requires |ws| >= 1 && forall k :: 0 <= k < |ws| ==> Word(ws[k])
    ensures var s := Join(ws);
            s != [] && !IsSpace(s[0]) && !IsSpace(s[|s| - 1]) && SingleSpaced(s)
    decreases |ws|
  {
    var s := Join(ws);
    if |ws| == 1 {
      assert s == ws[0];
    } else {
      var w := ws[0];
      var rest := Join(ws[1..]);
      JoinShape(ws[1..]);
      assert s == w + " " + rest;
      assert s[0] == w[0];
      assert s[|s| - 1] == rest[|rest| - 1];
      forall i | 0 <= i < |s| && IsSpace(s[i]) ensures s[i] == ' ' {
        if i > |w| {
          assert s[i] == rest[i - |w| - 1];
        }
      }
      forall i | 0 <= i < |s| - 1 ensures !(IsSpace(s[i]) && IsSpace(s[i + 1])) {
        if i + 1 < |w| {
          assert s[i] == w[i] && s[i + 1] == w[i + 1];
        } else if i + 1 == |w| {
          assert s[i] == w[i];
        } else if i == |w| {
          assert s[i + 1] == rest[0];
        } else {
          assert s[i] == rest[i - |w| - 1] && s[i + 1] == rest[i - |w|];
        }
      }
    }
  }

  lemma {:induction false} JoinSplit(ws: seq<string>)
    requires |ws| >= 1 && forall k :: 0 <= k < |ws| ==> Word(ws[k])
    ensures Split(Join(ws), ' ') == ws
    decreases |ws|
  {
    var w := ws[0];
    assert IsSpace(' ');
    assert ' ' !in w;
    if |ws| == 1 {
      SplitNone(w, ' ');
    } else {
      JoinSplit(ws[1..]);
      assert Join(ws) == w + [' '] + Join(ws[1..]);
      SplitFirst(w, ' ', Join(ws[1..]));
      assert ws == [w] + ws[1..];
    }
  }

  /** `"X X"` scores 1.0, whatever follows. */
  lemma ImmediateRepetitionScore(ws: seq<string>)
    requires |ws| >= 2 && forall k :: 0 <= k < |ws| ==> Word(ws[k])
    requires ws[0] == ws[1]
    ensures NameRepetitionScore(Join(ws)) == 1.0
  {
    JoinedTokens(ws);
  }

  /** `"A B A B"`: an even token list whose halves agree, without an
      immediate repetition, scores 0.8. */
  lemma HalvesRepetitionScore(ws: seq<string>)
    requires |ws| >= 2 && forall k :: 0 <= k < |ws| ==> Word(ws[k])
    requires ws[0] != ws[1] && |ws| % 2 == 0 && ws[..|ws| / 2] == ws[|ws| / 2..]
    ensures NameRepetitionScore(Join(ws)) == 0.8
  {
    JoinedTokens(ws);
  }

  /** A name of distinct tokens, or of an odd number of them, without an
      immediate repetition, scores 0. */
  lemma NoRepetitionScore(ws: seq<string>)
    requires |ws| >= 1 && forall k :: 0 <= k < |ws| ==> Word(ws[k])
    requires |ws| >= 2 ==> ws[0] != ws[1]
    requires |ws| % 2 == 1 || ws[..|ws| / 2] != ws[|ws| / 2..]
    ensures NameRepetitionScore(Join(ws)) == 0.0
  {
    JoinedTokens(ws);
  }

  // ---------------------------------------------------------------------
  // The score.

  /** `SingleIdentityRisk`. */
  datatype SingleIdentityRisk = SingleIdentityRisk(authenticityRisk: real, reasons: seq<Reason>)

  /** What the scorer reads from an entry: `public` (without the
      `public_evidence` fallback), falling back per field to the card,
      each stripped; external links from `public`, else from the entry. */
  datatype Observed = Observed(
    claimed: string, displayName: string, bio: string, avatarUrl: string, externalLinks: seq<string>)

  function ObservedOf(item: IdentityItem): (o: Observed)
    ensures Trimmed(o.displayName) && Trimmed(o.bio) && Trimmed(o.avatarUrl)
  {
    var pub := item.public;
    var ui := item.ui;
    var name := FirstNonEmpty(if pub.Some? then pub.value.displayName else None,
                              if ui.Some? then ui.value.displayName else None);
    var bio := FirstNonEmpty(if pub.Some? then pub.value.bio else None,
                             if ui.Some? then ui.value.snippet else None);
    var avatar := FirstNonEmpty(if pub.Some? then pub.value.avatarUrl else None,
                                if ui.Some? then ui.value.avatarUrl else None);
    var external :=
      if pub.Some? && pub.value.externalLinks != [] then pub.value.externalLinks
      else item.externalLinks.GetOr([]);
    Observed(item.claimed.GetOr(""), Strip(name), Strip(bio), Strip(avatar), external)
  }

  predicate Blank(o: Option<seq<string>>) { o.None? || o.value == [] }

  /** The Facebook numeric-id signal. */
  predicate FacebookIdProfile(item: IdentityItem) {
    var claimed := item.claimed.GetOr("");
    NormPlatform(item.platform) == "facebook"
    && Contains(claimed, "profile.php") && Contains(claimed, "id=")
  }

  /** The no-linkout signal: from the structured link fields when either
      is present, else from the raw bio. */
  predicate NoLinkouts(item: IdentityItem, o: Observed) {
    if item.bioLinkDomains.Some? || item.bioLinkHandles.Some? then
      Blank(item.bioLinkDomains) && Blank(item.bioLinkHandles) && o.externalLinks == []
    else
      var lower := LowerStr(o.bio);
      !Contains(lower, "http://") && !Contains(lower, "https://") && '@' !in o.bio
      && o.externalLinks == []
  }

  /** The five signals the scorer checks, in order. */
  datatype Signals = Signals(
    facebookId: bool, genericBio: bool, repetition: real, noLinkouts: bool, missingAvatar: bool)

  function SignalsOf(item: IdentityItem): (g: Signals)
    ensures g.repetition == 0.0 || g.repetition == 0.8 || g.repetition == 1.0
  {
    var o := ObservedOf(item);
    Signals(FacebookIdProfile(item), IsGenericBio(o.bio), NameRepetitionScore(o.displayName),
            NoLinkouts(item, o), o.avatarUrl == [])
  }

  /** The per-identity codes in the order the scorer checks them. */
  const SingleCodes: seq<ReasonCode> :=
    [FacebookNumericIdProfile, GenericPlatformBio, RepeatedNameTokens, NoBioLinkouts, MissingAvatarUrl]

  /** A code's position in that order; 5 for the set-level codes. */
  function SingleRank(c: ReasonCode): nat {
    match c
    case FacebookNumericIdProfile => 0
    case GenericPlatformBio => 1
    case RepeatedNameTokens => 2
    case NoBioLinkouts => 3
    case MissingAvatarUrl => 4
    case _ => 5
  }

  /** Per-identity codes only, each at most once, in check order. */
  predicate InSingleOrder(rs: seq<Reason>) {
    InRankOrder(SingleRank, 5, rs)
  }

  /** The signal behind a code. */
  predicate Fires(g: Signals, c: ReasonCode) {
    match c
    case FacebookNumericIdProfile => g.facebookId
    case GenericPlatformBio => g.genericBio
    case RepeatedNameTokens => g.repetition > 0.0
    case NoBioLinkouts => g.noLinkouts
    case MissingAvatarUrl => g.missingAvatar
    case _ => false
  }

  /** The increment a fired code adds. */
  function Weight(g: Signals, c: ReasonCode): real {
    match c
    case FacebookNumericIdProfile => 0.20
    case GenericPlatformBio => 0.20
    case RepeatedNameTokens => 0.15 * g.repetition
    case NoBioLinkouts => 0.10
    case MissingAvatarUrl => 0.05
    case _ => 0.0
  }

  /** The largest increment a code can add. */
  function MaxWeight(c: ReasonCode): real {
    match c
    case FacebookNumericIdProfile => 0.20
    case GenericPlatformBio => 0.20
    case RepeatedNameTokens => 0.15
    case NoBioLinkouts => 0.10
    case MissingAvatarUrl => 0.05
    case _ => 0.0
  }

  function NoWeight(c: ReasonCode): real { 0.0 }

  /** The reason record of a per-identity code. */
  function Explain(c: ReasonCode, rep: real): (r: Reason)
    ensures r.code == c
  {
    match c
    case FacebookNumericIdProfile => Reason(c, Note("profile.php?id=... pattern"))
    case GenericPlatformBio => Reason(c, Note("bio looks like platform template / non-specific"))
    case RepeatedNameTokens => Reason(c, Score("repetition_score", rep))
    case NoBioLinkouts => Reason(c, Note("no URLs or @handles in bio"))
    case _ => Reason(c, Note("no avatar_url extracted"))
  }

  function FiresOf(g: Signals): ReasonCode -> bool { c => Fires(g, c) }

  function WeightOf(g: Signals): ReasonCode -> real { c => Weight(g, c) }

  function ExplainOf(g: Signals): (e: ReasonCode -> Reason)
    ensures Labels(e)
  {
    c => Explain(c, g.repetition)
  }

  /** The increment a reason stands for, read back from the reason alone:
      the repetition increment from the score in its detail. */
  function Increment(r: Reason): real {
    match r.code
    case RepeatedNameTokens => if r.detail.Score? then 0.15 * r.detail.value else 0.0
    case _ => MaxWeight(r.code)
  }

  function SumIncrements(rs: seq<Reason>): real {
    SumBy(Increment, rs)
  }

  /** Each fired code's reason gives its increment back. */
  lemma IncrementExplains(g: Signals)
    ensures forall c :: FiresOf(g)(c) ==> Increment(ExplainOf(g)(c)) == WeightOf(g)(c)
  {
  }

  /** The checks, in order. */
  function ReasonsFor(g: Signals): (rs: seq<Reason>)
    ensures InSingleOrder(rs)
  {
    CollectOrdered(FiresOf(g), ExplainOf(g), SingleRank, 5, SingleCodes);
    Collect(FiresOf(g), ExplainOf(g), SingleCodes)
  }

  lemma SumMaxSingle()
    ensures SumOf(MaxWeight, SingleCodes) == 0.70
    ensures SumOf(NoWeight, SingleCodes) == 0.0
  {
    var cs := SingleCodes;
    assert cs[1..][1..][1..][1..][1..] == [];
  }

  /** The summed increments, in `[0.10, 0.80]` for a repetition score in
      `[0, 1]`. */
  function RiskFor(g: Signals): (x: real)
    requires 0.0 <= g.repetition <= 1.0
    ensures 0.10 <= x <= 0.80
  {
    AccumulateBounds(FiresOf(g), WeightOf(g), NoWeight, MaxWeight, SingleCodes, 0.10);
    SumMaxSingle();
    Accumulate(FiresOf(g), WeightOf(g), SingleCodes, 0.10)
  }

  /** The score for given signals. */
  function ScoreOf(g: Signals): (r: SingleIdentityRisk)
    requires 0.0 <= g.repetition <= 1.0
    ensures 0.10 <= r.authenticityRisk <= 0.80
    ensures InSingleOrder(r.reasons)
    ensures r.authenticityRisk == 0.10 + SumIncrements(r.reasons)
  {
    IncrementExplains(g);
    AccumulateExplained(FiresOf(g), WeightOf(g), ExplainOf(g), Increment, SingleCodes, 0.10);
    SingleIdentityRisk(Clamp01(RiskFor(g)), ReasonsFor(g))
  }

  /** `score_single_identity(item)`: the risk is the base plus the
      increments its reasons stand for, in `[0.10, 0.80]`, and the reasons
      come in check order, each code at most once. */
  function ScoreSingleIdentity(item: IdentityItem): (r: SingleIdentityRisk)
    ensures 0.10 <= r.authenticityRisk <= 0.80
    ensures InSingleOrder(r.reasons)
    ensures r.authenticityRisk == 0.10 + SumIncrements(r.reasons)
  {
    ScoreOf(SignalsOf(item))
  }

  /** Each reason is present exactly when its signal holds; set-level
      codes never appear. */
  lemma ReasonsForIff(g: Signals, c: ReasonCode)
    ensures HasCode(ReasonsFor(g), c) <==> Fires(g, c)
  {
    CollectHas(FiresOf(g), ExplainOf(g), SingleCodes, c);
    if Fires(g, c) {
      assert c == SingleCodes[SingleRank(c)];
    }
  }

  /** The same, for the scorer's output on an item. */
  lemma ReasonsIff(item: IdentityItem, c: ReasonCode)
    ensures HasCode(ScoreSingleIdentity(item).reasons, c) <==> Fires(SignalsOf(item), c)
  {
    var g := SignalsOf(item);
    assert ScoreSingleIdentity(item) == ScoreOf(g);
    ReasonsForIff(g, c);
  }

  /** The Facebook signal needs a Facebook platform and both URL
      fragments in the claim; the enumeration leak does not hide it. */
  lemma FacebookSignalRendered(item: IdentityItem)
    requires item.platform == Some(Rendered(Facebook))
    ensures FacebookIdProfile(item) <==>
              Contains(item.claimed.GetOr(""), "profile.php") && Contains(item.claimed.GetOr(""), "id=")
  {
    NormPlatformFacebook();
  }
}

=== FILE: text.dfy ===
/** Character classes and string helpers with Python's meaning:
    `str.isspace`, `str.strip`, `str.lower` (ASCII letters only),
    `str.startswith`/`endswith`, the `in` substring test, `str.split` and
    `re.sub(r"\s+", ...)`. */
module Text {

  /** Python's `str.isspace()`, which is also what `\s` matches in a str
      pattern: ASCII tab..carriage return, the separators U+001C..U+001F,
      space, and the Unicode space characters. */
  predicate IsSpace(c: char) {
    || ('\t' <= c <= '\r')
    || ('\U{1c}' <= c <= ' ')
    || c == '\U{85}' || c == '\U{a0}' || c == '\U{1680}'
    || ('\U{2000}' <= c <= '\U{200a}')
    || c == '\U{2028}' || c == '\U{2029}' || c == '\U{202f}' || c == '\U{205f}'
    || c == '\U{3000}'
  }

  predicate IsUpper(c: char) { 'A' <= c <= 'Z' }

  predicate IsDigit(c: char) { '0' <= c <= '9' }

  /** ASCII lower-casing of one character. */
  function Lower(c: char): (r: char)
    ensures !IsUpper(r)
    ensures IsSpace(r) <==> IsSpace(c)
    ensures IsDigit(r) <==> IsDigit(c)
    ensures !IsUpper(c) ==> r == c
  {
    if IsUpper(c) then (c as int + 32) as char else c
  }

  function LowerStr(s: string): string {
    seq(|s|, i requires 0 <= i < |s| => Lower(s[i]))
  }

  predicate NoUpper(s: string) { forall i :: 0 <= i < |s| ==> !IsUpper(s[i]) }

  predicate NoSpace(s: string) { forall i :: 0 <= i < |s| ==> !IsSpace(s[i]) }

  /** Every character of `s` is whitespace. */
  predicate AllSpaces(s: string) { forall i :: 0 <= i < |s| ==> IsSpace(s[i]) }

  /** Python's `isdigit()` over ASCII digits: false for the empty string. */
  predicate AllDigits(s: string) {
    |s| > 0 && forall i :: 0 <= i < |s| ==> IsDigit(s[i])
  }

  /** `s` with every whitespace character deleted (`re.sub(r"\s+", "", s)`). */
  function RemoveSpaces(s: string): (r: string)
    ensures |r| <= |s|
    ensures NoSpace(r)
    ensures forall i :: 0 <= i < |r| ==> r[i] in s
  {
    if s == [] then []
    else if IsSpace(s[0]) then RemoveSpaces(s[1..])
    else [s[0]] + RemoveSpaces(s[1..])
  }

  /** Number of leading characters of `s` that satisfy `p`. */
  function LeadCount(s: string, p: char -> bool): (n: nat)
    ensures n <= |s|
    ensures n < |s| ==> !p(s[n])
    ensures forall i :: 0 <= i < n ==> p(s[i])
  {
    if |s| > 0 && p(s[0]) then 1 + LeadCount(s[1..], p) else 0
  }

  /** Number of trailing characters of `s` that satisfy `p`. */
  function TrailCount(s: string, p: char -> bool): (n: nat)
    ensures n <= |s|
    ensures n < |s| ==> !p(s[|s| - 1 - n])
    ensures forall i :: |s| - n <= i < |s| ==> p(s[i])
  {
    if |s| > 0 && p(s[|s| - 1]) then 1 + TrailCount(s[..|s| - 1], p) else 0
  }

  /** The suffix left after dropping leading characters that satisfy `p`. */
  function DropWhile(s: string, p: char -> bool): (r: string)
    ensures |r| <= |s|
    ensures r == [] || !p(r[0])
    ensures |r| < |s| ==> p(s[0])
  {
    s[LeadCount(s, p)..]
  }

  /** The prefix left after dropping trailing characters that satisfy `p`. */
  function DropWhileEnd(s: string, p: char -> bool): (r: string)
    ensures |r| <= |s|
    ensures r == [] || !p(r[|r| - 1])
  {
    s[..|s| - TrailCount(s, p)]
  }

  /** Neither end is whitespace: what `strip()` leaves. */
  predicate Trimmed(s: string) {
    s == [] || (!IsSpace(s[0]) && !IsSpace(s[|s| - 1]))
  }

  /** Python's `s.strip()`. */
  function Strip(s: string): (r: string)
    ensures |r| <= |s|
    ensures r == [] || (!IsSpace(r[0]) && !IsSpace(r[|r| - 1]))
  {
    DropWhileEnd(DropWhile(s, IsSpace), IsSpace)
  }

  /** Python's `s.strip(ch)` for a single character. */
  function StripChar(s: string, ch: char): (r: string)
    ensures |r| <= |s|
    ensures r == [] || (r[0] != ch && r[|r| - 1] != ch)
  {
    DropWhileEnd(DropWhile(s, c => c == ch), c => c == ch)
  }

  /** `re.sub(r"\s+", " ", s)`: every maximal run of whitespace becomes one
      plain space. */
  function CollapseSpaces(s: string): (r: string)
    ensures |r| <= |s|
    ensures forall i :: 0 <= i < |r| && IsSpace(r[i]) ==> r[i] == ' '
    ensures forall i :: 0 <= i < |r| - 1 ==> !(IsSpace(r[i]) && IsSpace(r[i + 1]))
    ensures forall c :: c in r && !IsSpace(c) ==> c in s
    decreases |s|
  {
    if s == [] then []
    else if IsSpace(s[0]) then
      var rest := DropWhile(s, IsSpace);
      [' '] + CollapseSpaces(rest)
    else [s[0]] + CollapseSpaces(s[1..])
  }

  /** What `re.sub(r"\s+", " ", s)` leaves: every whitespace character is
      a plain space and no two are adjacent. */
  predicate SingleSpaced(s: string) {
    && (forall i :: 0 <= i < |s| && IsSpace(s[i]) ==> s[i] == ' ')
    && (forall i :: 0 <= i < |s| - 1 ==> !(IsSpace(s[i]) && IsSpace(s[i + 1])))
  }

  /** Python's `s.startswith(p)`. */
  predicate StartsWith(s: string, p: string) {
    |p| <= |s| && s[..|p|] == p
  }

  /** Python's `s.endswith(p)`. */
  predicate EndsWith(s: string, p: string) {
    |p| <= |s| && s[|s| - |p|..] == p
  }

  /** Python's `sub in s`. */
  predicate Contains(s: string, sub: string)
    decreases |s|
  {
    StartsWith(s, sub) || (|s| > 0 && Contains(s[1..], sub))
  }

  /** Index of the first `c` in `s`, or `|s|` when there is none. */
  function IndexOf(s: string, c: char): (r: nat)
    ensures r <= |s|
    ensures r < |s| ==> s[r] == c
    ensures forall i :: 0 <= i < r ==> s[i] != c
    ensures r == |s| <==> c !in s
  {
    if s == [] then 0
    else if s[0] == c then 0
    else 1 + IndexOf(s[1..], c)
  }

  /** `s.split(c, 1)[0]`: the text before the first `c` (all of `s` without one). */
  function Before(s: string, c: char): (r: string)
    ensures c !in r
    ensures |r| <= |s| && r == s[..|r|]
  {
    s[..IndexOf(s, c)]
  }

  /** The text after the first `c`, or `""` when `s` has none. */
  function After(s: string, c: char): (r: string)
    ensures |r| <= |s|
  {
    var i := IndexOf(s, c);
    if i < |s| then s[i + 1..] else []
  }

  /** Python's `s.split(c)`: never empty, empty pieces kept. */
  function Split(s: string, c: char): (r: seq<string>)
    ensures |r| >= 1
    ensures forall k :: 0 <= k < |r| ==> c !in r[k]
    decreases |s|
  {
    var i := IndexOf(s, c);
    if i == |s| then [s] else [s[..i]] + Split(s[i + 1..], c)
  }

  /** Python's `s.replace(k, v)` for single characters. */
  function ReplaceChar(s: string, k: char, v: char): (r: string)
    ensures |r| == |s|
    ensures forall i :: 0 <= i < |s| ==> r[i] == (if s[i] == k then v else s[i])
  {
    seq(|s|, i requires 0 <= i < |s| => if s[i] == k then v else s[i])
  }

  lemma ReplaceAbsent(s: string, k: char, v: char)
    requires k !in s
    ensures ReplaceChar(s, k, v) == s
  {
  }

  // ---------------------------------------------------------------------
  // Facts about the helpers.

  lemma {:induction false} RemoveSpacesAppend(a: string, b: string)
    ensures RemoveSpaces(a + b) == RemoveSpaces(a) + RemoveSpaces(b)
  {
    if a == [] {
      assert a + b == b;
    } else {
      assert (a + b)[0] == a[0];
      assert (a + b)[1..] == a[1..] + b;
      RemoveSpacesAppend(a[1..], b);
    }
  }

  lemma {:induction false} RemoveSpacesOfSpaces(a: string)
    requires AllSpaces(a)
    ensures RemoveSpaces(a) == []
  {
    if a != [] {
      RemoveSpacesOfSpaces(a[1..]);
    }
  }

  lemma {:induction false} RemoveSpacesNoSpace(a: string)
    requires NoSpace(a)
    ensures RemoveSpaces(a) == a
  {
    if a != [] {
      RemoveSpacesNoSpace(a[1..]);
    }
  }

  /** Stripping first changes nothing once all whitespace is deleted. */
  lemma RemoveSpacesLowerStrip(s: string)
    ensures RemoveSpaces(LowerStr(Strip(s))) == RemoveSpaces(LowerStr(s))
  {
    var lo, hi := StripSlice(s);
    LowerSlice(s, lo, hi);
    LowerSameSpaces(s);
    SpacesBefore(LowerStr(s), lo);
    SpacesAfter(LowerStr(s), hi);
    RemoveSpacesAroundSlice(LowerStr(s), lo, hi);
  }

  /** Whitespace around a slice is deleted anyway. */
  lemma RemoveSpacesAroundSlice(x: string, lo: nat, hi: nat)
    requires lo <= hi <= |x|
    requires AllSpaces(x[..lo]) && AllSpaces(x[hi..])
    ensures RemoveSpaces(x[lo..hi]) == RemoveSpaces(x)
  {
    assert x == (x[..lo] + x[lo..hi]) + x[hi..];
    RemoveSpacesSpaceSuffix(x[..lo] + x[lo..hi], x[hi..]);
    RemoveSpacesSpacePrefix(x[..lo], x[lo..hi]);
  }

  lemma SpacesBefore(x: string, lo: nat)
    requires lo <= |x|
    requires forall i :: 0 <= i < lo ==> IsSpace(x[i])
    ensures AllSpaces(x[..lo])
  {
  }

  lemma SpacesAfter(x: string, hi: nat)
    requires hi <= |x|
    requires forall i :: hi <= i < |x| ==> IsSpace(x[i])
    ensures AllSpaces(x[hi..])
  {
    forall i | 0 <= i < |x| - hi ensures IsSpace(x[hi..][i]) {
      assert x[hi..][i] == x[hi + i];
    }
  }

  lemma RemoveSpacesSpacePrefix(pre: string, y: string)
    requires AllSpaces(pre)
    ensures RemoveSpaces(pre + y) == RemoveSpaces(y)
  {
    RemoveSpacesAppend(pre, y);
    RemoveSpacesOfSpaces(pre);
  }

  lemma RemoveSpacesSpaceSuffix(y: string, post: string)
    requires AllSpaces(post)
    ensures RemoveSpaces(y + post) == RemoveSpaces(y)
  {
    RemoveSpacesAppend(y, post);
    RemoveSpacesOfSpaces(post);
    assert RemoveSpaces(y) + [] == RemoveSpaces(y);
  }

  lemma LowerSlice(s: string, lo: nat, hi: nat)
    requires lo <= hi <= |s|
    ensures LowerStr(s[lo..hi]) == LowerStr(s)[lo..hi]
  {
  }

  /** A character that is not whitespace survives whitespace deletion, so
      the result is non-empty. */
  lemma {:induction false} RemoveSpacesKeeps(s: string, i: nat)
    requires i < |s| && !IsSpace(s[i])
    ensures RemoveSpaces(s) != []
    decreases |s|
  {
    if i > 0 && IsSpace(s[0]) {
      RemoveSpacesKeeps(s[1..], i - 1);
    }
  }

  lemma StripUnchanged(h: string)
    requires h != [] && !IsSpace(h[0]) && !IsSpace(h[|h| - 1])
    ensures Strip(h) == h
  {
    assert LeadCount(h, IsSpace) == 0;
    assert TrailCount(h, IsSpace) == 0;
  }

  lemma StripSlashUnchanged(h: string)
    requires h != [] && h[0] != '/' && h[|h| - 1] != '/'
    ensures StripChar(h, '/') == h
  {
    assert LeadCount(h, c => c == '/') == 0;
    assert TrailCount(h, c => c == '/') == 0;
  }

  lemma LowerStrAppend(a: string, b: string)
    ensures LowerStr(a + b) == LowerStr(a) + LowerStr(b)
  {
  }

  /** Lower-casing a string without upper-case letters changes nothing. */
  lemma LowerStrNoUpper(s: string)
    requires NoUpper(s)
    ensures LowerStr(s) == s
  {
  }

  /** The first occurrence pins `IndexOf`. */
  lemma IndexOfAt(s: string, c: char, p: nat)
    requires p < |s| && s[p] == c
    requires forall i :: 0 <= i < p ==> s[i] != c
    ensures IndexOf(s, c) == p
  {
  }

  /** `Strip` cuts a slice out of its argument, with only whitespace
      around it. */
  lemma StripSlice(s: string) returns (a: nat, b: nat)
    ensures a <= b <= |s| && Strip(s) == s[a..b]
    ensures forall i :: 0 <= i < a ==> IsSpace(s[i])
    ensures forall i :: b <= i < |s| ==> IsSpace(s[i])
  {
    a := LeadCount(s, IsSpace);
    var u := s[a..];
    var m := TrailCount(u, IsSpace);
    b := a + (|u| - m);
    assert Strip(s) == u[..|u| - m];
    forall i | b <= i < |s| ensures IsSpace(s[i]) {
      assert s[i] == u[i - a];
    }
  }

  /** Every character `Strip` keeps comes from its argument. */
  lemma StripChars(s: string)
    ensures forall i :: 0 <= i < |Strip(s)| ==> Strip(s)[i] in s
  {
    var a, b := StripSlice(s);
    forall i | 0 <= i < |Strip(s)| ensures Strip(s)[i] in s {
      assert Strip(s)[i] == s[a + i];
    }
  }

  lemma SingleSpacedSlice(s: string, a: nat, b: nat)
    requires SingleSpaced(s) && a <= b <= |s|
    ensures SingleSpaced(s[a..b])
  {
    var t := s[a..b];
    forall i | 0 <= i < |t| - 1 ensures !(IsSpace(t[i]) && IsSpace(t[i + 1])) {
      assert t[i] == s[a + i] && t[i + 1] == s[a + i + 1];
    }
  }

  lemma StripSingleSpaced(s: string)
    requires SingleSpaced(s)
    ensures SingleSpaced(Strip(s))
  {
    var a, b := StripSlice(s);
    SingleSpacedSlice(s, a, b);
  }

  lemma DropOneSpace(s: string)
    requires |s| >= 1 && IsSpace(s[0]) && (|s| == 1 || !IsSpace(s[1]))
    ensures DropWhile(s, IsSpace) == s[1..]
  {
    assert LeadCount(s[1..], IsSpace) == 0;
  }

  /** Collapsing whitespace runs changes nothing when there are none. */
  lemma {:induction false} CollapseSingleSpaced(s: string)
    requires SingleSpaced(s)
    ensures CollapseSpaces(s) == s
    decreases |s|
  {
    if s != [] {
      var t := s[1..];
      SingleSpacedSlice(s, 1, |s|);
      CollapseSingleSpaced(t);
      if IsSpace(s[0]) {
        DropOneSpace(s);
      }
    }
  }

  /** A string contains every infix of itself. */
  lemma {:induction false} ContainsInfix(pre: string, sub: string, post: string)
    ensures Contains(pre + sub + post, sub)
    decreases |pre|
  {
    var s := pre + sub + post;
    if pre == [] {
      assert s[..|sub|] == sub;
    } else {
      assert s[1..] == pre[1..] + sub + post;
      ContainsInfix(pre[1..], sub, post);
    }
  }

  /** A string lacking one character of `sub` does not contain `sub`. */
  lemma {:induction false} MissingCharNotContained(s: string, sub: string, k: nat)
    requires k < |sub| && sub[k] !in s
    ensures !Contains(s, sub)
    decreases |s|
  {
    if |s| > 0 {
      MissingCharNotContained(s[1..], sub, k);
    }
  }

  /** `Contains` as an explicit position. */
  lemma {:induction false} ContainsAt(s: string, sub: string) returns (i: nat)
    requires Contains(s, sub)
    ensures i + |sub| <= |s| && s[i..i + |sub|] == sub
    decreases |s|
  {
    if StartsWith(s, sub) {
      i := 0;
    } else {
      var j := ContainsAt(s[1..], sub);
      i := j + 1;
      assert s[i..i + |sub|] == s[1..][j..j + |sub|];
    }
  }

  /** Stripping stops at the first and last non-whitespace characters. */
  lemma StripBounds(s: string, i: nat, j: nat) returns (a: nat, b: nat)
    requires i <= j < |s| && !IsSpace(s[i]) && !IsSpace(s[j])
    ensures a <= i && j < b <= |s| && Strip(s) == s[a..b]
  {
    a := LeadCount(s, IsSpace);
    var u := DropWhile(s, IsSpace);
    assert u == s[a..];
    var m := TrailCount(u, IsSpace);
    assert u[j - a] == s[j];
    b := |s| - m;
    assert Strip(s) == u[..|u| - m];
  }

  /** Stripping keeps every slice whose ends are not whitespace. */
  lemma StripKeepsSlice(s: string, i: nat, j: nat)
    requires i <= j < |s| && !IsSpace(s[i]) && !IsSpace(s[j])
    ensures Contains(Strip(s), s[i..j + 1])
  {
    var a, b := StripBounds(s, i, j);
    var t := s[a..b];
    var x, y := t[..i - a], t[j + 1 - a..];
    assert t == x + s[i..j + 1] + y;
    ContainsInfix(x, s[i..j + 1], y);
  }

  /** Stripping never cuts into an infix whose ends are not whitespace. */
  lemma StripKeepsInfix(pre: string, mid: string, post: string)
    requires mid != [] && !IsSpace(mid[0]) && !IsSpace(mid[|mid| - 1])
    ensures Contains(Strip(pre + mid + post), mid)
  {
    var s := pre + mid + post;
    var i, j := |pre|, |pre| + |mid| - 1;
    assert s[i..j + 1] == mid;
    StripKeepsSlice(s, i, j);
  }

  /** Lower-casing keeps the whitespace positions. */
  lemma LowerSameSpaces(s: string)
    ensures |LowerStr(s)| == |s|
    ensures forall i :: 0 <= i < |s| ==> (IsSpace(LowerStr(s)[i]) <==> IsSpace(s[i]))
  {
  }

  /** Two texts on which `p` holds at the same places. */
  predicate SamePlaces(s: string, t: string, p: char -> bool) {
    |s| == |t| && forall i :: 0 <= i < |s| ==> (p(s[i]) <==> p(t[i]))
  }

  lemma {:induction false} LeadCountSame(s: string, t: string, p: char -> bool)
    requires SamePlaces(s, t, p)
    ensures LeadCount(s, p) == LeadCount(t, p)
  {
    if |s| > 0 && p(s[0]) {
      LeadCountSame(s[1..], t[1..], p);
    }
  }

  lemma {:induction false} TrailCountSame(s: string, t: string, p: char -> bool)
    requires SamePlaces(s, t, p)
    ensures TrailCount(s, p) == TrailCount(t, p)
  {
    if |s| > 0 && p(s[|s| - 1]) {
      TrailCountSame(s[..|s| - 1], t[..|t| - 1], p);
    }
  }

  /** Lower-casing commutes with stripping, which only looks at
      whitespace. */
  lemma LowerStrip(s: string)
    ensures LowerStr(Strip(s)) == Strip(LowerStr(s))
  {
    LowerSameSpaces(s);
    var lo, hi := StripSameSlice(s, LowerStr(s));
    LowerSlice(s, lo, hi);
  }

  /** Texts with whitespace at the same places strip to the same slice. */
  lemma StripSameSlice(s: string, t: string) returns (lo: nat, hi: nat)
    requires |s| == |t| && forall i :: 0 <= i < |s| ==> (IsSpace(s[i]) <==> IsSpace(t[i]))
    ensures lo <= hi <= |s| && Strip(s) == s[lo..hi] && Strip(t) == t[lo..hi]
  {
    assert SamePlaces(s, t, IsSpace);
    lo, hi := TrimSameSlice(s, t, IsSpace);
  }

  /** Trimming `p` from both ends of texts on which `p` holds at the same
      places keeps the same slice of each. */
  lemma TrimSameSlice(s: string, t: string, p: char -> bool) returns (lo: nat, hi: nat)
    requires SamePlaces(s, t, p)
    ensures lo <= hi <= |s|
    ensures DropWhileEnd(DropWhile(s, p), p) == s[lo..hi]
    ensures DropWhileEnd(DropWhile(t, p), p) == t[lo..hi]
  {
    LeadCountSame(s, t, p);
    lo := LeadCount(s, p);
    SamePlacesSuffix(s, t, p, lo);
    TrailCountSame(s[lo..], t[lo..], p);
    hi := |s| - TrailCount(s[lo..], p);
    TrimByCounts(s, p, lo, hi);
    TrimByCounts(t, p, lo, hi);
  }

  /** Trimming in terms of the leading and trailing counts. */
  lemma TrimByCounts(s: string, p: char -> bool, lo: nat, hi: int)
    requires lo == LeadCount(s, p) && hi == |s| - TrailCount(s[lo..], p)
    ensures lo <= hi <= |s| && DropWhileEnd(DropWhile(s, p), p) == s[lo..hi]
  {
    var u := DropWhile(s, p);
    PrefixOfSuffix(s, u, lo, DropWhileEnd(u, p), hi);
  }

  lemma PrefixOfSuffix<T>(s: seq<T>, u: seq<T>, lo: nat, w: seq<T>, hi: int)
    requires lo <= hi <= |s| && u == s[lo..] && w == u[..hi - lo]
    ensures w == s[lo..hi]
  {
  }

  lemma SamePlacesSuffix(s: string, t: string, p: char -> bool, k: nat)
    requires SamePlaces(s, t, p) && k <= |s|
    ensures SamePlaces(s[k..], t[k..], p)
  {
    var u, v := s[k..], t[k..];
    forall i | 0 <= i < |u| ensures p(u[i]) <==> p(v[i]) {
      assert u[i] == s[k + i] && v[i] == t[k + i];
    }
  }

  /** An infix of the lower-cased text, with non-whitespace ends, is an
      infix of the stripped and lower-cased text. */
  lemma LowerInfixSurvivesStrip(s: string, pre: string, mid: string, post: string)
    requires LowerStr(s) == pre + mid + post
    requires mid != [] && !IsSpace(mid[0]) && !IsSpace(mid[|mid| - 1])
    ensures Contains(LowerStr(Strip(s)), mid)
  {
    LowerStrip(s);
    StripKeepsInfix(pre, mid, post);
  }

  // ---------------------------------------------------------------------
  // Python's string comparison: lexicographic by code point.

  /** `a < b` on Python strings. */
  predicate LexLess(a: string, b: string)
    decreases |a|
  {
    if a == [] then b != []
    else if b == [] then false
    else if a[0] != b[0] then a[0] < b[0]
    else LexLess(a[1..], b[1..])
  }

  lemma {:induction false} LexIrreflexive(a: string)
    ensures !LexLess(a, a)
    decreases |a|
  {
    if a != [] {
      LexIrreflexive(a[1..]);
    }
  }

  lemma {:induction false} LexTransitive(a: string, b: string, c: string)
    requires LexLess(a, b) && LexLess(b, c)
    ensures LexLess(a, c)
    decreases |a|
  {
    if a != [] && a[0] == b[0] && b[0] == c[0] {
      LexTransitive(a[1..], b[1..], c[1..]);
    }
  }

  /** Two different strings are ordered one way or the other. */
  lemma {:induction false} LexTotal(a: string, b: string)
    ensures a == b || LexLess(a, b) || LexLess(b, a)
    decreases |a|
  {
    if a != [] && b != [] && a[0] == b[0] {
      LexTotal(a[1..], b[1..]);
      if a[1..] == b[1..] {
        assert a == [a[0]] + a[1..] && b == [b[0]] + b[1..];
      }
    }
  }

  lemma {:induction false} LexAsymmetric(a: string, b: string)
    requires LexLess(a, b)
    ensures !LexLess(b, a)
    decreases |a|
  {
    if a != [] && b != [] && a[0] == b[0] {
      LexAsymmetric(a[1..], b[1..]);
    }
  }
}

=== FILE: urls.dfy ===
/** A simplified `urllib.parse`: the parts of `urlparse` and `parse_qs`
    that the pipeline reads (network location, path, query, and the first
    value of a query parameter). Percent-decoding is not modelled. */
module Urls {
  import opened Wrappers
  import opened Text

  predicate IsAsciiLetter(c: char) { ('a' <= c <= 'z') || ('A' <= c <= 'Z') }

  predicate IsSchemeChar(c: char) {
    IsAsciiLetter(c) || IsDigit(c) || c == '+' || c == '-' || c == '.'
  }

  predicate IsTabOrNewline(c: char) { c == '\t' || c == '\r' || c == '\n' }

  /** `s` without tab, carriage-return and line-feed characters. */
  function RemoveTabsNewlines(s: string): (r: string)
    ensures |r| <= |s|
  {
    if s == [] then []
    else if IsTabOrNewline(s[0]) then RemoveTabsNewlines(s[1..])
    else [s[0]] + RemoveTabsNewlines(s[1..])
  }

  /** urlsplit's clean-up: leading C0 controls and spaces are stripped and
      tabs and newlines are deleted anywhere. */
  function Sanitize(u: string): string {
    RemoveTabsNewlines(DropWhile(u, c => c <= ' '))
  }

  predicate IsNetlocDelimiter(c: char) { c == '/' || c == '?' || c == '#' }

  /** The schemes for which `urlparse` splits `;params` off the path. */
  predicate UsesParams(scheme: string) {
    scheme in ["", "ftp", "hdl", "prospero", "http", "imap", "https", "shttp",
               "rtsp", "rtsps", "rtspu", "sip", "sips", "mms", "sftp", "tel"]
  }

  datatype UrlParts = UrlParts(scheme: string, netloc: string, path: string, query: string)

  /** The scheme (lower-cased) and the rest, when the text before the first
      `:` is a valid scheme; otherwise no scheme. */
  function SplitScheme(u: string): (string, string) {
    var i := IndexOf(u, ':');
    if 0 < i < |u| && IsAsciiLetter(u[0]) && forall k :: 0 <= k < i ==> IsSchemeChar(u[k])
    then (LowerStr(u[..i]), u[i + 1..])
    else ("", u)
  }

  /** `_splitparams`: the path without the `;params` of its last segment. */
  function DropParams(path: string): string {
    if ';' !in path then path
    else if '/' in path then
      var lastSlash := |path| - 1 - TrailCount(path, c => c != '/');
      var j := IndexOf(path[lastSlash..], ';');
      if lastSlash + j < |path| then path[..lastSlash + j] else path
    else path[..IndexOf(path, ';')]
  }

  /** `urlparse(u)`: network location after `//` up to the first `/`, `?`
      or `#`; the fragment is cut at the first `#`, the query at the first
      `?`, and `;params` are dropped from the path. */
  function UrlParse(u: string): UrlParts {
    var (scheme, rest) := SplitScheme(Sanitize(u));
    var hasNetloc := StartsWith(rest, "//");
    var afterSlashes := if hasNetloc then rest[2..] else rest;
    var n := if hasNetloc then LeadCount(afterSlashes, c => !IsNetlocDelimiter(c)) else 0;
    var netloc := afterSlashes[..n];
    var tail := afterSlashes[n..];
    var noFragment := Before(tail, '#');
    var path := Before(noFragment, '?');
    var query := After(noFragment, '?');
    UrlParts(scheme, netloc, if UsesParams(scheme) then DropParams(path) else path, query)
  }

  /** `urlparse(u).netloc`. */
  function Netloc(u: string): string {
    UrlParse(u).netloc
  }

  /** `urlparse` raises `ValueError` ("Invalid IPv6 URL") when the network
      location holds one square bracket without the other. */
  predicate BracketsBalanced(netloc: string) {
    ('[' in netloc) == (']' in netloc)
  }

  /** `parse_qs(query).get(key, [None])[0]`: the value of the first
      `key=value` piece (pieces split on `&`) whose value is non-empty;
      `+` in a piece reads as a space. */
  function QueryValue(query: string, key: string): Option<string> {
    FirstValue(Split(query, '&'), key)
  }

  function FirstValue(pieces: seq<string>, key: string): (r: Option<string>)
    ensures r.Some? ==> r.value != []
  {
    if pieces == [] then None
    else
      var piece := pieces[0];
      if '=' in piece && After(piece, '=') != []
         && ReplaceChar(Before(piece, '='), '+', ' ') == key
      then Some(ReplaceChar(After(piece, '='), '+', ' '))
      else FirstValue(pieces[1..], key)
  }
}

=== FILE: wrappers.dfy ===
/** Option and Result: the model's stand-ins for Python's `None` and for
    collaborator calls that either produce a value or record an error. */
module Wrappers {

  datatype Option<+T> = None | Some(value: T) {

    /** The value, or `default` when there is none (Python's `x or default`
        for a value that is never falsy). */
    function GetOr(default: T): T {
      match this
      case Some(v) => v
      case None => default
    }
  }

  datatype Result<+R, +E> = Success(value: R) | Failure(error: E)
}
